=== FILE: README.md ===
# Question-practice assessment engine, modelled in Dafny

This project models the assessment engine of a Flask quiz and exam
application (`app.py`). The engine is a set of request handlers over one
user's learning state. That state has three parts:

- the mastery sets: answered, wrong and bookmarked questions, plus a
  per-question wrong counter;
- the append-only wrong-answer log;
- the list of exam records.

Every handler is modelled as a pure function from the old state, and the
request's inputs, to a reply and a new state:

- **scoring**: a practice answer and a whole exam sheet;
- **practice selection**: pick a question by mode and type;
- **exams**: start or resume, autosave, submit, and the lazily expiring
  records list with its clamped pagination;
- **views**: the question bank, the bookmarked bank, the wrong-answer book
  and the question detail view;
- **bookmarks**: normalisation on load and the toggle;
- **storage**: the set-to-list projection of the stored document and
  what a reload gives back;
- **cache**: the five-minute question cache.

Modules follow the program's parts:

| module | file | part |
|---|---|---|
| `Wrappers` | `wrappers.dfy` | `Option`, `Result` |
| `PyOps` | `pyops.dfy` | Python semantics used by the handlers: floor and truncating division, slicing with out-of-range bounds, list-comprehension filtering, `str(int)`, `str.isdigit`/`int(str)`, `str.split` |
| `Model` | `model.dfy` | questions, answers, user state, exam records, the consistency invariant |
| `Scoring` | `scoring.dfy` | the correctness rule, `submit_answer`, the exam-sheet fold of `_finalize_exam_from_record` |
| `StableSort` | `sorting.dfy` | Python's stable `list.sort` with a key and `reverse` |
| `Paging` | `paging.dfy` | the two pagination schemes |
| `Exam` | `exam.dfy` | finalize, start/resume, autosave, submit, records list |
| `Selection` | `selection.dfy` | `get_random_question` |
| `Store` | `store.dfy` | load normalisation, save projection, `toggle_important` |
| `Bank` | `bank.dfy` | `get_question_bank`, `get_important_bank` |
| `WrongBook` | `wrongbook.dfy` | `get_wrong_questions` |
| `QuestionDetail` | `detail.dfy` | `get_question_detail` |
| `QuestionCache` | `cache.dfy` | `load_questions` |

The central invariant is `Model.Consistent`. It says three things:

- every wrong question is an answered question;
- the wrong set is exactly the set of ids in the log;
- every stored wrong counter equals the number of log records for that
  question.

The first two parts on their own are `Model.WrongLogged`. Every mutating
handler is proved to preserve both predicates on the in-memory state. A
save and reload keeps `WrongLogged` and needs nothing more beforehand
(`Store.ConsistentAcrossReload`), so it holds across any sequence of
requests and reloads. The counter part does not survive a reload: the
counters come back under string keys (`Store.ReloadLosesCounters`, and
Finding 1 below). Every request starts from a reloaded state, so the view
lemmas require only `WrongLogged`.

Time is an integer count of microseconds, the resolution of the
`datetime` clock the handlers read. The clock is always a parameter
(`now`). Microseconds matter here because the two exam-expiry tests differ
by less than one second. Resuming truncates `duration - elapsed` to whole
seconds and calls the exam expired at 0. The records list calls it expired
only when `elapsed >= duration`. ISO timestamps are compared as strings in
the source, and they order exactly like these integers. The bank's
`'%Y-%m-%d %H:%M'` display becomes a minute index, `Bank.MinuteOf`.

## Model

| member | source | states |
|---|---|---|
| Model.CountWrong | app.py:746-751 | the wrong count of a question is at most the log length, and is zero exactly when no log record names the question |
| Model.NewUser | app.py:369-377 | a newly registered user has empty sets, an empty log, no exams, no counters and no counters carried over from a file, and satisfies the consistency invariant |
| Model.CountAppend | app.py:509-513 | appending one wrong record raises that question's count by one and no other |
| Model.CountConcat | app.py:278-280 | the number of records for an id in two runs of appends is the sum of the two runs' numbers |
| Model.LogIdsAppend | app.py:498-509 | appending a record adds exactly its question id to the set of logged ids |
| Model.LogIdsConcat | app.py:268-277 | the ids logged by two runs of appends are the ids of the first run together with those of the second |
| PyOps.FloorDiv | app.py:826-830 | Python `//`: the quotient times the divisor is within one divisor of the dividend, rounding toward minus infinity |
| PyOps.TruncDiv | app.py:540 | `int()` of a quotient: the exact quotient for a non-negative dividend, at most zero for a negative one, and at least one exactly when the dividend reaches the divisor |
| PyOps.SliceBound | app.py:825-827 | a slice bound is clamped into the list: a negative bound counts from the end, a bound past either end stops at that end |
| PyOps.Slice | app.py:822-832 | Python slicing `lst[i:j]`: within bounds it is the sub-sequence `i..j`, a bound past the end stops at the end, an empty or reversed range gives nothing, and the result has at most `j - i` elements, all from the list |
| PyOps.Filter | app.py:416-438 | a list comprehension with a condition keeps only elements of the list that satisfy it, keeps every element that does, and is no longer than the list |
| PyOps.FilterSingleton | app.py:416-438 | a one-element list keeps its element exactly when it satisfies the condition |
| PyOps.FilterAppend | app.py:416-438 | filtering a concatenation is the concatenation of the filtered parts, so the kept elements stay in order with their repetitions |
| PyOps.FilterCongruent | app.py:872-901 | two comprehensions over position-wise corresponding lists with corresponding conditions give the same list |
| PyOps.ParseOfDecimal | app.py:200-203 | the decimal rendering of a natural number passes `isdigit`, and `int()` of it gives the number back |
| PyOps.DecimalInjective | app.py:963 | different integers have different decimal renderings |
| PyOps.NegativeIsNotDigits | app.py:200 | the rendering of a negative integer is not made only of digits |
| PyOps.Split | app.py:490 | `str.split(sep)` gives at least one piece, and no piece contains the separator |
| PyOps.JoinSplit | app.py:490 | splitting a string and joining the pieces with the same separator is the identity |
| Scoring.MultiChoiceIgnoresOrder | app.py:482-492 | for a multiple-choice question, two submissions with the same keys are judged alike, whatever their order and repetitions |
| Scoring.MultiChoiceCorrectIff | app.py:488-492 | a multiple-choice submission is correct exactly when every submitted key is a correct key and every correct key is submitted |
| Scoring.UnansweredIsIncorrect | app.py:238-245 | an absent or empty answer is never correct for a question with a non-empty key |
| Scoring.MultiChoiceExample | app.py:482-495 | with key `"A,C"`, `["C","A"]` and `["A","C","A"]` are correct, `["A"]` is not, and `["A"]` counts as answered |
| Scoring.FindQuestion | app.py:467 | `next(q for q in questions if q['id'] == id)`: none exactly when no question has the id, otherwise the first such question |
| Scoring.RecordWrong | app.py:497-513 | a wrong event appends one log record, adds the id to the answered and wrong sets, and leaves bookmarks, exams and the counters read from the file alone; the counters become the old ones with this id's set to its old value plus one (one when it had none), and under the invariant that counter equals the log count |
| Scoring.WrongEventKeepsCounts | app.py:278-280 | for any state, when the invariant held, bumping the counter together with appending the record keeps it, and the new counter is the old log count plus one |
| Scoring.SubmitAnswer | app.py:458-521 | error exactly when the id is not in the bank; otherwise the reply states correctness, and the id becomes answered; a correct answer changes nothing else, a wrong one appends exactly one log record, adds the id to the wrong set and raises that id's counter by one from its old value or from zero, all other counters kept; the counters read from the file never change; both the set invariant and the full invariant are kept |
| Scoring.EmptyPracticeAnswerIsLogged | app.py:497-513 | for any state, a practice submission with no answer is judged wrong, appends its record to the log, marks the question wrong and raises its integer-keyed counter by one (from 0 when absent); under the full invariant the counter then equals the log count |
| Scoring.AttemptedIdsCons | app.py:246-266 | the ids an exam sheet marks answered (and wrong) are built question by question: a question contributes exactly when it was answered |
| Scoring.ScoreQuestionEffect | app.py:246-280 | scoring one exam question adds its score only when correct, lists it as missed exactly when not correct, and logs it and marks it answered and wrong only when a non-empty answer was wrong |
| Scoring.ScoreSheetResult | app.py:246-268 | the exam total is the sum of the scores of correctly answered questions, and the missed list has one entry per question not answered correctly |
| Scoring.ScoreSheetLog | app.py:268-277 | finalizing appends to the log exactly one record per question answered wrongly, in sheet order, and no records for blank answers |
| Scoring.ScoreSheetExams | app.py:246-280 | scoring a sheet leaves the exam records unchanged |
| Scoring.ScoreQuestionCounts | app.py:265-280 | scoring one exam question adds to the counters' keys exactly the ids it logs, raises each counter by its records among them, and keeps the counters read from the file |
| Scoring.ScoreSheetCounts | app.py:246-280 | scoring a sheet adds to the counters' keys exactly the ids of the records it logs, raises each counter by its number of those records (from zero when absent), and keeps the counters read from the file |
| Scoring.WrongLogIds | app.py:265-277 | the log records a sheet adds name exactly the questions answered wrongly (not blank) on it |
| Scoring.WrongAttemptsAttempted | app.py:265-267 | every question answered wrongly on a sheet is among those it marks answered |
| Scoring.SheetKeepsWrongLogged | app.py:246-280 | adding a sheet's attempted ids, wrong ids and log records to a state keeps the set invariant |
| Scoring.ScoreSheetSets | app.py:254-266 | the answered set grows by the attempted ids and the wrong set by the wrongly answered ids; bookmarks are untouched |
| Scoring.ScoreSheetConsistent | app.py:254-280 | finalizing a sheet keeps the consistency invariant |
| Scoring.CorrectPlusMissed | app.py:246-268 | the number of correct questions plus the number of missed entries is the number of questions |
| Scoring.BlankSheetChangesNothing | app.py:265 | a sheet with no answers changes neither the sets, the log nor the counters, scores nothing, and lists every question as missed |
| StableSort.Insert | app.py:808-815 | inserting into a sorted list keeps its elements and adds one |
| StableSort.Sort | app.py:808-815 | sorting returns a permutation of its input |
| StableSort.SortSorted | app.py:808-815 | the sorted list is ordered by the key |
| StableSort.SortStable | app.py:808-815 | elements with equal keys keep their original relative order, as Python's sort guarantees, including with `reverse=True` |
| StableSort.SortUniformIsIdentity | app.py:1118-1122 | a list whose keys are all equal is left as it is |
| StableSort.InsertSorted | app.py:808-815 | inserting into a sorted list keeps it sorted |
| StableSort.InsertClass | app.py:808-815 | inserting an element appends it after the elements with the same key |
| Paging.PaginateSpec | app.py:822-832 | per-type paging for a page number of at least one: the page is `lst[(p-1)*s : p*s]`, total pages is the ceiling of total over size, has-next exactly when `p*s < total`, has-prev exactly when `p > 1` |
| Paging.ItemOnItsPage | app.py:822-832 | every item appears on page `i / s + 1`, at offset `i % s`, and that page is within the page count |
| Paging.NonPositivePage | app.py:714-716 | the page number is taken unclamped: page 0 gives an empty page, a negative page is the slice counted back from the end of the list, and neither has a previous page |
| Paging.CeilingDiv | app.py:830 | `(total + s - 1) // s` is the least page count whose pages hold `total` items |
| Paging.ClampedPageNumber | app.py:1123-1128 | the records page number is clamped into `1..max(total_pages, 1)` and a valid requested page is kept; has-next and has-prev follow the clamped page |
| Paging.ClampedPageItems | app.py:1123-1128 | with a positive size a non-empty list always yields a non-empty page of at most the size, the slice starting inside the list |
| Exam.FinalizeExam | app.py:230-287 | the exam's total is the sheet score, the missed list is the sheet's, correct plus missed is the question count; the record becomes completed with end time, score and missed list; no other record changes; the log, answered and wrong sets grow as the sheet says; the counters gain exactly the wrongly answered ids, each raised by the number of records logged for it; the counters read from the file are kept; the set invariant and the full invariant are kept |
| Exam.TimeLeft | app.py:538-541 | the remaining time is positive exactly when at most `duration - 1` seconds have elapsed |
| Exam.ExpiryTestsDiffer | app.py:540-541 | an exam over time in the records list also has no time left on resume, but an exam one microsecond short of its duration is expired on resume and not in the list |
| Exam.LatestOngoing | app.py:535-536 | the newest ongoing record, scanning from the end; none exactly when no record is ongoing |
| Exam.OfType | app.py:553-555 | the questions of one type: every member has the type and comes from the bank, and every such bank question is included |
| Exam.Take | app.py:557-559 | a sample picks the pool's questions at the sampled positions |
| Exam.ExamPaper | app.py:556-560 | a new paper is 150 bank questions: 50 single-choice, then 50 true/false, then 50 multiple-choice |
| Exam.ExamPaperHasNoRepeats | app.py:556-560 | when bank ids are unique, no question appears twice on a paper |
| Exam.TakeDistinct | app.py:557-559 | sampling without replacement from a pool with unique ids yields unique ids |
| Exam.OfTypeDistinct | app.py:553-555 | filtering by type keeps ids unique |
| Exam.BlocksDisjoint | app.py:556-560 | blocks of different types share no id |
| Exam.StartExam | app.py:529-572 | when the newest ongoing exam has time left it is returned with its answers and nothing changes; otherwise that exam (if any) becomes exactly itself completed at now with its stored sheet's score and missed list, its wrong answers are logged, its attempted and wrong ids added to the sets and each wrongly answered id's counter raised by its logged records, and a new exam with the drawn paper, no answers and a 3600-second duration is appended; the counters read from the file are kept; the set invariant and the full invariant are kept |
| Exam.CreateThenResume | app.py:535-549 | starting twice within the hour returns the same exam and paper and creates nothing |
| Exam.ExpiredExamIsReplaced | app.py:540-572 | starting again after the hour finalizes the old exam and appends a new one |
| Exam.SaveProgress | app.py:598-616 | a missing id fails, and an id with no ongoing record fails, with no change; otherwise only the newest ongoing record with the id gets the new answers and save time, and the sets and log (so the set invariant) are kept |
| Exam.SaveThenResume | app.py:598-616 | answers autosaved into the open exam are the answers a resume returns |
| Exam.FirstWithId | app.py:584-588 | the first record with the id; none exactly when no record has it |
| Exam.SubmitExam | app.py:574-596 | fails exactly when no record has the id; otherwise the first such record, whatever its status, becomes exactly itself with the submitted answers, completed at now with their score and missed list: the log grows by the sheet's wrong answers, the answered set by the attempted ids, the wrong set by the wrongly answered ids and each of their counters by its logged records; bookmarks, the counters read from the file and other records are kept; the set invariant and the full invariant are kept |
| Exam.DoubleSubmitLogsTwice | app.py:584-595 | submitting a completed exam again is accepted, scores the same, and logs its wrong answers a second time |
| Exam.ExpireAt | app.py:1106-1111 | one expiry step changes only the record it looks at, keeps that record's identity, leaves the state alone when the record is not both ongoing and over time, and otherwise finalizes it: completed at now with its sheet's score and missed questions |
| Exam.ExpireFromKeeps | app.py:1105-1111 | lazy expiry keeps the number and identity of records and leaves records that were not stale untouched |
| Exam.ExpireFromCompletes | app.py:1105-1111 | lazy expiry turns every ongoing, over-time record into exactly itself completed at now with its sheet's score and missed list |
| Exam.ExpireStepEffects | app.py:1106-1111 | one expiry step appends the record's wrong answers to the log only when it is stale, adds their ids to the wrong set and the counters' keys, raises each counter by its records among them, adds the attempted ids to the answered set, and keeps bookmarks and the counters read from the file |
| Exam.ExpireFromEffects | app.py:1105-1111 | lazy expiry appends to the log exactly the stale records' wrong answers in list order, adds their ids to the wrong set and the stale records' attempted ids to the answered set, and keeps bookmarks and the counters read from the file |
| Exam.ExpireFromCounts | app.py:1105-1111 | after lazy expiry the counters' keys are the old keys and the ids of the appended records, and each counter is its old value (zero when absent) plus its number of appended records |
| Exam.ExpireFromConsistent | app.py:1105-1111 | lazy expiry keeps the invariant |
| Exam.ExpireFromWrongLogged | app.py:1105-1111 | lazy expiry keeps the set invariant |
| Exam.ExpireLeavesNoneStale | app.py:1105-1111 | after expiry no record is both ongoing and over time |
| Exam.ExamRecords | app.py:1084-1141 | after the request no record is stale; every record keeps its identity, a record that was not stale is unchanged and a stale one is exactly itself finalized at now; the log grows by exactly the stale records' wrong answers in list order, the wrong set by their ids and the answered set by their attempted ids, each counter rises by its records among them, and bookmarks and the counters read from the file are kept; the page is the clamped page of the records stably sorted newest first, so it lists records newest first, all from the list; the page number is at least one; the total is the record count; a non-empty list gives a non-empty page of at most the page size; the set invariant and the full invariant are kept |
| Exam.SortedPage | app.py:1118-1128 | a clamped page of the newest-first records holds stored records, newest first, with a page number of at least one and a non-empty page of at most the size when there are records |
| Exam.SliceOfSorted | app.py:1118-1128 | any slice of the newest-first list is itself newest first |
| Selection.ModePool | app.py:416-432 | the mode's pool holds exactly the bank questions the mode admits |
| Selection.TypePool | app.py:434-438 | the type filter keeps exactly the pool questions of that type, and a filter outside 1..3 keeps all |
| Selection.PickQuestion | app.py:397-456 | fails exactly when no bank question is eligible; the mode's own error exactly when its pool is empty; the type error otherwise; the drawn question is in the bank and eligible; only unanswered mode marks it answered; nothing else changes, the counters read from the file included; the bookmark flag is reported; the set invariant and the full invariant are kept |
| Selection.PickIsTypedEntry | app.py:440 | a choice value inside the filtered pool draws the question at that position |
| Selection.EveryEligibleQuestionCanBeDrawn | app.py:440 | every eligible question is drawn for some value of the random generator |
| Selection.LastUnansweredThenExhausted | app.py:416-445 | with one unanswered question left, unanswered mode draws it, and the next request reports the bank exhausted |
| Store.ListOf | app.py:108-114 | `list(set)` lists every member exactly once |
| Store.Persist | app.py:105-114 | saving turns each set into a list with the same members and the same size; the counters are written as the loaded string keys followed by the integer keys as decimal strings |
| Store.Restore | app.py:188-209 | loading turns the lists back into sets with the same members and normalises bookmarks; the counters are kept with their string keys, so none is found under an integer id |
| Store.RestoreProjection | app.py:188-209 | loading what was saved gives back the answered and wrong sets, and the bookmarks when already normalised; each counter comes back only under its id's decimal string |
| Store.ConsistentAcrossReload | app.py:180-217 | a save and load of any state whose wrong questions are answered and logged gives back the same answered and wrong sets, so the set invariant holds again and keeps holding across any number of reloads |
| Store.ReloadLosesCounters | app.py:180-217 | after a save and load of a consistent state with a non-empty log, the invariant fails: no wrong question has a counter under its integer id |
| Store.SavedCounts | app.py:105-114 | the dumped counters hold the loaded string keys and every integer key as its decimal string; an integer key's value wins over a loaded entry with the same text |
| Store.BookmarkSurvivesReload | app.py:193-209 | every saved bookmark is present after a reload, in normalised form |
| Store.ParseIntOfDecimal | app.py:200-203 | `int()` reads back any integer's rendering |
| Store.SaveCounts | app.py:105-114 | JSON writes each integer key as its decimal string, keeping the values |
| Store.SavedKeysCanonical | app.py:105-114 | every key written for an integer counter is exactly what `str` gives for some integer |
| Store.LoadCounts | app.py:188-192 | corrected (Finding 1), not what these lines do: the counters read back under the integers whose renderings are the stored keys |
| Store.CountsRoundTrip | app.py:188-192 | corrected (Finding 1): saving integer-keyed counters and reading them back with `Store.LoadCounts` gives the same counters |
| Store.NormalizeIdempotent | app.py:193-209 | normalising a bookmark twice is normalising it once |
| Store.NormalizeDecimal | app.py:198-205 | a digit string of a non-negative id becomes the integer id; a negative rendering stays a string |
| Store.LoadImportant | app.py:193-209 | loaded bookmarks are normalised, and each stored entry appears in normalised form |
| Store.ToggleImportant | app.py:1020-1044 | a falsy id fails with no change; otherwise marking adds the id and unmarking removes it, the reply repeats the requested mark, and nothing else changes, the counters read from the file included, so both invariants are kept |
| Store.ToggleIdempotent | app.py:1038-1041 | toggling with the same mark twice is the same as once |
| Store.MarkThenUnmark | app.py:1038-1041 | marking a new bookmark and then unmarking it restores the state |
| Store.StringBookmarkAfterReload | app.py:193-209 | a bookmark sent as a digit string becomes an integer bookmark after reload, after which unmarking with the same string no longer removes it |
| Store.CountRestartsAfterReload | app.py:511-513 | after a reload, the saved counter of a question recorded wrong is one, whatever the document held: `{"7": 2}` becomes `{"7": 1}` |
| Store.CountSurvivesReload | app.py:511-513 | corrected (Finding 1): with counter keys read back as integers, each wrong request adds one to the stored counter and keeps the others |
| Store.LoadSavedCounts | app.py:188-192 | corrected (Finding 1): with nothing loaded as strings, re-keying the dumped counters gives them back |
| Store.ConsistentAcrossCorrectedReload | app.py:180-217 | corrected (Finding 1): with counters re-keyed on load, the whole invariant survives a save and reload |
| Bank.FirstWrongTime | app.py:731-736 | the timestamp of the oldest log record for the question; none exactly when there is none |
| Bank.LastWrongTime | app.py:972-976 | the timestamp of the newest log record for the question; none exactly when there is none |
| Bank.RowAsWritten | app.py:731-778 | a bank row carries the question's id, number and type and reports answered, wrong and bookmarked status; its count is the log count for a wrong question and 0 otherwise; an answered question shows the minute of its OLDEST wrong record, or of now when it has none, and an unanswered one no time |
| Bank.Row | app.py:972-976 | corrected (Finding 2), the bank row as intended: the same id, type, status flags and count as the row as written; an answered question shows the minute of its NEWEST wrong record, or of now when it has none |
| Bank.RowCount | app.py:746-751 | when the wrong set is the log's ids, the bank row's wrong count is the log count, and it is positive exactly when the question is wrong |
| Bank.LastAnsweredShowsOldest | app.py:731-736 | with two wrong records a minute apart, the bank row as written shows the older minute and the corrected row the newer; the two rows differ only in that time |
| Bank.FrequentWrongIff | app.py:795-796 | for any state, the frequent-wrong filter keeps a question exactly when it is in the wrong set and has at least three log records; when the wrong set is the log's ids, exactly when it has at least three log records |
| Bank.CorrectIff | app.py:791-792 | when the wrong set is the log's ids, the correct filter keeps a question exactly when it is answered and has no log record |
| Bank.TypeFilterIff | app.py:784-786 | the type filter `"t"` keeps exactly the rows of type `t` |
| Bank.SortRows | app.py:808-815 | sorting keeps the rows; by id ascending, by wrong count descending, by last-answered time descending with unanswered rows first; any other option keeps bank order |
| Bank.RowsOf | app.py:739-778 | one row per bank question, in bank order, each showing its oldest wrong record's time |
| Bank.Listed | app.py:781-806 | a question's row, with its oldest wrong record's time, is listed under a type exactly when it has the type and passes both filters, and only bank rows are listed |
| Bank.TypePage | app.py:808-832 | each type's page lists only rows that pass the filters, at most a page size of them; its total is the number of listed rows of the type and its page number the one requested |
| Bank.TypePageSlice | app.py:808-832 | for a positive page number and size, a type's page is the slice `[(page-1)*size, page*size)` of the sorted listed rows cut at their end, and empty past their end |
| Bank.TypePageMeta | app.py:808-832 | for a positive page number and size, a type's page count is the ceiling of listed/size (zero with no rows), has_next says listed rows lie beyond the page and has_prev that the page is not the first |
| Bank.QuestionBank | app.py:702-845 | a zero page size fails; otherwise each type's page and metadata are that type's `TypePage` with the requested page number, so they list only filtered rows of that type, at most a page size each |
| Bank.ImportantRow | app.py:872-905 | a bookmarked-bank row carries the question's id, number and type, is marked bookmarked, counts all log records for the question, and shows the same status and oldest-record time as the bank row |
| Bank.ImportantRowsOf | app.py:877-905 | one bookmarked-bank row per bank question, in bank order |
| Bank.ImportantListed | app.py:877-881 | the bookmarked bank lists a question's row exactly when the question is bookmarked and of the type, and every listed row is one of the bank's bookmarked-bank rows |
| Bank.ImportantBankMatchesFilter | app.py:847-944 | when the wrong set is the log's ids, the bookmarked bank lists the same rows as the full bank's important filter |
| Bank.ImportantBank | app.py:847-944 | a zero page size fails; when the wrong set is the log's ids, the result equals the full bank under the important filter |
| WrongBook.LastMatch | app.py:653 | the id-to-question dictionary holds, for a repeated id, the last question with it; none exactly when no question has the id |
| WrongBook.AnnotatedLog | app.py:664-677 | one annotated row per log record, in log order |
| WrongBook.SortWrong | app.py:688-694 | sorting keeps the rows; by time newest first, by count descending, by id ascending; any other option keeps log order |
| WrongBook.GroupMembers | app.py:679-686 | a row is in a type's group exactly when it annotates a log record of that type |
| WrongBook.GroupRows | app.py:656-677 | every listed row comes from the log, carries the log count of its question (at least one), its bookmark flag and its bank entry |
| WrongBook.FilterPartition | app.py:685-686 | the three type groups together have as many rows as the log |
| WrongBook.WrongBookCoversLog | app.py:641-700 | the wrong-answer book lists every log record exactly once across its three groups |
| QuestionDetail.FindByText | app.py:963 | the first question whose id, written in decimal, equals the requested id's text; none exactly when none matches |
| QuestionDetail.DetailAsWritten | app.py:946-1018 | fails exactly when the id is falsy or matches no question; otherwise shows the FIRST question whose id text is the requested text, answered, wrong, count and time looked up with the id as sent (a string id matches none), and the bookmark flag of the found question |
| QuestionDetail.GetDetail | app.py:966-990 | corrected (Finding 3): a falsy id fails, and an id matching no question fails; otherwise the first matching question is shown with its own statistics: answered, wrong and bookmark flags, its log count, and the minute of its newest wrong record (or of now) exactly when answered |
| QuestionDetail.DetailIgnoresIdForm | app.py:966-990 | corrected (Finding 3): a numeric id and its decimal string show the same detail |
| QuestionDetail.NumericIdAgrees | app.py:966-990 | for a numeric id the code as written shows the right statistics |
| QuestionDetail.StringIdLosesStats | app.py:966-990 | asked by the decimal string of an answered question's id, the code as written shows it unanswered with no wrong count and no time |
| QuestionDetail.DetailAgreesWithBank | app.py:972-1016 | asked by a numeric id, the detail view agrees with the bank row on answered, wrong and bookmark, and on the count when the wrong set is the log's ids, but shows the newest wrong record's time where the bank shows the oldest |
| QuestionCache.LoadQuestions | app.py:33-70 | a fresh cache is served unchanged; otherwise the pickled copy, else the JSON file, is loaded and timestamped now; if both fail the old list, or an empty one, is served and the cache is kept |
| QuestionCache.ServedFromCacheWithinTtl | app.py:38-42 | within 300 seconds of a load, every call serves the loaded list whatever the files hold |
| QuestionCache.FailedReloadRetries | app.py:64-70 | a failed reload serves the old list without restarting the 300 seconds, so the next call reads the files again |
| QuestionCache.NothingLoadedServesEmpty | app.py:68-70 | before any successful load, failing reads serve an empty bank |

## Left out

- HTTP, sessions, login, registration and `require_login` are not modelled.
  Each handler starts from the user's state, and a missing user is not
  modelled.
- File and volume I/O is not modelled. The temp-file-and-rename write, the
  Railway storage and the backup tools are out of scope. Saving is modelled
  only as its set-to-list projection (`Store.Persist`). The pickle and JSON
  reads of `load_questions` are given as their outcomes.
- The clock is a parameter `now`. One finalize uses a single `now` for
  every log record and for the end time, where the source reads the clock
  again for each. Likewise one bank view uses a single `now` for every
  answered row without a wrong record, where the source reads the clock
  once per row (app.py:760 and 887). The exam id (a timestamp string in the source) is the
  parameter `newId`.
- `random.choice` is a parameter: the index modulo the pool size.
  `random.sample` is a parameter: a list of 50 distinct in-range positions
  per block.
- Exam.StartExam: a block with fewer than 50 questions makes
  `random.sample` raise in the source. The model requires a valid draw
  whenever a new exam must be created.
- Exam.StartExam: `duration_seconds` defaults to 3600 when missing. The
  model's records always carry the field.
- `str.isdigit` is modelled for ASCII digits only. Unicode digits are not.
- Request values of unexpected JSON types are not modelled. Examples are
  a numeric `type_filter` in the bank views, a float id, or a non-dict
  `answers`. Bookmark ids are modelled as integers or strings only.
- Selection.PickQuestion: `Err(EmptyPool)` stands for the `IndexError`
  that `random.choice` raises on an empty list when the mode is "all", the
  type filter is not 1..3 and the bank is empty; the source has no reply
  for that case.
- Selection.PickQuestion: the source turns the request's
  `type_filter`/`type` into an integer, falling back to 0. The model takes
  that integer as given.
- A zero page size in the bank views raises a division error in the source.
  The model returns `Err(ZeroPageSize)`.
- Bank.ImportantBank: its pages are not stated directly; they equal the
  full bank's important-filter pages, whose slices and counts
  `Bank.TypePageSlice` and `Bank.TypePageMeta` state, only when the wrong set is the log's ids. Otherwise the two
  views can differ in their counts.
- The bank views' `number` field, and question content such as options and
  analysis, are carried but not reasoned about.
- `get_user_stats`, `get_exam_detail` and the average-score float rounding
  are outside the engine and are not modelled.
- Exam.ExamRecords: the model finalizes every stale record in one pass.
  In the source the first finalize ends with `save_user_data`
  (app.py:286), which replaces the user's in-memory sets with lists
  (app.py:108-114). A second stale record in the same request that holds a
  correct answer, or a wrong answer that is not blank, then calls `.add` on
  a list (app.py:254, 266-267) and the request fails with an
  `AttributeError`, after the first finalize has already been saved.
  Requests made one at a time leave at most one ongoing record, since
  starting an exam finalizes the previous one, so this needs records
  written outside the handlers.
- Concurrent requests and last-writer-wins races are not modelled.
  Requests are sequential.

## Findings

| source | as written | input that shows it | evidently intended | confidence | as-written member | corrected member |
|---|---|---|---|---|---|---|
| app.py:278-280 | the wrong counter is bumped under an integer key, but the stored document turns keys into strings and they are loaded back as strings, so the integer key is always new | stored `{"7": 2}`, question 7 answered wrong again: the saved document holds `"7": 1` | the counter continues from 2 to 3 | high, not executed | Store.CountRestartsAfterReload | Store.CountSurvivesReload |
| app.py:731-736 | the "last answered" time of the question bank (and, through `setdefault`, of the bookmarked bank at app.py:874) is the OLDEST wrong record's | two wrong records of one answered question at 10:00 and 10:01: the bank shows 10:00 | the newest record's time, as the detail view computes at app.py:972-976 | medium, not executed | Bank.LastAnsweredShowsOldest | Bank.Row |
| app.py:966-990 | the detail view finds the question by comparing `str` forms, but looks up answered, wrong, count and time with the request id as sent | request id `"12"` for answered question 12: shown unanswered, count 0, no time | the statistics of the question that was found | high, not executed | QuestionDetail.StringIdLosesStats | QuestionDetail.DetailIgnoresIdForm |

Each finding is modelled both ways. The handlers follow the code as
written: `Store.Restore` keeps the counters string-keyed, the bank views
are built on `Bank.RowAsWritten`, and the detail view as written is
`QuestionDetail.DetailAsWritten`. The corrected behaviour is
`Store.LoadCounts` with `Store.RestoreCorrected`, `Bank.Row` and
`QuestionDetail.GetDetail`; the Model rows of these and of the lemmas about
them say "corrected".

=== FILE: bank.dfy ===
/**
 * The question-bank views: one row of mastery status per question, the type
 * and status filters, the three sort orders, the per-type pages, and the
 * bookmarked-questions bank.
 */
module Bank {
  import opened Wrappers
  import opened PyOps
  import opened Model
  import opened StableSort
  import opened Paging

  /** Timestamps are shown as `%Y-%m-%d %H:%M`: to the minute. */
  const Minute: int := 60 * Second

  function MinuteOf(t: int): int {
    t / Minute
  }

  // ----- Log scans --------------------------------------------------------------

  /** The timestamp of the oldest log record for `id`. */
  function FirstWrongTime(log: seq<WrongRecord>, id: int): (r: Option<int>)
    ensures r.None? <==> forall k :: 0 <= k < |log| ==> log[k].questionId != id
    ensures r.Some? ==> exists k :: 0 <= k < |log| && log[k].questionId == id && log[k].timestamp == r.value
                                    && forall j :: 0 <= j < k ==> log[j].questionId != id
    decreases |log|
  {
    if |log| == 0 then None
    else if log[0].questionId == id then Some(log[0].timestamp)
    else
      var r := FirstWrongTime(log[1..], id);
      assert forall k :: 1 <= k < |log| ==> log[k] == log[1..][k - 1];
      if r.Some? then
        var k :| 0 <= k < |log[1..]| && log[1..][k].questionId == id && log[1..][k].timestamp == r.value
                 && forall j :: 0 <= j < k ==> log[1..][j].questionId != id;
        assert forall j :: 0 <= j < k + 1 ==> log[j].questionId != id by {
          forall j | 0 <= j < k + 1 ensures log[j].questionId != id {
            if j > 0 { assert log[j] == log[1..][j - 1]; }
          }
        }
        r
      else r
  }

  /** The timestamp of the newest log record for `id`. */
  function LastWrongTime(log: seq<WrongRecord>, id: int): (r: Option<int>)
    ensures r.None? <==> forall k :: 0 <= k < |log| ==> log[k].questionId != id
    ensures r.Some? ==> exists k :: 0 <= k < |log| && log[k].questionId == id && log[k].timestamp == r.value
                                    && forall j :: k < j < |log| ==> log[j].questionId != id
    decreases |log|
  {
    if |log| == 0 then None
    else if log[|log| - 1].questionId == id then Some(log[|log| - 1].timestamp)
    else LastWrongTime(log[..|log| - 1], id)
  }

  // ----- Rows ---------------------------------------------------------------------

  datatype BankRow = BankRow(
    id: int,
    number: string,
    qtype: QType,
    isAnswered: bool,
    isWrong: bool,
    wrongCount: nat,
    lastAnswered: Option<int>,  // minute index; None when never answered
    isImportant: bool)

  /**
   * A row with the given wrong-answer time: an answered question with no
   * wrong record is shown as answered now.
   */
  function MakeRow(q: Question, st: UserState, now: int, wrongTime: Option<int>): BankRow {
    var p := st.progress;
    var answered := q.id in p.answered;
    var wrong := q.id in p.wrong;
    BankRow(q.id, q.number, q.qtype, answered, wrong,
            if wrong then CountWrong(st.log, q.id) else 0,
            if answered then Some(MinuteOf(if wrongTime.Some? then wrongTime.value else now)) else None,
            IntKey(q.id) in p.important)
  }

  /**
   * The row of `get_question_bank` and `get_important_bank` as written: the
   * "last answered" time is that of the OLDEST wrong record.
   */
  function RowAsWritten(q: Question, st: UserState, now: int): (r: BankRow)
    ensures r.id == q.id && r.qtype == q.qtype && r.number == q.number
    ensures r.isAnswered <==> q.id in st.progress.answered
    ensures r.isWrong <==> q.id in st.progress.wrong
    ensures r.wrongCount == if r.isWrong then CountWrong(st.log, q.id) else 0
    ensures r.lastAnswered.Some? <==> r.isAnswered
    ensures r.isAnswered && FirstWrongTime(st.log, q.id).None? ==> r.lastAnswered == Some(MinuteOf(now))
    ensures r.isAnswered && FirstWrongTime(st.log, q.id).Some? ==>
              exists k :: 0 <= k < |st.log| && st.log[k].questionId == q.id
                          && r.lastAnswered == Some(MinuteOf(st.log[k].timestamp))
                          && forall j :: 0 <= j < k ==> st.log[j].questionId != q.id
    ensures r.isImportant <==> IntKey(q.id) in st.progress.important
  {
    MakeRow(q, st, now, FirstWrongTime(st.log, q.id))
  }

  /** The row with the "last answered" time taken from the newest wrong record, as intended. */
  function Row(q: Question, st: UserState, now: int): (r: BankRow)
    ensures r.id == q.id && r.qtype == q.qtype && r.number == q.number
    ensures r.isAnswered <==> q.id in st.progress.answered
    ensures r.isWrong <==> q.id in st.progress.wrong
    ensures r.wrongCount == if r.isWrong then CountWrong(st.log, q.id) else 0
    ensures r.lastAnswered.Some? <==> r.isAnswered
    ensures r.isAnswered && LastWrongTime(st.log, q.id).None? ==> r.lastAnswered == Some(MinuteOf(now))
    ensures r.isAnswered && LastWrongTime(st.log, q.id).Some? ==>
              exists k :: 0 <= k < |st.log| && st.log[k].questionId == q.id
                          && r.lastAnswered == Some(MinuteOf(st.log[k].timestamp))
                          && forall j :: k < j < |st.log| ==> st.log[j].questionId != q.id
    ensures r.isImportant <==> IntKey(q.id) in st.progress.important
  {
    MakeRow(q, st, now, LastWrongTime(st.log, q.id))
  }

  /**
   * When the wrong set is the log's ids, the count shown is the number of
   * log records and is positive exactly for wrong questions.
   */
  lemma RowCount(q: Question, st: UserState, now: int)
    requires WrongLoggedUser(st)
    ensures RowAsWritten(q, st, now).wrongCount == CountWrong(st.log, q.id)
    ensures RowAsWritten(q, st, now).wrongCount > 0 <==> RowAsWritten(q, st, now).isWrong
  {
    if q.id !in st.progress.wrong {
      assert q.id !in LogIds(st.log);
      assert forall k :: 0 <= k < |st.log| ==> st.log[k].questionId != q.id;
    } else {
      assert q.id in LogIds(st.log);
    }
  }

  /** Two wrong records a minute apart: the bank shows the older one as the last answer, the newer is intended. */
  lemma LastAnsweredShowsOldest(q: Question, st: UserState, now: int, r1: WrongRecord, r2: WrongRecord)
    requires q.id in st.progress.answered
    requires st.log == [r1, r2] && r1.questionId == q.id && r2.questionId == q.id
    requires r2.timestamp == r1.timestamp + Minute
    ensures RowAsWritten(q, st, now).lastAnswered == Some(MinuteOf(r1.timestamp))
    ensures Row(q, st, now).lastAnswered == Some(MinuteOf(r2.timestamp))
    ensures RowAsWritten(q, st, now).lastAnswered != Row(q, st, now).lastAnswered
    ensures Row(q, st, now) == RowAsWritten(q, st, now).(lastAnswered := Row(q, st, now).lastAnswered)
  {
    assert st.log[..1] == [r1];
    assert MinuteOf(r2.timestamp) == MinuteOf(r1.timestamp) + 1;
  }

  // ----- Filters ------------------------------------------------------------------

  /**
   * The type filter (a string: "all", or the type number as text) and the
   * status filter; an unrecognised status admits every row.
   */
  predicate Keep(r: BankRow, typeFilter: string, status: string) {
    && (typeFilter == "all" || IntToDecimal(r.qtype) == typeFilter)
    && (status == "unanswered" ==> !r.isAnswered)
    && (status == "correct" ==> r.isAnswered && !r.isWrong)
    && (status == "wrong" ==> r.isWrong)
    && (status == "frequent_wrong" ==> r.isWrong && r.wrongCount >= 3)
    && (status == "important" ==> r.isImportant)
  }

  /**
   * "frequent_wrong" keeps exactly the wrong questions with at least three
   * log records; when the wrong set is the log's ids, exactly the questions
   * recorded wrong at least three times.
   */
  lemma FrequentWrongIff(q: Question, st: UserState, now: int)
    ensures Keep(RowAsWritten(q, st, now), "all", "frequent_wrong") <==>
              q.id in st.progress.wrong && CountWrong(st.log, q.id) >= 3
    ensures WrongLoggedUser(st) ==>
              (Keep(RowAsWritten(q, st, now), "all", "frequent_wrong") <==> CountWrong(st.log, q.id) >= 3)
  {
    if WrongLoggedUser(st) {
      RowCount(q, st, now);
    }
  }

  /** "correct" keeps exactly the questions answered and never recorded wrong. */
  lemma CorrectIff(q: Question, st: UserState, now: int)
    requires WrongLoggedUser(st)
    ensures Keep(RowAsWritten(q, st, now), "all", "correct") <==>
              q.id in st.progress.answered && forall k :: 0 <= k < |st.log| ==> st.log[k].questionId != q.id
  {
    if q.id in st.progress.wrong {
      assert q.id in LogIds(st.log);
    } else {
      assert q.id !in LogIds(st.log);
    }
  }

  /** A type filter given as a number's text matches only that type. */
  lemma TypeFilterIff(r: BankRow, t: QType)
    ensures Keep(r, IntToDecimal(t), "all") <==> r.qtype == t
  {
    if IntToDecimal(r.qtype) == IntToDecimal(t) { DecimalInjective(r.qtype, t); }
    assert IntToDecimal(t) != "all" by {
      assert '0' <= IntToDecimal(t)[0] <= '9' by { ParseOfDecimal(t); }
    }
  }

  // ----- Sorting ------------------------------------------------------------------

  function ById(r: BankRow): SortKey { SortKey(r.id, 0) }

  function ByCountDescending(r: BankRow): SortKey { SortKey(-(r.wrongCount as int), 0) }

  /** `(last is None, last)` in reverse: never-answered rows first, then the latest first. */
  function ByLastDescending(r: BankRow): SortKey {
    match r.lastAnswered
    case None => SortKey(0, 0)
    case Some(m) => SortKey(1, -m)
  }

  predicate LaterOrUnanswered(a: BankRow, b: BankRow) {
    a.lastAnswered.None? || (b.lastAnswered.Some? && a.lastAnswered.value >= b.lastAnswered.value)
  }

  /** `sort_list`: one of three stable sorts, or the order left as it is for any other option. */
  function SortRows(rows: seq<BankRow>, sortBy: string): (r: seq<BankRow>)
    ensures multiset(r) == multiset(rows)
    ensures sortBy == "id" ==> forall i, j :: 0 <= i < j < |r| ==> r[i].id <= r[j].id
    ensures sortBy == "wrong_count" ==> forall i, j :: 0 <= i < j < |r| ==> r[i].wrongCount >= r[j].wrongCount
    ensures sortBy == "last_answered" ==> forall i, j :: 0 <= i < j < |r| ==> LaterOrUnanswered(r[i], r[j])
    ensures sortBy != "id" && sortBy != "wrong_count" && sortBy != "last_answered" ==> r == rows
  {
    if sortBy == "id" then
      SortSorted(rows, ById);
      var r := Sort(rows, ById);
      assert forall i, j :: 0 <= i < j < |r| ==> KeyLe(ById(r[i]), ById(r[j]));
      r
    else if sortBy == "wrong_count" then
      SortSorted(rows, ByCountDescending);
      var r := Sort(rows, ByCountDescending);
      assert forall i, j :: 0 <= i < j < |r| ==> KeyLe(ByCountDescending(r[i]), ByCountDescending(r[j]));
      r
    else if sortBy == "last_answered" then
      SortSorted(rows, ByLastDescending);
      var r := Sort(rows, ByLastDescending);
      assert forall i, j :: 0 <= i < j < |r| ==> KeyLe(ByLastDescending(r[i]), ByLastDescending(r[j]));
      r
    else rows
  }

  // ----- The full bank -------------------------------------------------------------

  function RowsOf(bank: seq<Question>, st: UserState, now: int): (rows: seq<BankRow>)
    ensures |rows| == |bank|
    ensures forall k :: 0 <= k < |bank| ==> rows[k] == RowAsWritten(bank[k], st, now)
  {
    seq(|bank|, k requires 0 <= k < |bank| => RowAsWritten(bank[k], st, now))
  }

  function Shown(typeFilter: string, status: string, t: QType): BankRow -> bool {
    (r: BankRow) => r.qtype == t && Keep(r, typeFilter, status)
  }

  /** The filtered rows of one type, in bank order. */
  function Listed(bank: seq<Question>, st: UserState, now: int, typeFilter: string, status: string, t: QType)
    : (r: seq<BankRow>)
    ensures forall k :: 0 <= k < |bank| ==>
              (RowAsWritten(bank[k], st, now) in r <==> bank[k].qtype == t && Keep(RowAsWritten(bank[k], st, now), typeFilter, status))
    ensures forall j :: 0 <= j < |r| ==> r[j].qtype == t && Keep(r[j], typeFilter, status) && r[j] in RowsOf(bank, st, now)
  {
    var rows := RowsOf(bank, st, now);
    var r := Filter(rows, Shown(typeFilter, status, t));
    assert forall k :: 0 <= k < |bank| ==> rows[k] == RowAsWritten(bank[k], st, now);
    r
  }

  datatype BankPage = BankPage(
    single: seq<BankRow>, multi: seq<BankRow>, trueFalse: seq<BankRow>,
    singleMeta: PageMeta, multiMeta: PageMeta, trueFalseMeta: PageMeta)

  /** A page size of zero makes the page-count division fail. */
  datatype ViewError = ZeroPageSize

  /** Whether every row of a page is a bank row of type `t` that passes the filters. */
  predicate PageOf(items: seq<BankRow>, bank: seq<Question>, st: UserState, now: int, typeFilter: string, status: string, t: QType) {
    forall j :: 0 <= j < |items| ==> items[j].qtype == t && Keep(items[j], typeFilter, status) && items[j] in RowsOf(bank, st, now)
  }

  /** One type's page of the bank: the listed rows of the type, sorted, then paged. */
  function TypePage(bank: seq<Question>, st: UserState, now: int, typeFilter: string, status: string, sortBy: string,
                    t: QType, page: int, pageSize: int): (r: (seq<BankRow>, PageMeta))
    requires pageSize != 0
    ensures PageOf(r.0, bank, st, now, typeFilter, status, t)
    ensures pageSize > 0 ==> |r.0| <= pageSize
    ensures r.1.totalCount == |Listed(bank, st, now, typeFilter, status, t)| && r.1.currentPage == page
  {
    SortedListedPage(bank, st, now, typeFilter, status, sortBy, t, page, pageSize);
    Paginate(SortRows(Listed(bank, st, now, typeFilter, status, t), sortBy), page, pageSize)
  }

  /**
   * For a positive page number and size, a type's page is the slice
   * `[(page-1)*size, page*size)` of the sorted listed rows.
   */
  lemma TypePageSlice(bank: seq<Question>, st: UserState, now: int, typeFilter: string, status: string, sortBy: string,
                      t: QType, page: int, pageSize: int)
    requires page >= 1 && pageSize >= 1
    ensures var sorted := SortRows(Listed(bank, st, now, typeFilter, status, t), sortBy);
            var items := TypePage(bank, st, now, typeFilter, status, sortBy, t, page, pageSize).0;
            var start := (page - 1) * pageSize;
            var end := start + pageSize;
            && 0 <= start
            && (start < |sorted| ==> items == sorted[start..if end < |sorted| then end else |sorted|])
            && (start >= |sorted| ==> items == [])
  {
    var sorted := SortRows(Listed(bank, st, now, typeFilter, status, t), sortBy);
    assert TypePage(bank, st, now, typeFilter, status, sortBy, t, page, pageSize) == Paginate(sorted, page, pageSize);
    PaginateSpec(sorted, page, pageSize);
    MulPred(page, pageSize);
    MulMono(0, page - 1, pageSize);
  }

  /**
   * For a positive page number and size, a type's page count and flags are
   * computed over all listed rows: the ceiling of their number over the
   * size, a next page while rows remain past this one, a previous page
   * after the first.
   */
  lemma TypePageMeta(bank: seq<Question>, st: UserState, now: int, typeFilter: string, status: string, sortBy: string,
                     t: QType, page: int, pageSize: int)
    requires page >= 1 && pageSize >= 1
    ensures var n := |Listed(bank, st, now, typeFilter, status, t)|;
            var meta := TypePage(bank, st, now, typeFilter, status, sortBy, t, page, pageSize).1;
            && (n == 0 ==> meta.totalPages == 0)
            && (n > 0 ==> (meta.totalPages - 1) * pageSize < n <= meta.totalPages * pageSize)
            && (meta.hasNext <==> (page - 1) * pageSize + pageSize < n)
            && (meta.hasPrev <==> page > 1)
  {
    var sorted := SortRows(Listed(bank, st, now, typeFilter, status, t), sortBy);
    assert TypePage(bank, st, now, typeFilter, status, sortBy, t, page, pageSize) == Paginate(sorted, page, pageSize);
    SortedListedPage(bank, st, now, typeFilter, status, sortBy, t, page, pageSize);
    PaginateSpec(sorted, page, pageSize);
    MulPred(page, pageSize);
  }

  /** A page cut from the sorted listed rows holds listed rows, and the sort keeps their number. */
  lemma SortedListedPage(bank: seq<Question>, st: UserState, now: int, typeFilter: string, status: string, sortBy: string,
                         t: QType, page: int, pageSize: int)
    requires pageSize != 0
    ensures var listed := Listed(bank, st, now, typeFilter, status, t);
            var sorted := SortRows(listed, sortBy);
            var r := Paginate(sorted, page, pageSize);
            && |sorted| == |listed|
            && PageOf(r.0, bank, st, now, typeFilter, status, t)
            && (pageSize > 0 ==> |r.0| <= pageSize)
            && r.1.totalCount == |listed| && r.1.currentPage == page
  {
    var listed := Listed(bank, st, now, typeFilter, status, t);
    var sorted := SortRows(listed, sortBy);
    var r := Paginate(sorted, page, pageSize);
    assert |sorted| == |listed| by {
      assert |multiset(sorted)| == |multiset(listed)|;
    }
    forall j | 0 <= j < |r.0| ensures r.0[j] in listed {
      assert r.0[j] in sorted;
      assert r.0[j] in multiset(sorted);
    }
  }

  /**
   * `get_question_bank`: the rows of every question, filtered, split by type,
   * sorted within each type and paged independently per type.
   */
  function QuestionBank(bank: seq<Question>, st: UserState, now: int, typeFilter: string, status: string, sortBy: string,
                        pageSingle: int, pageMulti: int, pageTrueFalse: int, pageSize: int)
    : (r: Result<BankPage, ViewError>)
    ensures r.Err? <==> pageSize == 0
    ensures r.Ok? ==> (&& PageOf(r.value.single, bank, st, now, typeFilter, status, SingleChoice)
                       && PageOf(r.value.multi, bank, st, now, typeFilter, status, MultiChoice)
                       && PageOf(r.value.trueFalse, bank, st, now, typeFilter, status, TrueFalse))
    ensures r.Ok? && pageSize > 0 ==> |r.value.single| <= pageSize && |r.value.multi| <= pageSize && |r.value.trueFalse| <= pageSize
    ensures r.Ok? ==>
              && (r.value.single, r.value.singleMeta) == TypePage(bank, st, now, typeFilter, status, sortBy, SingleChoice, pageSingle, pageSize)
              && (r.value.multi, r.value.multiMeta) == TypePage(bank, st, now, typeFilter, status, sortBy, MultiChoice, pageMulti, pageSize)
              && (r.value.trueFalse, r.value.trueFalseMeta) == TypePage(bank, st, now, typeFilter, status, sortBy, TrueFalse, pageTrueFalse, pageSize)
  {
    if pageSize == 0 then Err(ZeroPageSize)
    else
      var (s, sm) := TypePage(bank, st, now, typeFilter, status, sortBy, SingleChoice, pageSingle, pageSize);
      var (m, mm) := TypePage(bank, st, now, typeFilter, status, sortBy, MultiChoice, pageMulti, pageSize);
      var (f, fm) := TypePage(bank, st, now, typeFilter, status, sortBy, TrueFalse, pageTrueFalse, pageSize);
      Ok(BankPage(s, m, f, sm, mm, fm))
  }

  // ----- The bookmarked bank --------------------------------------------------------

  /** A row of the bookmarked bank: the count is taken over the whole log, whatever the wrong set says. */
  function ImportantRow(q: Question, st: UserState, now: int): (r: BankRow)
    ensures r.id == q.id && r.qtype == q.qtype && r.number == q.number
    ensures r.isImportant && r.wrongCount == CountWrong(st.log, q.id)
    ensures r.isAnswered == RowAsWritten(q, st, now).isAnswered && r.isWrong == RowAsWritten(q, st, now).isWrong
    ensures r.lastAnswered == RowAsWritten(q, st, now).lastAnswered
  {
    RowAsWritten(q, st, now).(wrongCount := CountWrong(st.log, q.id), isImportant := true)
  }

  function Bookmarked(st: UserState, t: QType): BankRow -> bool {
    (r: BankRow) => r.qtype == t && IntKey(r.id) in st.progress.important
  }

  function ImportantRowsOf(bank: seq<Question>, st: UserState, now: int): (rows: seq<BankRow>)
    ensures |rows| == |bank|
    ensures forall k :: 0 <= k < |bank| ==> rows[k] == ImportantRow(bank[k], st, now)
  {
    seq(|bank|, k requires 0 <= k < |bank| => ImportantRow(bank[k], st, now))
  }

  /** The bookmarked questions of one type, in bank order. */
  function ImportantListed(bank: seq<Question>, st: UserState, now: int, t: QType): (r: seq<BankRow>)
    ensures forall j :: 0 <= j < |r| ==> r[j].qtype == t && IntKey(r[j].id) in st.progress.important && r[j] in ImportantRowsOf(bank, st, now)
    ensures forall k :: 0 <= k < |bank| ==>
              (ImportantRow(bank[k], st, now) in r <==> bank[k].qtype == t && IntKey(bank[k].id) in st.progress.important)
  {
    var rows := ImportantRowsOf(bank, st, now);
    var r := Filter(rows, Bookmarked(st, t));
    assert forall k :: 0 <= k < |bank| ==> rows[k] == ImportantRow(bank[k], st, now);
    r
  }

  /**
   * When the wrong set is the log's ids, the bookmarked bank lists exactly
   * what the full bank lists under the "important" status filter, row for row.
   */
  lemma ImportantBankMatchesFilter(bank: seq<Question>, st: UserState, now: int, t: QType)
    ensures WrongLoggedUser(st) ==> ImportantListed(bank, st, now, t) == Listed(bank, st, now, "all", "important", t)
  {
    if !WrongLoggedUser(st) { return; }
    var s1 := ImportantRowsOf(bank, st, now);
    var s2 := RowsOf(bank, st, now);
    forall k | 0 <= k < |s1| ensures Bookmarked(st, t)(s1[k]) == Shown("all", "important", t)(s2[k]) {
    }
    forall k | 0 <= k < |s1| && Bookmarked(st, t)(s1[k]) ensures s1[k] == s2[k] {
      RowCount(bank[k], st, now);
    }
    FilterCongruent(s1, Bookmarked(st, t), s2, Shown("all", "important", t));
  }

  /** `get_important_bank`: the bookmarked questions, split by type, sorted and paged like the full bank. */
  function ImportantBank(bank: seq<Question>, st: UserState, now: int, sortBy: string,
                         pageSingle: int, pageMulti: int, pageTrueFalse: int, pageSize: int)
    : (r: Result<BankPage, ViewError>)
    ensures r.Err? <==> pageSize == 0
    ensures r.Ok? && WrongLoggedUser(st) ==>
              r.value == QuestionBank(bank, st, now, "all", "important", sortBy, pageSingle, pageMulti, pageTrueFalse, pageSize).value
  {
    if pageSize == 0 then Err(ZeroPageSize)
    else
      ImportantBankMatchesFilter(bank, st, now, SingleChoice);
      ImportantBankMatchesFilter(bank, st, now, MultiChoice);
      ImportantBankMatchesFilter(bank, st, now, TrueFalse);
      var (s, sm) := Paginate(SortRows(ImportantListed(bank, st, now, SingleChoice), sortBy), pageSingle, pageSize);
      var (m, mm) := Paginate(SortRows(ImportantListed(bank, st, now, MultiChoice), sortBy), pageMulti, pageSize);
      var (f, fm) := Paginate(SortRows(ImportantListed(bank, st, now, TrueFalse), sortBy), pageTrueFalse, pageSize);
      Ok(BankPage(s, m, f, sm, mm, fm))
  }
}

=== FILE: cache.dfy ===
/**
 * The question cache of `load_questions`: a list kept in memory for five
 * minutes, refilled first from the pickled copy, then from the JSON file;
 * when both fail, the previous list (or an empty one) is served. The two
 * file reads are given as their outcomes: None for a read that raised.
 */
module QuestionCache {
  import opened Wrappers
  import opened Model

  /** How long a loaded list is served without re-reading, in microseconds. */
  const CacheDuration: int := 300 * Second

  /** The module-level cache: the list (None before the first load) and the time it was loaded. */
  datatype Cache = Cache(questions: Option<seq<Question>>, loadedAt: int)

  /** The state at start-up. */
  const Empty: Cache := Cache(None, 0)

  predicate Fresh(c: Cache, now: int) {
    c.questions.Some? && now - c.loadedAt < CacheDuration
  }

  /** `load_questions`: the list served and the cache left behind. */
  function LoadQuestions(c: Cache, now: int, pickled: Option<seq<Question>>, json: Option<seq<Question>>)
    : (r: (seq<Question>, Cache))
    ensures Fresh(c, now) ==> r.1 == c
    ensures r.1 == c || r.1.loadedAt == now
    ensures r.1.questions.Some? ==> r.0 == r.1.questions.value
    ensures r.1.questions.None? ==> r.0 == [] && r.1 == c
    ensures c.questions.Some? ==> r.1.questions.Some?
    ensures !Fresh(c, now) && (pickled.Some? || json.Some?) ==>
              r.1.loadedAt == now && r.0 == (if pickled.Some? then pickled.value else json.value)
    ensures !Fresh(c, now) && pickled.None? && json.None? ==> r.1 == c
  {
    if Fresh(c, now) then (c.questions.value, c)
    else if pickled.Some? then (pickled.value, Cache(pickled, now))
    else if json.Some? then (json.value, Cache(json, now))
    else if c.questions.Some? then (c.questions.value, c)
    else ([], c)
  }

  /**
   * Within five minutes of a load every call serves the loaded list again,
   * whatever the files now hold.
   */
  lemma ServedFromCacheWithinTtl(c: Cache, t: int, p1: Option<seq<Question>>, j1: Option<seq<Question>>,
                                 t': int, p2: Option<seq<Question>>, j2: Option<seq<Question>>)
    requires !Fresh(c, t) && (p1.Some? || j1.Some?)
    requires t <= t' < t + CacheDuration
    ensures var (qs, c1) := LoadQuestions(c, t, p1, j1);
            LoadQuestions(c1, t', p2, j2) == (qs, c1)
  {
  }

  /**
   * A failed reload keeps serving the old list without restarting the five
   * minutes, so the next call reads the files again.
   */
  lemma FailedReloadRetries(c: Cache, t: int, t': int, p2: Option<seq<Question>>, j2: Option<seq<Question>>)
    requires c.questions.Some? && !Fresh(c, t) && t <= t'
    ensures var (qs, c1) := LoadQuestions(c, t, None, None);
            && qs == c.questions.value
            && c1 == c
            && (p2.Some? ==> LoadQuestions(c1, t', p2, j2).0 == p2.value)
  {
  }

  /** Before any successful load, failing reads serve an empty bank and leave the cache empty. */
  lemma NothingLoadedServesEmpty(now: int)
    ensures LoadQuestions(Empty, now, None, None) == ([], Empty)
  {
  }
}

=== FILE: detail.dfy ===
/**
 * The detail view of one question: the question is found by comparing ids
 * as text, so a numeric id and its decimal string find the same question;
 * the statistics shown next to it are looked up by an id as well.
 */
module QuestionDetail {
  import opened Wrappers
  import opened PyOps
  import opened Model
  import Store
  import Bank

  /** `str(question_id)` for the two forms an id takes in a request. */
  function KeyText(k: Key): string {
    match k
    case IntKey(n) => IntToDecimal(n)
    case StrKey(s) => s
  }

  /** The first question whose id, written in decimal, is `text`. */
  function FindByText(bank: seq<Question>, text: string): (r: Option<Question>)
    ensures r.None? <==> forall k :: 0 <= k < |bank| ==> IntToDecimal(bank[k].id) != text
    ensures r.Some? ==> exists k :: 0 <= k < |bank| && bank[k] == r.value && IntToDecimal(r.value.id) == text
                                    && forall j :: 0 <= j < k ==> IntToDecimal(bank[j].id) != text
  {
    if |bank| == 0 then None
    else if IntToDecimal(bank[0].id) == text then Some(bank[0])
    else
      var r := FindByText(bank[1..], text);
      assert r.Some? ==> exists k :: 1 <= k < |bank| && bank[k] == r.value && IntToDecimal(r.value.id) == text
                                     && forall j :: 0 <= j < k ==> IntToDecimal(bank[j].id) != text by {
        if r.Some? {
          var k :| 0 <= k < |bank[1..]| && bank[1..][k] == r.value && IntToDecimal(r.value.id) == text
                   && forall j :: 0 <= j < k ==> IntToDecimal(bank[1..][j].id) != text;
          assert bank[k + 1] == r.value;
          assert forall j :: 1 <= j < k + 1 ==> bank[j] == bank[1..][j - 1];
        }
      }
      r
  }

  datatype Detail = Detail(
    question: Question,
    isAnswered: bool,
    isWrong: bool,
    wrongCount: nat,
    lastAnswered: Option<int>,  // minute index; None when never answered
    isImportant: bool)

  datatype DetailError = MissingQuestionId | QuestionNotFound

  /**
   * The statistics of `q`, looked up under `statId` (None: under an id that
   * equals no stored integer id). The "last answered" time is the newest
   * wrong record's, or now when the question was never answered wrong.
   */
  function Stats(q: Question, st: UserState, now: int, statId: Option<int>): Detail {
    var p := st.progress;
    var answered := statId.Some? && statId.value in p.answered;
    var wrongTime := if statId.Some? then Bank.LastWrongTime(st.log, statId.value) else None;
    Detail(q,
           answered,
           statId.Some? && statId.value in p.wrong,
           if statId.Some? then CountWrong(st.log, statId.value) else 0,
           if answered then Some(Bank.MinuteOf(if wrongTime.Some? then wrongTime.value else now)) else None,
           IntKey(q.id) in p.important)
  }

  /** The integer a request id compares equal to, if any: a string id equals no stored id. */
  function RawId(k: Key): Option<int> {
    match k
    case IntKey(n) => Some(n)
    case StrKey(_) => None
  }

  /**
   * `get_question_detail` as written: the question is found by its text
   * form, but the statistics are looked up with the id exactly as sent.
   */
  function DetailAsWritten(bank: seq<Question>, st: UserState, id: Option<Key>, now: int)
    : (r: Result<Detail, DetailError>)
    ensures r.Err? <==> Store.Falsy(id) || FindByText(bank, KeyText(id.value)).None?
    ensures r.Ok? ==>
              var sent := RawId(id.value);
              && r.value.question in bank
              && r.value.question == FindByText(bank, KeyText(id.value)).value
              && IntToDecimal(r.value.question.id) == KeyText(id.value)
              && (r.value.isAnswered <==> sent.Some? && sent.value in st.progress.answered)
              && (r.value.isWrong <==> sent.Some? && sent.value in st.progress.wrong)
              && r.value.wrongCount == (if sent.Some? then CountWrong(st.log, sent.value) else 0)
              && (r.value.lastAnswered.Some? <==> r.value.isAnswered)
              && (r.value.isImportant <==> IntKey(r.value.question.id) in st.progress.important)
  {
    if Store.Falsy(id) then Err(MissingQuestionId)
    else match FindByText(bank, KeyText(id.value))
      case None => Err(QuestionNotFound)
      case Some(q) => Ok(Stats(q, st, now, RawId(id.value)))
  }

  /**
   * `get_question_detail` with the statistics looked up under the found
   * question's own id; the time shown is the newest wrong record's.
   */
  function GetDetail(bank: seq<Question>, st: UserState, id: Option<Key>, now: int)
    : (r: Result<Detail, DetailError>)
    ensures r == Err(MissingQuestionId) <==> Store.Falsy(id)
    ensures r == Err(QuestionNotFound) <==>
              !Store.Falsy(id) && forall k :: 0 <= k < |bank| ==> IntToDecimal(bank[k].id) != KeyText(id.value)
    ensures r.Ok? ==>
              && r.value.question in bank
              && r.value.question == FindByText(bank, KeyText(id.value)).value
              && IntToDecimal(r.value.question.id) == KeyText(id.value)
              && (r.value.isAnswered <==> r.value.question.id in st.progress.answered)
              && (r.value.isWrong <==> r.value.question.id in st.progress.wrong)
              && r.value.wrongCount == CountWrong(st.log, r.value.question.id)
              && (r.value.lastAnswered.Some? <==> r.value.isAnswered)
              && r.value.lastAnswered == Bank.Row(r.value.question, st, now).lastAnswered
              && (r.value.isImportant <==> IntKey(r.value.question.id) in st.progress.important)
  {
    if Store.Falsy(id) then Err(MissingQuestionId)
    else match FindByText(bank, KeyText(id.value))
      case None => Err(QuestionNotFound)
      case Some(q) => Ok(Stats(q, st, now, Some(q.id)))
  }

  /** A numeric id and its decimal string show the same detail. */
  lemma DetailIgnoresIdForm(bank: seq<Question>, st: UserState, n: int, now: int)
    requires n != 0
    ensures GetDetail(bank, st, Some(StrKey(IntToDecimal(n))), now) == GetDetail(bank, st, Some(IntKey(n)), now)
  {
    assert IntToDecimal(n) != "" by {
      if n < 0 { } else { assert |NatToDecimal(n)| > 0; }
    }
  }

  /** For a numeric id the code as written already shows the right statistics. */
  lemma NumericIdAgrees(bank: seq<Question>, st: UserState, n: int, now: int)
    ensures DetailAsWritten(bank, st, Some(IntKey(n)), now) == GetDetail(bank, st, Some(IntKey(n)), now)
  {
    var found := FindByText(bank, IntToDecimal(n));
    if n != 0 && found.Some? {
      DecimalInjective(found.value.id, n);
    }
  }

  /**
   * The discrepancy: asked by the decimal string of an answered question's
   * id, the code as written finds the question but reports it unanswered,
   * never wrong and with no answer time, while the corrected view reports
   * it answered.
   */
  lemma StringIdLosesStats(bank: seq<Question>, st: UserState, i: nat, now: int)
    requires i < |bank| && bank[i].id in st.progress.answered
    ensures var text := Some(StrKey(IntToDecimal(bank[i].id)));
            var asWritten := DetailAsWritten(bank, st, text, now);
            var corrected := GetDetail(bank, st, text, now);
            && asWritten.Ok? && corrected.Ok?
            && !asWritten.value.isAnswered && asWritten.value.wrongCount == 0
            && asWritten.value.lastAnswered.None?
            && corrected.value.isAnswered && corrected.value.lastAnswered.Some?
  {
    var n := bank[i].id;
    assert IntToDecimal(n) != "" by {
      if n < 0 { } else { assert |NatToDecimal(n)| > 0; }
    }
    var found := FindByText(bank, IntToDecimal(n));
    assert found.Some?;
    DecimalInjective(found.value.id, n);
  }

  /**
   * Asked by a numeric id, the detail view as written agrees with the
   * question bank's row on answered, wrong and bookmarked and, when the
   * wrong set is the log's ids, on the wrong count; but its answer time is
   * the newest wrong record's, not the oldest one the bank shows.
   */
  lemma DetailAgreesWithBank(bank: seq<Question>, st: UserState, n: int, now: int)
    ensures var r := DetailAsWritten(bank, st, Some(IntKey(n)), now);
            r.Ok? ==>
              var row := Bank.RowAsWritten(r.value.question, st, now);
              && r.value.question.id == n
              && r.value.isAnswered == row.isAnswered
              && r.value.isWrong == row.isWrong
              && r.value.isImportant == row.isImportant
              && (WrongLoggedUser(st) ==> r.value.wrongCount == row.wrongCount)
              && r.value.lastAnswered == Bank.Row(r.value.question, st, now).lastAnswered
  {
    var r := DetailAsWritten(bank, st, Some(IntKey(n)), now);
    if r.Ok? {
      DecimalInjective(r.value.question.id, n);
      if WrongLoggedUser(st) {
        Bank.RowCount(r.value.question, st, now);
      }
    }
  }
}

=== FILE: exam.dfy ===
/**
 * The exam-session state machine: finalise, start (resume, expire, create),
 * autosave, submit, and the record list with its lazy expiry.
 */
module Exam {
  import opened Wrappers
  import opened PyOps
  import opened Model
  import opened Scoring
  import opened StableSort
  import opened Paging

  /** Length of a new exam, in seconds. */
  const ExamDuration: int := 3600
  /** Questions drawn per type block. */
  const BlockSize: nat := 50

  // ----- Finalise ----------------------------------------------------------

  /**
   * `_finalize_exam_from_record`: scores the record's saved sheet against its
   * question snapshot, applies the effects to the user's state and marks the
   * record completed with its score and summary. Nothing checks the status
   * first, so a completed record can be finalised again.
   */
  function FinalizeExam(st: UserState, i: nat, now: int): (r: (UserState, int, seq<WrongAnswer>))
    requires i < |st.exams|
    ensures var rec := st.exams[i];
            var (st', total, missed) := r;
            && total == SheetScore(rec.questions, rec.answers)
            && missed == MissedOf(rec.questions, rec.answers)
            && CorrectCount(rec.questions, rec.answers) + |missed| == |rec.questions|
            && |st'.exams| == |st.exams|
            && st'.exams[i] == rec.(endTime := Some(now), status := Completed,
                                    totalScore := Some(total), wrongAnswers := Some(missed))
            && (forall j :: 0 <= j < |st.exams| && j != i ==> st'.exams[j] == st.exams[j])
            && st'.log == st.log + WrongLogOf(rec.questions, rec.answers, now)
            && st'.progress.answered == st.progress.answered + AttemptedIds(rec.questions, rec.answers)
            && st'.progress.wrong == st.progress.wrong + WrongAttemptIds(rec.questions, rec.answers)
            && st'.progress.important == st.progress.important
            && st'.progress.loadedCounts == st.progress.loadedCounts
            && (WrongLoggedUser(st) ==> WrongLoggedUser(st'))
            && (ConsistentUser(st) ==> ConsistentUser(st'))
    ensures var rec := st.exams[i];
            var c := st.progress.wrongCount;
            var c' := r.0.progress.wrongCount;
            && c'.Keys == c.Keys + WrongAttemptIds(rec.questions, rec.answers)
            && forall x :: x in c' ==> c'[x] == CounterOf(c, x) + CountWrong(WrongLogOf(rec.questions, rec.answers, now), x)
  {
    var rec := st.exams[i];
    var t := ScoreSheet(rec.questions, rec.answers, now, Tally(st, 0, []));
    ScoreSheetResult(rec.questions, rec.answers, now, Tally(st, 0, []));
    ScoreSheetLog(rec.questions, rec.answers, now, Tally(st, 0, []));
    ScoreSheetExams(rec.questions, rec.answers, now, Tally(st, 0, []));
    ScoreSheetSets(rec.questions, rec.answers, now, Tally(st, 0, []));
    ScoreSheetConsistent(rec.questions, rec.answers, now, Tally(st, 0, []));
    CorrectPlusMissed(rec.questions, rec.answers);
    SheetKeepsWrongLogged(st.progress, st.log, rec.questions, rec.answers, now);
    ScoreSheetCounts(rec.questions, rec.answers, now, Tally(st, 0, []));
    WrongLogIds(rec.questions, rec.answers, now);
    var done := rec.(endTime := Some(now), status := Completed,
                     totalScore := Some(t.total), wrongAnswers := Some(t.missed));
    (t.state.(exams := t.state.exams[i := done]), t.total, t.missed)
  }

  // ----- Expiry ------------------------------------------------------------

  /** `max(0, int(duration - elapsed))`: the whole seconds left, as the start operation computes them. */
  function TimeLeft(rec: ExamRecord, now: int): (s: nat)
    ensures s > 0 <==> now - rec.startTime <= rec.durationSeconds * Second - Second
  {
    var d := TruncDiv(rec.durationSeconds * Second - (now - rec.startTime), Second);
    if d > 0 then d else 0
  }

  /** `elapsed >= duration`: the expiry test of the record list. */
  predicate OverTime(rec: ExamRecord, now: int) {
    now - rec.startTime >= rec.durationSeconds * Second
  }

  /**
   * The two expiry tests disagree: a record the list considers over time has
   * no time left when resumed, but in the last second before the deadline
   * the start operation already expires a record the list still shows as running.
   */
  lemma ExpiryTestsDiffer(rec: ExamRecord, now: int)
    ensures OverTime(rec, now) ==> TimeLeft(rec, now) == 0
    ensures now - rec.startTime == rec.durationSeconds * Second - 1 ==>
              TimeLeft(rec, now) == 0 && !OverTime(rec, now)
  {
  }

  // ----- Start ---------------------------------------------------------------

  /** The newest record whose status is ongoing. */
  function LatestOngoing(exams: seq<ExamRecord>): (r: Option<nat>)
    ensures r.Some? ==> r.value < |exams| && exams[r.value].status == Ongoing
    ensures r.Some? ==> forall j :: r.value < j < |exams| ==> exams[j].status != Ongoing
    ensures r.None? ==> forall j :: 0 <= j < |exams| ==> exams[j].status != Ongoing
    decreases |exams|
  {
    if |exams| == 0 then None
    else if exams[|exams| - 1].status == Ongoing then Some(|exams| - 1)
    else LatestOngoing(exams[..|exams| - 1])
  }

  /** The bank's questions of one type, in bank order. */
  function OfType(bank: seq<Question>, t: QType): (r: seq<Question>)
    ensures forall k :: 0 <= k < |r| ==> r[k] in bank && r[k].qtype == t
    ensures forall q :: q in bank && q.qtype == t ==> q in r
    decreases |bank|
  {
    if |bank| == 0 then []
    else (if bank[0].qtype == t then [bank[0]] else []) + OfType(bank[1..], t)
  }

  /** What `random.sample(pool, 50)` may return, as positions in the pool: fifty distinct in-range indices. */
  predicate ValidSample(poolSize: nat, idx: seq<nat>) {
    && |idx| == BlockSize
    && (forall k :: 0 <= k < |idx| ==> idx[k] < poolSize)
    && (forall k, m :: 0 <= k < m < |idx| ==> idx[k] != idx[m])
  }

  /** The three samples drawn for a new exam. */
  datatype Draw = Draw(single: seq<nat>, trueFalse: seq<nat>, multi: seq<nat>)

  predicate ValidDraw(bank: seq<Question>, d: Draw) {
    && ValidSample(|OfType(bank, SingleChoice)|, d.single)
    && ValidSample(|OfType(bank, TrueFalse)|, d.trueFalse)
    && ValidSample(|OfType(bank, MultiChoice)|, d.multi)
  }

  function Take(pool: seq<Question>, idx: seq<nat>): (r: seq<Question>)
    requires forall k :: 0 <= k < |idx| ==> idx[k] < |pool|
    ensures |r| == |idx|
    ensures forall k :: 0 <= k < |idx| ==> r[k] == pool[idx[k]]
  {
    seq(|idx|, k requires 0 <= k < |idx| => pool[idx[k]])
  }

  /** The question snapshot of a new exam: single choice, then true/false, then multiple choice. */
  function ExamPaper(bank: seq<Question>, d: Draw): (qs: seq<Question>)
    requires ValidDraw(bank, d)
    ensures |qs| == 3 * BlockSize
    ensures forall k :: 0 <= k < |qs| ==> qs[k] in bank
    ensures forall k :: 0 <= k < BlockSize ==> qs[k].qtype == SingleChoice
    ensures forall k :: BlockSize <= k < 2 * BlockSize ==> qs[k].qtype == TrueFalse
    ensures forall k :: 2 * BlockSize <= k < 3 * BlockSize ==> qs[k].qtype == MultiChoice
  {
    Take(OfType(bank, SingleChoice), d.single)
      + Take(OfType(bank, TrueFalse), d.trueFalse)
      + Take(OfType(bank, MultiChoice), d.multi)
  }

  /** Whether a start request has to create a new exam: no running record, or the newest has no time left. */
  predicate MustCreate(st: UserState, now: int) {
    var latest := LatestOngoing(st.exams);
    latest.None? || TimeLeft(st.exams[latest.value], now) == 0
  }

  datatype StartReply = StartReply(examId: string, questions: seq<Question>, answers: map<string, Raw>, timeLeft: int)

  /**
   * `start_exam`. Scans the records newest first and looks only at the first
   * ongoing one: with time left it is resumed unchanged; with none it is
   * finalised and a new exam is created from the three samples.
   * Sampling fifty questions from a smaller pool raises in the source; here a
   * creation needs a valid draw.
   */
  function StartExam(bank: seq<Question>, st: UserState, now: int, newId: string, d: Draw)
    : (r: (StartReply, UserState))
    requires MustCreate(st, now) ==> ValidDraw(bank, d)
    ensures var (reply, st') := r;
            !MustCreate(st, now) ==>
              var rec := st.exams[LatestOngoing(st.exams).value];
              && st' == st
              && reply == StartReply(rec.examId, rec.questions, rec.answers, TimeLeft(rec, now))
              && reply.timeLeft > 0
    ensures var (reply, st') := r;
            MustCreate(st, now) ==>
              && |st'.exams| == |st.exams| + 1
              && st'.exams[|st.exams|] == ExamRecord(newId, now, None, Ongoing, ExamPaper(bank, d), map[],
                                                     ExamDuration, None, None, None)
              && reply == StartReply(newId, ExamPaper(bank, d), map[], ExamDuration)
    ensures var (reply, st') := r;
            MustCreate(st, now) && LatestOngoing(st.exams).Some? ==>
              var i := LatestOngoing(st.exams).value;
              var rec := st.exams[i];
              && st'.exams[i] == rec.(endTime := Some(now), status := Completed,
                                      totalScore := Some(SheetScore(rec.questions, rec.answers)),
                                      wrongAnswers := Some(MissedOf(rec.questions, rec.answers)))
              && (forall j :: 0 <= j < |st.exams| && j != i ==> st'.exams[j] == st.exams[j])
              && st'.progress.wrongCount.Keys == st.progress.wrongCount.Keys + WrongAttemptIds(rec.questions, rec.answers)
              && (forall x :: x in st'.progress.wrongCount ==>
                    st'.progress.wrongCount[x] == CounterOf(st.progress.wrongCount, x) + CountWrong(WrongLogOf(rec.questions, rec.answers, now), x))
              && st'.log == st.log + WrongLogOf(st.exams[i].questions, st.exams[i].answers, now)
              && st'.progress.answered == st.progress.answered + AttemptedIds(st.exams[i].questions, st.exams[i].answers)
              && st'.progress.wrong == st.progress.wrong + WrongAttemptIds(st.exams[i].questions, st.exams[i].answers)
              && st'.progress.important == st.progress.important
    ensures var (reply, st') := r;
            MustCreate(st, now) && LatestOngoing(st.exams).None? ==>
              st'.exams[..|st.exams|] == st.exams && st'.progress == st.progress && st'.log == st.log
    ensures r.1.progress.loadedCounts == st.progress.loadedCounts
    ensures WrongLoggedUser(st) ==> WrongLoggedUser(r.1)
    ensures ConsistentUser(st) ==> ConsistentUser(r.1)
  {
    var latest := LatestOngoing(st.exams);
    if latest.Some? && TimeLeft(st.exams[latest.value], now) > 0 then
      var rec := st.exams[latest.value];
      (StartReply(rec.examId, rec.questions, rec.answers, TimeLeft(rec, now)), st)
    else
      var st1 := if latest.Some? then FinalizeExam(st, latest.value, now).0 else st;
      var paper := ExamPaper(bank, d);
      var rec := ExamRecord(newId, now, None, Ongoing, paper, map[], ExamDuration, None, None, None);
      (StartReply(newId, paper, map[], ExamDuration), st1.(exams := st1.exams + [rec]))
  }

  /** No two questions of `qs` share an id. */
  predicate UniqueIds(qs: seq<Question>) {
    forall k, m :: 0 <= k < m < |qs| ==> qs[k].id != qs[m].id
  }

  /** Distinct positions drawn from a pool with distinct ids give distinct ids. */
  lemma TakeDistinct(pool: seq<Question>, idx: seq<nat>)
    requires forall k :: 0 <= k < |idx| ==> idx[k] < |pool|
    requires forall k, m :: 0 <= k < m < |idx| ==> idx[k] != idx[m]
    requires UniqueIds(pool)
    ensures UniqueIds(Take(pool, idx))
  {
    var r := Take(pool, idx);
    forall k, m | 0 <= k < m < |r| ensures r[k].id != r[m].id {
      if idx[k] < idx[m] {
      } else {
        assert idx[m] < idx[k];
      }
    }
  }

  /** Filtering a bank with distinct ids keeps them distinct. */
  lemma {:induction false} OfTypeDistinct(bank: seq<Question>, t: QType)
    requires UniqueIds(bank)
    ensures UniqueIds(OfType(bank, t))
    decreases |bank|
  {
    if |bank| > 0 {
      var rest := OfType(bank[1..], t);
      assert UniqueIds(bank[1..]) by {
        forall k, m | 0 <= k < m < |bank[1..]| ensures bank[1..][k].id != bank[1..][m].id {
          assert bank[1..][k] == bank[k + 1] && bank[1..][m] == bank[m + 1];
        }
      }
      OfTypeDistinct(bank[1..], t);
      if bank[0].qtype == t {
        forall k | 0 <= k < |rest| ensures rest[k].id != bank[0].id {
          assert rest[k] in bank[1..];
          var j :| 0 <= j < |bank[1..]| && bank[1..][j] == rest[k];
          assert bank[j + 1] == rest[k];
        }
        ConsDistinct(bank[0], rest);
      }
    }
  }

  lemma ConsDistinct(x: Question, rest: seq<Question>)
    requires UniqueIds(rest)
    requires forall k :: 0 <= k < |rest| ==> rest[k].id != x.id
    ensures UniqueIds([x] + rest)
  {
    var r := [x] + rest;
    forall k, m | 0 <= k < m < |r| ensures r[k].id != r[m].id {
      assert r[m] == rest[m - 1];
      if k > 0 { assert r[k] == rest[k - 1]; }
    }
  }

  /** Two blocks without repeats and without a shared id concatenate to a block without repeats. */
  lemma ConcatDistinct(a: seq<Question>, b: seq<Question>)
    requires UniqueIds(a) && UniqueIds(b)
    requires forall k, m :: 0 <= k < |a| && 0 <= m < |b| ==> a[k].id != b[m].id
    ensures UniqueIds(a + b)
  {
    var r := a + b;
    forall k, m | 0 <= k < m < |r| ensures r[k].id != r[m].id {
      if m < |a| {
        assert r[k] == a[k] && r[m] == a[m];
      } else if k < |a| {
        assert r[k] == a[k] && r[m] == b[m - |a|];
      } else {
        assert r[k] == b[k - |a|] && r[m] == b[m - |a|];
      }
    }
  }

  /** Two questions of a bank without repeated ids that differ in type have different ids. */
  lemma OtherTypeOtherId(bank: seq<Question>, x: Question, y: Question)
    requires UniqueIds(bank)
    requires x in bank && y in bank && x.qtype != y.qtype
    ensures x.id != y.id
  {
    var i :| 0 <= i < |bank| && bank[i] == x;
    var j :| 0 <= j < |bank| && bank[j] == y;
    if i > j { assert bank[j].id != bank[i].id; }
  }

  /** A block of one type and questions of other types, all from a bank without repeated ids, share no id. */
  lemma BlocksDisjoint(bank: seq<Question>, a: seq<Question>, b: seq<Question>, tb: QType)
    requires UniqueIds(bank)
    requires forall k :: 0 <= k < |a| ==> a[k] in bank && a[k].qtype != tb
    requires forall k :: 0 <= k < |b| ==> b[k] in bank && b[k].qtype == tb
    ensures forall k, m :: 0 <= k < |a| && 0 <= m < |b| ==> a[k].id != b[m].id
  {
    forall k, m | 0 <= k < |a| && 0 <= m < |b| ensures a[k].id != b[m].id {
      OtherTypeOtherId(bank, a[k], b[m]);
    }
  }

  /** A new exam over a bank without repeated ids has no repeated question. */
  lemma ExamPaperHasNoRepeats(bank: seq<Question>, d: Draw)
    requires ValidDraw(bank, d)
    requires UniqueIds(bank)
    ensures UniqueIds(ExamPaper(bank, d))
  {
    var a := Take(OfType(bank, SingleChoice), d.single);
    var b := Take(OfType(bank, TrueFalse), d.trueFalse);
    var c := Take(OfType(bank, MultiChoice), d.multi);
    OfTypeDistinct(bank, SingleChoice);
    OfTypeDistinct(bank, TrueFalse);
    OfTypeDistinct(bank, MultiChoice);
    TakeDistinct(OfType(bank, SingleChoice), d.single);
    TakeDistinct(OfType(bank, TrueFalse), d.trueFalse);
    TakeDistinct(OfType(bank, MultiChoice), d.multi);
    BlocksDisjoint(bank, a, b, TrueFalse);
    ConcatDistinct(a, b);
    BlocksDisjoint(bank, a + b, c, MultiChoice);
    ConcatDistinct(a + b, c);
  }

  /** Starting again before the deadline resumes the exam just created, with its questions and its (empty) sheet. */
  lemma CreateThenResume(bank: seq<Question>, st: UserState, now: int, later: int, newId: string, d: Draw, d2: Draw)
    requires MustCreate(st, now) && ValidDraw(bank, d)
    requires now <= later <= now + (ExamDuration - 1) * Second
    ensures var (reply1, st1) := StartExam(bank, st, now, newId, d);
            && !MustCreate(st1, later)
            && StartExam(bank, st1, later, "", d2) == (StartReply(newId, reply1.questions, map[], TimeLeft(st1.exams[|st.exams|], later)), st1)
  {
    var (reply1, st1) := StartExam(bank, st, now, newId, d);
    assert LatestOngoing(st1.exams) == Some(|st.exams|);
  }

  /** Starting after the deadline finalises the expired exam and creates a different one. */
  lemma ExpiredExamIsReplaced(bank: seq<Question>, st: UserState, now: int, later: int, newId: string, id2: string, d: Draw, d2: Draw)
    requires MustCreate(st, now) && ValidDraw(bank, d) && ValidDraw(bank, d2)
    requires later >= now + ExamDuration * Second - Second + 1
    ensures var (_, st1) := StartExam(bank, st, now, newId, d);
            var (reply2, st2) := StartExam(bank, st1, later, id2, d2);
            && MustCreate(st1, later)
            && st2.exams[|st.exams|].status == Completed
            && st2.exams[|st.exams|].totalScore.Some?
            && |st2.exams| == |st.exams| + 2
            && reply2.examId == id2
  {
    var (_, st1) := StartExam(bank, st, now, newId, d);
    assert LatestOngoing(st1.exams) == Some(|st.exams|);
  }

  // ----- Autosave ------------------------------------------------------------

  datatype SaveError = MissingExamId | ExamNotFoundOrFinished

  /** The newest ongoing record with the given id. */
  function LatestOngoingWithId(exams: seq<ExamRecord>, id: string): (r: Option<nat>)
    ensures r.Some? ==> r.value < |exams| && exams[r.value].examId == id && exams[r.value].status == Ongoing
    ensures r.Some? ==> forall j :: r.value < j < |exams| ==> !(exams[j].examId == id && exams[j].status == Ongoing)
    ensures r.None? ==> forall j :: 0 <= j < |exams| ==> !(exams[j].examId == id && exams[j].status == Ongoing)
    decreases |exams|
  {
    if |exams| == 0 then None
    else if exams[|exams| - 1].examId == id && exams[|exams| - 1].status == Ongoing then Some(|exams| - 1)
    else LatestOngoingWithId(exams[..|exams| - 1], id)
  }

  /**
   * `save_exam_progress`: replaces the sheet of the newest ongoing record with
   * the id and stamps the save time; it scores nothing and changes nothing else.
   */
  function SaveProgress(st: UserState, examId: string, answers: map<string, Raw>, now: int): (r: Result<UserState, SaveError>)
    ensures r == Err(MissingExamId) <==> examId == ""
    ensures r == Err(ExamNotFoundOrFinished) <==>
              examId != "" && forall j :: 0 <= j < |st.exams| ==> !(st.exams[j].examId == examId && st.exams[j].status == Ongoing)
    ensures r.Ok? ==>
              var i := LatestOngoingWithId(st.exams, examId).value;
              && r.value.progress == st.progress && r.value.log == st.log
              && |r.value.exams| == |st.exams|
              && r.value.exams[i] == st.exams[i].(answers := answers, lastSaved := Some(now))
              && forall j :: 0 <= j < |st.exams| && j != i ==> r.value.exams[j] == st.exams[j]
    ensures r.Ok? && WrongLoggedUser(st) ==> WrongLoggedUser(r.value)
  {
    if examId == "" then Err(MissingExamId)
    else
      match LatestOngoingWithId(st.exams, examId)
      case None => Err(ExamNotFoundOrFinished)
      case Some(i) => Ok(st.(exams := st.exams[i := st.exams[i].(answers := answers, lastSaved := Some(now))]))
  }

  /** A saved sheet is what the next start (before the deadline) hands back. */
  lemma SaveThenResume(bank: seq<Question>, st: UserState, answers: map<string, Raw>, now: int, d: Draw)
    requires !MustCreate(st, now)
    ensures var i := LatestOngoing(st.exams).value;
            var id := st.exams[i].examId;
            id != "" ==>
              && SaveProgress(st, id, answers, now).Ok?
              && var st1 := SaveProgress(st, id, answers, now).value;
                 && !MustCreate(st1, now)
                 && StartExam(bank, st1, now, "", d).0.answers == answers
                 && StartExam(bank, st1, now, "", d).0.examId == id
  {
    var i := LatestOngoing(st.exams).value;
    var id := st.exams[i].examId;
    if id != "" {
      var k := LatestOngoingWithId(st.exams, id).value;
      assert k == i;
      var st1 := SaveProgress(st, id, answers, now).value;
      assert LatestOngoing(st1.exams) == Some(i);
    }
  }

  // ----- Submit --------------------------------------------------------------

  datatype SubmitExamError = ExamRecordNotFound

  /** The oldest record with the given id, whatever its status. */
  function FirstWithId(exams: seq<ExamRecord>, id: string): (r: Option<nat>)
    ensures r.Some? ==> r.value < |exams| && exams[r.value].examId == id
    ensures r.Some? ==> forall j :: 0 <= j < r.value ==> exams[j].examId != id
    ensures r.None? ==> forall j :: 0 <= j < |exams| ==> exams[j].examId != id
    decreases |exams|
  {
    if |exams| == 0 then None
    else if exams[0].examId == id then Some(0)
    else
      var r := FirstWithId(exams[1..], id);
      if r.Some? then Some(r.value + 1) else None
  }

  /**
   * `submit_exam`: overwrites the sheet of the first record with the id and
   * finalises it. The status is not checked.
   */
  function SubmitExam(st: UserState, examId: string, answers: map<string, Raw>, now: int)
    : (r: Result<(UserState, int, seq<WrongAnswer>), SubmitExamError>)
    ensures r.Err? <==> forall j :: 0 <= j < |st.exams| ==> st.exams[j].examId != examId
    ensures r.Ok? ==>
              var i := FirstWithId(st.exams, examId).value;
              var qs := st.exams[i].questions;
              var (st', total, missed) := r.value;
              && total == SheetScore(qs, answers)
              && missed == MissedOf(qs, answers)
              && |st'.exams| == |st.exams|
              && st'.exams[i] == st.exams[i].(answers := answers, endTime := Some(now), status := Completed,
                                              totalScore := Some(total), wrongAnswers := Some(missed))
              && st'.log == st.log + WrongLogOf(qs, answers, now)
              && st'.progress.answered == st.progress.answered + AttemptedIds(qs, answers)
              && st'.progress.wrong == st.progress.wrong + WrongAttemptIds(qs, answers)
              && st'.progress.important == st.progress.important
              && (forall j :: 0 <= j < |st.exams| && j != i ==> st'.exams[j] == st.exams[j])
              && st'.progress.loadedCounts == st.progress.loadedCounts
              && st'.progress.wrongCount.Keys == st.progress.wrongCount.Keys + WrongAttemptIds(qs, answers)
              && (forall x :: x in st'.progress.wrongCount ==>
                    st'.progress.wrongCount[x] == CounterOf(st.progress.wrongCount, x) + CountWrong(WrongLogOf(qs, answers, now), x))
    ensures r.Ok? && WrongLoggedUser(st) ==> WrongLoggedUser(r.value.0)
    ensures r.Ok? && ConsistentUser(st) ==> ConsistentUser(r.value.0)
  {
    match FirstWithId(st.exams, examId)
    case None => Err(ExamRecordNotFound)
    case Some(i) =>
      var st1 := st.(exams := st.exams[i := st.exams[i].(answers := answers)]);
      Ok(FinalizeExam(st1, i, now))
  }

  /**
   * Submitting an already completed exam is accepted and scored again: the
   * wrong attempts on its sheet are logged a second time.
   */
  lemma DoubleSubmitLogsTwice(st: UserState, examId: string, answers: map<string, Raw>, now: int, later: int)
    requires exists j :: 0 <= j < |st.exams| && st.exams[j].examId == examId
    ensures var r1 := SubmitExam(st, examId, answers, now);
            && r1.Ok?
            && var st1 := r1.value.0;
               var i := FirstWithId(st.exams, examId).value;
               var r2 := SubmitExam(st1, examId, answers, later);
               && st1.exams[i].status == Completed
               && r2.Ok?
               && r2.value.1 == r1.value.1
               && r2.value.0.log == st.log + WrongLogOf(st.exams[i].questions, answers, now)
                                          + WrongLogOf(st.exams[i].questions, answers, later)
  {
    var i := FirstWithId(st.exams, examId).value;
    var st1 := SubmitExam(st, examId, answers, now).value.0;
    assert FirstWithId(st1.exams, examId) == Some(i) by {
      var k := FirstWithId(st1.exams, examId);
      assert st1.exams[i].examId == examId;
      assert k.Some?;
      assert forall j :: 0 <= j < i ==> st1.exams[j] == st.exams[j];
    }
  }

  // ----- Record list -----------------------------------------------------------

  /** Finalises, in list order from position `i`, every ongoing record that is over time. */
  function ExpireFrom(st: UserState, i: nat, now: int): UserState
    requires i <= |st.exams|
    decreases |st.exams| - i
  {
    if i == |st.exams| then st
    else
      var st1 := ExpireAt(st, i, now);
      ExpireFrom(st1, i + 1, now)
  }

  /** One step of lazy expiry: finalises record `i` if it is stale, and otherwise changes nothing. */
  function ExpireAt(st: UserState, i: nat, now: int): (st1: UserState)
    requires i < |st.exams|
    ensures |st1.exams| == |st.exams|
    ensures forall j :: 0 <= j < |st.exams| && j != i ==> st1.exams[j] == st.exams[j]
    ensures SameExam(st.exams[i], st1.exams[i])
    ensures !Stale(st.exams[i], now) ==> st1 == st
    ensures Stale(st.exams[i], now) ==> st1.exams[i] == Finalized(st.exams[i], now)
  {
    if Stale(st.exams[i], now) then FinalizeExam(st, i, now).0 else st
  }

  /** Whether `b` is `a`, finalised or not: the fields fixed at creation are the same. */
  predicate SameExam(a: ExamRecord, b: ExamRecord) {
    a.examId == b.examId && a.startTime == b.startTime && a.durationSeconds == b.durationSeconds
    && a.questions == b.questions && a.answers == b.answers
  }

  /** A record lazy expiry finalises: still ongoing, but over its time limit. */
  predicate Stale(rec: ExamRecord, now: int) {
    rec.status == Ongoing && OverTime(rec, now)
  }

  /** A record as finalising it at `now` leaves it: completed, with its sheet's score and missed questions. */
  function Finalized(rec: ExamRecord, now: int): ExamRecord {
    rec.(endTime := Some(now), status := Completed,
         totalScore := Some(SheetScore(rec.questions, rec.answers)),
         wrongAnswers := Some(MissedOf(rec.questions, rec.answers)))
  }

  /**
   * Lazy expiry keeps the list's length and each record's identity, and
   * leaves records before `i` and records that were not stale untouched.
   */
  lemma {:induction false} ExpireFromKeeps(st: UserState, i: nat, now: int)
    requires i <= |st.exams|
    ensures var st' := ExpireFrom(st, i, now);
            && |st'.exams| == |st.exams|
            && (forall j :: 0 <= j < |st.exams| ==> SameExam(st.exams[j], st'.exams[j]))
            && (forall j :: 0 <= j < |st.exams| && (j < i || !Stale(st.exams[j], now)) ==> st'.exams[j] == st.exams[j])
    decreases |st.exams| - i
  {
    if i < |st.exams| {
      var st1 := ExpireAt(st, i, now);
      var st' := ExpireFrom(st1, i + 1, now);
      assert ExpireFrom(st, i, now) == st';
      ExpireFromKeeps(st1, i + 1, now);
      KeepsCompose(st.exams, st1.exams, st'.exams, i, now);
    }
  }

  /** Chains one expiry step on `a` giving `b` with the rest of the pass on `b` giving `c`. */
  lemma KeepsCompose(a: seq<ExamRecord>, b: seq<ExamRecord>, c: seq<ExamRecord>, i: nat, now: int)
    requires |b| == |a| && |c| == |a| && i < |a|
    requires forall j :: 0 <= j < |a| && j != i ==> b[j] == a[j]
    requires SameExam(a[i], b[i]) && (!Stale(a[i], now) ==> b[i] == a[i])
    requires forall j :: 0 <= j < |b| ==> SameExam(b[j], c[j])
    requires forall j :: 0 <= j < |b| && (j < i + 1 || !Stale(b[j], now)) ==> c[j] == b[j]
    ensures forall j :: 0 <= j < |a| ==> SameExam(a[j], c[j])
    ensures forall j :: 0 <= j < |a| && (j < i || !Stale(a[j], now)) ==> c[j] == a[j]
  {
    forall j | 0 <= j < |a| && (j < i || !Stale(a[j], now))
      ensures c[j] == a[j]
    {
      if j != i {
        assert b[j] == a[j];
      }
    }
  }

  /** Lazy expiry finalises every stale record from `i` on, as `FinalizeExam` does at `now`. */
  lemma {:induction false} ExpireFromCompletes(st: UserState, i: nat, now: int)
    requires i <= |st.exams|
    ensures var st' := ExpireFrom(st, i, now);
            && |st'.exams| == |st.exams|
            && (forall j :: i <= j < |st.exams| && Stale(st.exams[j], now) ==>
                  st'.exams[j] == Finalized(st.exams[j], now))
    decreases |st.exams| - i
  {
    if i < |st.exams| {
      var st1 := ExpireAt(st, i, now);
      var st' := ExpireFrom(st1, i + 1, now);
      assert ExpireFrom(st, i, now) == st';
      ExpireFromCompletes(st1, i + 1, now);
      ExpireFromKeeps(st1, i + 1, now);
      CompletesCompose(st.exams, st1.exams, st'.exams, i, now);
    }
  }

  /** Chains the finalisation of record `i` with the rest of the pass, as `KeepsCompose` chains the frames. */
  lemma CompletesCompose(a: seq<ExamRecord>, b: seq<ExamRecord>, c: seq<ExamRecord>, i: nat, now: int)
    requires |b| == |a| && |c| == |a| && i < |a|
    requires forall j :: 0 <= j < |a| && j != i ==> b[j] == a[j]
    requires Stale(a[i], now) ==> b[i] == Finalized(a[i], now)
    requires forall j :: 0 <= j < |b| && (j < i + 1 || !Stale(b[j], now)) ==> c[j] == b[j]
    requires forall j :: i + 1 <= j < |b| && Stale(b[j], now) ==> c[j] == Finalized(b[j], now)
    ensures forall j :: i <= j < |a| && Stale(a[j], now) ==> c[j] == Finalized(a[j], now)
  {
    forall j | i <= j < |a| && Stale(a[j], now)
      ensures c[j] == Finalized(a[j], now)
    {
      if j != i {
        assert b[j] == a[j];
      }
    }
  }

  /** The wrong-answer records lazy expiry appends from position `i`: each stale record's, in list order. */
  function StaleLog(exams: seq<ExamRecord>, i: nat, now: int): seq<WrongRecord>
    requires i <= |exams|
    decreases |exams| - i
  {
    if i == |exams| then []
    else
      var here := if Stale(exams[i], now) then WrongLogOf(exams[i].questions, exams[i].answers, now) else [];
      here + StaleLog(exams, i + 1, now)
  }

  /** The question ids lazy expiry marks answered from position `i`. */
  function StaleAttempted(exams: seq<ExamRecord>, i: nat, now: int): set<int>
    requires i <= |exams|
    decreases |exams| - i
  {
    if i == |exams| then {}
    else
      var here := if Stale(exams[i], now) then AttemptedIds(exams[i].questions, exams[i].answers) else {};
      here + StaleAttempted(exams, i + 1, now)
  }

  /** What lazy expiry appends from `i` depends only on the records from `i` on. */
  lemma {:induction false} StaleFrame(a: seq<ExamRecord>, b: seq<ExamRecord>, i: nat, now: int)
    requires |a| == |b| && i <= |a|
    requires forall j :: i <= j < |a| ==> a[j] == b[j]
    ensures StaleLog(a, i, now) == StaleLog(b, i, now)
    ensures StaleAttempted(a, i, now) == StaleAttempted(b, i, now)
    decreases |a| - i
  {
    if i < |a| {
      StaleFrame(a, b, i + 1, now);
    }
  }

  /** One step of lazy expiry on the user's log, sets and counters. */
  lemma ExpireStepEffects(st: UserState, i: nat, now: int)
    requires i < |st.exams|
    ensures var rec := st.exams[i];
            var st1 := ExpireAt(st, i, now);
            var a := if Stale(rec, now) then WrongLogOf(rec.questions, rec.answers, now) else [];
            var c := st.progress.wrongCount;
            var c1 := st1.progress.wrongCount;
            && st1.log == st.log + a
            && st1.progress.wrong == st.progress.wrong + LogIds(a)
            && st1.progress.answered == st.progress.answered
                 + (if Stale(rec, now) then AttemptedIds(rec.questions, rec.answers) else {})
            && st1.progress.important == st.progress.important
            && st1.progress.loadedCounts == st.progress.loadedCounts
            && c1.Keys == c.Keys + LogIds(a)
            && forall x :: x in c1 ==> c1[x] == CounterOf(c, x) + CountWrong(a, x)
  {
    var rec := st.exams[i];
    if Stale(rec, now) {
      WrongLogIds(rec.questions, rec.answers, now);
    } else {
      assert LogIds([]) == {};
    }
  }

  /**
   * Lazy expiry from `i` appends exactly the stale records' wrong answers to
   * the log, marks their ids wrong and their attempted ids answered, and
   * leaves the important set and the reloaded counters alone.
   */
  lemma {:induction false} ExpireFromEffects(st: UserState, i: nat, now: int)
    requires i <= |st.exams|
    ensures var st' := ExpireFrom(st, i, now);
            var l := StaleLog(st.exams, i, now);
            && st'.log == st.log + l
            && st'.progress.wrong == st.progress.wrong + LogIds(l)
            && st'.progress.answered == st.progress.answered + StaleAttempted(st.exams, i, now)
            && st'.progress.important == st.progress.important
            && st'.progress.loadedCounts == st.progress.loadedCounts
    decreases |st.exams| - i
  {
    if i == |st.exams| {
      assert LogIds([]) == {};
    } else {
      var rec := st.exams[i];
      var st1 := ExpireAt(st, i, now);
      var a := if Stale(rec, now) then WrongLogOf(rec.questions, rec.answers, now) else [];
      ExpireStepEffects(st, i, now);
      StaleFrame(st.exams, st1.exams, i + 1, now);
      ExpireFromEffects(st1, i + 1, now);
      Scoring.ConcatAssoc(st.log, a, StaleLog(st1.exams, i + 1, now));
      LogIdsConcat(a, StaleLog(st1.exams, i + 1, now));
    }
  }

  /** Lazy expiry from `i` raises each counter by the number of records it appends for that id. */
  lemma {:induction false} ExpireFromCounts(st: UserState, i: nat, now: int)
    requires i <= |st.exams|
    ensures var l := StaleLog(st.exams, i, now);
            var c := st.progress.wrongCount;
            var c' := ExpireFrom(st, i, now).progress.wrongCount;
            && c'.Keys == c.Keys + LogIds(l)
            && forall x :: x in c' ==> c'[x] == CounterOf(c, x) + CountWrong(l, x)
    decreases |st.exams| - i
  {
    if i == |st.exams| {
      assert LogIds([]) == {};
    } else {
      var rec := st.exams[i];
      var st1 := ExpireAt(st, i, now);
      var a := if Stale(rec, now) then WrongLogOf(rec.questions, rec.answers, now) else [];
      ExpireStepEffects(st, i, now);
      StaleFrame(st.exams, st1.exams, i + 1, now);
      ExpireFromCounts(st1, i + 1, now);
      ComposeCounts(st.progress.wrongCount, st1.progress.wrongCount, ExpireFrom(st1, i + 1, now).progress.wrongCount,
                    a, StaleLog(st1.exams, i + 1, now));
    }
  }

  /** Lazy expiry keeps the set part of the invariant. */
  lemma {:induction false} ExpireFromWrongLogged(st: UserState, i: nat, now: int)
    requires i <= |st.exams|
    ensures WrongLoggedUser(st) ==> WrongLoggedUser(ExpireFrom(st, i, now))
    decreases |st.exams| - i
  {
    if i < |st.exams| {
      var st1 := ExpireAt(st, i, now);
      ExpireFromWrongLogged(st1, i + 1, now);
    }
  }

  /** Lazy expiry keeps the consistency invariant. */
  lemma {:induction false} ExpireFromConsistent(st: UserState, i: nat, now: int)
    requires i <= |st.exams|
    ensures ConsistentUser(st) ==> ConsistentUser(ExpireFrom(st, i, now))
    decreases |st.exams| - i
  {
    if i < |st.exams| {
      var st1 := ExpireAt(st, i, now);
      ExpireFromConsistent(st1, i + 1, now);
    }
  }

  /** After a full pass no record is both ongoing and over time. */
  lemma ExpireLeavesNoneStale(st: UserState, now: int)
    ensures var st' := ExpireFrom(st, 0, now);
            forall j :: 0 <= j < |st'.exams| ==> !Stale(st'.exams[j], now)
  {
    ExpireFromKeeps(st, 0, now);
    ExpireFromCompletes(st, 0, now);
  }

  /** Records newest first by start time; records started at the same instant keep their stored order. */
  function ByStartDescending(rec: ExamRecord): SortKey {
    SortKey(-rec.startTime, 0)
  }

  datatype RecordsPage = RecordsPage(records: seq<ExamRecord>, meta: PageMeta, pageSize: int)

  /** `get_exam_records`: lazy expiry of every stale record, then a newest-first, clamped page. */
  function ExamRecords(st: UserState, now: int, page: int, pageSize: int): (r: (RecordsPage, UserState))
    ensures WrongLoggedUser(st) ==> WrongLoggedUser(r.1)
    ensures ConsistentUser(st) ==> ConsistentUser(r.1)
    ensures var (out, st') := r;
            && |st'.exams| == |st.exams|
            && (forall j :: 0 <= j < |st'.exams| ==> !Stale(st'.exams[j], now))
            && (forall j :: 0 <= j < |st.exams| && !Stale(st.exams[j], now) ==>
                  st'.exams[j] == st.exams[j])
            && (forall j :: 0 <= j < |st.exams| ==> SameExam(st.exams[j], st'.exams[j]))
            && (forall j :: 0 <= j < |st.exams| && Stale(st.exams[j], now) ==>
                  st'.exams[j] == Finalized(st.exams[j], now))
    ensures var st' := r.1;
            var l := StaleLog(st.exams, 0, now);
            && st'.log == st.log + l
            && st'.progress.wrong == st.progress.wrong + LogIds(l)
            && st'.progress.answered == st.progress.answered + StaleAttempted(st.exams, 0, now)
            && st'.progress.important == st.progress.important
            && st'.progress.loadedCounts == st.progress.loadedCounts
            && st'.progress.wrongCount.Keys == st.progress.wrongCount.Keys + LogIds(l)
            && forall x :: x in st'.progress.wrongCount ==>
                 st'.progress.wrongCount[x] == CounterOf(st.progress.wrongCount, x) + CountWrong(l, x)
    ensures var (out, st') := r;
            && (forall k :: 0 <= k < |out.records| ==> out.records[k] in st'.exams)
            && (forall k, m :: 0 <= k < m < |out.records| ==> out.records[k].startTime >= out.records[m].startTime)
            && 1 <= out.meta.currentPage
            && out.meta.totalCount == |st.exams|
            && (pageSize > 0 && |st.exams| > 0 ==> 0 < |out.records| <= pageSize)
    ensures var (out, st') := r;
            && (out.records, out.meta) == ClampedPage(Sort(st'.exams, ByStartDescending), page, pageSize)
            && out.pageSize == pageSize
  {
    var st' := ExpireFrom(st, 0, now);
    ExpireFromKeeps(st, 0, now);
    ExpireFromCompletes(st, 0, now);
    ExpireFromEffects(st, 0, now);
    ExpireFromCounts(st, 0, now);
    ExpireFromConsistent(st, 0, now);
    ExpireFromWrongLogged(st, 0, now);
    ExpireLeavesNoneStale(st, now);
    SortedPage(st'.exams, page, pageSize);
    var (items, meta) := ClampedPage(Sort(st'.exams, ByStartDescending), page, pageSize);
    (RecordsPage(items, meta, pageSize), st')
  }

  /** A clamped page of the records sorted newest first holds stored records, newest first. */
  lemma SortedPage(exams: seq<ExamRecord>, page: int, pageSize: int)
    ensures var (items, meta) := ClampedPage(Sort(exams, ByStartDescending), page, pageSize);
            && (forall k :: 0 <= k < |items| ==> items[k] in exams)
            && (forall k, m :: 0 <= k < m < |items| ==> items[k].startTime >= items[m].startTime)
            && 1 <= meta.currentPage
            && meta.totalCount == |exams|
            && (pageSize > 0 && |exams| > 0 ==> 0 < |items| <= pageSize)
  {
    var sorted := Sort(exams, ByStartDescending);
    ClampedPageItems(sorted, page, pageSize);
    PageOfSortedMembers(exams, page, pageSize);
    PageOfSortedOrder(exams, page, pageSize);
  }

  /** Every record on the page is a stored record. */
  lemma PageOfSortedMembers(exams: seq<ExamRecord>, page: int, pageSize: int)
    ensures var items := ClampedPage(Sort(exams, ByStartDescending), page, pageSize).0;
            forall k :: 0 <= k < |items| ==> items[k] in exams
  {
    var sorted := Sort(exams, ByStartDescending);
    var items := ClampedPage(sorted, page, pageSize).0;
    forall k | 0 <= k < |items| ensures items[k] in exams {
      assert items[k] in sorted;
      assert items[k] in multiset(sorted);
    }
  }

  /** The page keeps the newest-first order of the sorted records. */
  lemma PageOfSortedOrder(exams: seq<ExamRecord>, page: int, pageSize: int)
    ensures var items := ClampedPage(Sort(exams, ByStartDescending), page, pageSize).0;
            forall k, m :: 0 <= k < m < |items| ==> items[k].startTime >= items[m].startTime
  {
    var sorted := Sort(exams, ByStartDescending);
    SortSorted(exams, ByStartDescending);
    var (items, meta) := ClampedPage(sorted, page, pageSize);
    ClampedPageNumber(sorted, page, pageSize);
    SliceOfSorted(sorted, (meta.currentPage - 1) * pageSize, (meta.currentPage - 1) * pageSize + pageSize);
  }

  lemma SliceOfSorted(sorted: seq<ExamRecord>, i: int, j: int)
    requires Sorted(sorted, ByStartDescending)
    ensures var items := Slice(sorted, i, j);
            forall k, m :: 0 <= k < m < |items| ==> items[k].startTime >= items[m].startTime
  {
    var items := Slice(sorted, i, j);
    var a, b := SliceBound(i, |sorted|), SliceBound(j, |sorted|);
    if a < b {
      assert items == sorted[a..b];
      forall k, m | 0 <= k < m < |items| ensures items[k].startTime >= items[m].startTime {
        assert items[k] == sorted[a + k] && items[m] == sorted[a + m];
        assert KeyLe(ByStartDescending(sorted[a + k]), ByStartDescending(sorted[a + m]));
      }
    }
  }
}

=== FILE: model.dfy ===
/**
 * The data of the assessment engine: the immutable question records and one
 * user's mutable learning state (mastery sets, the wrong-answer log and the
 * exam records), with the consistency invariant every operation keeps.
 *
 * Time is an integer count of MICROSECONDS, the resolution of the clock the
 * engine reads; ISO-formatted timestamps order exactly like these integers.
 */
module Model {
  import opened Wrappers

  /** Microseconds per second. */
  const Second: int := 1_000_000

  /** The question types: 1 single choice, 2 multiple choice, 3 true/false. */
  type QType = t: int | 1 <= t <= 3 witness 1

  const SingleChoice: QType := 1
  const MultiChoice: QType := 2
  const TrueFalse: QType := 3

  /** One question of the bank. `correctAnswer` is a single option key, or for
      multiple choice the option keys joined with commas. */
  datatype Question = Question(
    id: int,
    number: string,
    qtype: QType,
    content: string,
    options: seq<string>,
    correctAnswer: string,
    analysis: string,
    score: int)

  /** A submitted answer as it arrives in a request: missing (null), a bare string, or a list of strings. */
  datatype Raw = Absent | Text(s: string) | Items(xs: seq<string>)

  /** A bookmark id as stored: the persisted document is weakly typed, so it may be a number or a string. */
  datatype Key = IntKey(n: int) | StrKey(s: string)

  /**
   * The mastery part of a user's state. `wrongCount` holds the counters under
   * integer ids, as the handlers write them; `loadedCounts` holds the
   * counters read back from the stored document, whose keys are strings, so
   * that no handler finds them under an integer id.
   */
  datatype Progress = Progress(
    answered: set<int>,
    wrong: set<int>,
    wrongCount: map<int, int>,
    important: set<Key>,
    loadedCounts: map<string, int>)

  /** One entry of the append-only wrong-answer log, with a snapshot of the question. */
  datatype WrongRecord = WrongRecord(
    questionId: int,
    userAnswer: Raw,
    correctAnswer: string,
    timestamp: int,
    content: string,
    analysis: string,
    qtype: QType)

  /** One entry of the `wrong_answers` summary kept on a finished exam. */
  datatype WrongAnswer = WrongAnswer(
    questionId: int,
    userAnswer: Raw,
    correctAnswer: string,
    content: string,
    analysis: string,
    qtype: QType,
    score: int)

  datatype ExamStatus = Ongoing | Completed

  /** A timed exam session. `answers` is keyed by the decimal rendering of the question id. */
  datatype ExamRecord = ExamRecord(
    examId: string,
    startTime: int,
    endTime: Option<int>,
    status: ExamStatus,
    questions: seq<Question>,
    answers: map<string, Raw>,
    durationSeconds: int,
    totalScore: Option<int>,
    wrongAnswers: Option<seq<WrongAnswer>>,
    lastSaved: Option<int>)

  /** Everything the engine keeps about one user. */
  datatype UserState = UserState(progress: Progress, log: seq<WrongRecord>, exams: seq<ExamRecord>)

  /** How many log records name question `id`: the authoritative "times wrong" statistic. */
  function CountWrong(log: seq<WrongRecord>, id: int): (n: nat)
    ensures n <= |log|
    ensures n == 0 <==> forall k :: 0 <= k < |log| ==> log[k].questionId != id
    decreases |log|
  {
    if |log| == 0 then 0
    else CountWrong(log[..|log| - 1], id) + (if log[|log| - 1].questionId == id then 1 else 0)
  }

  /** The question ids that appear in the log. */
  function LogIds(log: seq<WrongRecord>): set<int> {
    set k | 0 <= k < |log| :: log[k].questionId
  }

  /**
   * The set part of the invariant: every wrong question has been answered,
   * and the wrong set is exactly the set of ids in the log. Unlike the
   * counters, this part is kept by a save and reload.
   */
  predicate WrongLogged(p: Progress, log: seq<WrongRecord>) {
    p.wrong <= p.answered && p.wrong == LogIds(log)
  }

  predicate WrongLoggedUser(st: UserState) {
    WrongLogged(st.progress, st.log)
  }

  /**
   * The invariant: the set part, together with the counters: the keys of
   * `wrong_count` are the wrong set, and each counter equals the number of
   * log records for its question.
   */
  predicate Consistent(p: Progress, log: seq<WrongRecord>) {
    && WrongLogged(p, log)
    && p.wrongCount.Keys == p.wrong
    && forall q :: q in p.wrongCount ==> p.wrongCount[q] == CountWrong(log, q)
  }

  predicate ConsistentUser(st: UserState) {
    Consistent(st.progress, st.log)
  }

  /** The counter of `id` as `wrong_count.get(id, 0)` reads it. */
  function CounterOf(m: map<int, int>, id: int): int {
    if id in m then m[id] else 0
  }

  /** The state a freshly registered user starts from. */
  function NewUser(): (st: UserState)
    ensures ConsistentUser(st)
    ensures st.progress.wrongCount == map[] && st.progress.loadedCounts == map[]
    ensures st.progress.answered == {} && st.progress.important == {}
    ensures st.log == [] && st.exams == []
  {
    UserState(Progress({}, {}, map[], {}, map[]), [], [])
  }

  /** Appending one record for `id` adds one to its count and leaves every other count alone. */
  lemma CountAppend(log: seq<WrongRecord>, r: WrongRecord, id: int)
    ensures CountWrong(log + [r], id) == CountWrong(log, id) + (if r.questionId == id then 1 else 0)
  {
    assert (log + [r])[..|log|] == log;
  }

  /** The count over a concatenation is the sum of the counts over its parts. */
  lemma {:induction false} CountConcat(a: seq<WrongRecord>, b: seq<WrongRecord>, id: int)
    ensures CountWrong(a + b, id) == CountWrong(a, id) + CountWrong(b, id)
    decreases |b|
  {
    if |b| > 0 {
      var b' := b[..|b| - 1];
      assert a + b == (a + b') + [b[|b| - 1]];
      assert b == b' + [b[|b| - 1]];
      CountAppend(a + b', b[|b| - 1], id);
      CountAppend(b', b[|b| - 1], id);
      CountConcat(a, b', id);
    } else {
      assert a + b == a;
    }
  }

  /** The ids of a concatenation are the ids of its parts. */
  lemma LogIdsConcat(a: seq<WrongRecord>, b: seq<WrongRecord>)
    ensures LogIds(a + b) == LogIds(a) + LogIds(b)
  {
    var l := a + b;
    forall x | x in LogIds(a) ensures x in LogIds(l) {
      var k :| 0 <= k < |a| && a[k].questionId == x;
      assert l[k] == a[k];
    }
    forall x | x in LogIds(b) ensures x in LogIds(l) {
      var k :| 0 <= k < |b| && b[k].questionId == x;
      assert l[|a| + k] == b[k];
    }
    forall x | x in LogIds(l) ensures x in LogIds(a) + LogIds(b) {
      var k :| 0 <= k < |l| && l[k].questionId == x;
      if k < |a| { assert l[k] == a[k]; } else { assert l[k] == b[k - |a|]; }
    }
  }

  lemma LogIdsAppend(log: seq<WrongRecord>, r: WrongRecord)
    ensures LogIds(log + [r]) == LogIds(log) + {r.questionId}
  {
    var l := log + [r];
    forall x | x in LogIds(log) ensures x in LogIds(l) {
      var k :| 0 <= k < |log| && log[k].questionId == x;
      assert l[k] == log[k];
    }
    assert l[|log|] == r;
  }
}

=== FILE: paging.dfy ===
/**
 * The two pagination schemes of the engine: the unclamped per-type pages of
 * the bank queries and the clamped pages of the exam-record list.
 */
module Paging {
  import opened PyOps

  datatype PageMeta = PageMeta(totalCount: nat, currentPage: int, totalPages: int, hasNext: bool, hasPrev: bool)

  /** A bank-query page: `lst[(page-1)*size : page*size]`, with the page number taken as given. */
  function Paginate<T>(lst: seq<T>, page: int, pageSize: int): (seq<T>, PageMeta)
    requires pageSize != 0
  {
    var total := |lst|;
    var start := (page - 1) * pageSize;
    var end := start + pageSize;
    (Slice(lst, start, end),
     PageMeta(total, page, FloorDiv(total + pageSize - 1, pageSize), end < total, page > 1))
  }

  lemma MulMono(a: int, b: int, s: int)
    requires a <= b && s >= 0
    ensures a * s <= b * s
  {
  }

  lemma MulPred(p: int, s: int)
    ensures p * s == (p - 1) * s + s
  {
  }

  /** `(n + s - 1) // s` is the ceiling of `n / s`. */
  lemma CeilingDiv(n: nat, s: int)
    requires s >= 1
    ensures var tp := FloorDiv(n + s - 1, s);
            && (n == 0 ==> tp == 0)
            && (n > 0 ==> tp >= 1 && (tp - 1) * s < n <= tp * s)
  {
    var tp := FloorDiv(n + s - 1, s);
    MulPred(tp, s);
    if tp >= 1 { MulMono(1, tp, s); }
    if tp <= -1 { MulMono(tp, -1, s); }
  }

  /**
   * For a positive page number and size: the page is the slice
   * `[(page-1)*size, page*size)` cut at the end of the list, the page count is
   * the ceiling of total/size, and the flags say whether items lie beyond
   * the page and whether the page is not the first.
   */
  lemma PaginateSpec<T>(lst: seq<T>, page: int, pageSize: int)
    requires page >= 1 && pageSize >= 1
    ensures var (items, meta) := Paginate(lst, page, pageSize);
            var start := (page - 1) * pageSize;
            && (start < |lst| ==> items == lst[start..if page * pageSize < |lst| then page * pageSize else |lst|])
            && (start >= |lst| ==> items == [])
            && |items| <= pageSize
            && meta.totalCount == |lst|
            && (|lst| == 0 ==> meta.totalPages == 0)
            && (|lst| > 0 ==> (meta.totalPages - 1) * pageSize < |lst| <= meta.totalPages * pageSize)
            && (meta.hasNext <==> page * pageSize < |lst|)
            && (meta.hasPrev <==> page > 1)
  {
    MulPred(page, pageSize);
    MulMono(0, page - 1, pageSize);
    CeilingDiv(|lst|, pageSize);
  }

  /**
   * The page number is not clamped: page 0 is empty, and a negative page
   * counts back from the end of the list, as Python's negative slice bounds do.
   */
  lemma NonPositivePage<T>(lst: seq<T>, page: int, pageSize: int)
    requires page <= 0 && pageSize >= 1
    ensures (page - 1) * pageSize + pageSize <= 0
    ensures var (items, meta) := Paginate(lst, page, pageSize);
            var start := (page - 1) * pageSize;
            && (page == 0 ==> items == [])
            && (page < 0 && -|lst| <= start ==> items == lst[|lst| + start .. |lst| + start + pageSize])
            && meta.currentPage == page && !meta.hasPrev
  {
    MulPred(page, pageSize);
    MulMono(page, 0, pageSize);
  }

  /** Every item sits on exactly the page its index says: index `i` is item `i % size` of page `i / size + 1`. */
  lemma ItemOnItsPage<T>(lst: seq<T>, i: nat, pageSize: int)
    requires i < |lst| && pageSize >= 1
    ensures var page := i / pageSize + 1;
            var (items, meta) := Paginate(lst, page, pageSize);
            && i % pageSize < |items|
            && items[i % pageSize] == lst[i]
            && page <= meta.totalPages
  {
    var page := i / pageSize + 1;
    var q, r := i / pageSize, i % pageSize;
    assert i == q * pageSize + r;
    MulPred(page, pageSize);
    assert (page - 1) * pageSize == q * pageSize;
    PaginateSpec(lst, page, pageSize);
    CeilingDiv(|lst|, pageSize);
    var tp := FloorDiv(|lst| + pageSize - 1, pageSize);
    if page > tp {
      MulMono(tp, q, pageSize);
    }
  }

  /** An exam-record page: the page number is clamped into `[1, max(total_pages, 1)]` first. */
  function ClampedPage<T>(lst: seq<T>, page: int, pageSize: int): (seq<T>, PageMeta) {
    var total := |lst|;
    var totalPages := if pageSize > 0 then FloorDiv(total + pageSize - 1, pageSize) else 1;
    var upper := if totalPages > 1 then totalPages else 1;
    var p := if page < 1 then 1 else if page > upper then upper else page;
    var start := (p - 1) * pageSize;
    (Slice(lst, start, start + pageSize), PageMeta(total, p, totalPages, p < totalPages, p > 1))
  }

  /**
   * The clamped page number always lies in `[1, max(total_pages, 1)]`, and
   * for a positive size it is the requested page when that page exists.
   */
  lemma ClampedPageNumber<T>(lst: seq<T>, page: int, pageSize: int)
    ensures var (items, meta) := ClampedPage(lst, page, pageSize);
            && items == Slice(lst, (meta.currentPage - 1) * pageSize, (meta.currentPage - 1) * pageSize + pageSize)
            && 1 <= meta.currentPage
            && (meta.currentPage <= meta.totalPages || meta.currentPage == 1)
            && (pageSize > 0 && 1 <= page <= meta.totalPages ==> meta.currentPage == page)
            && meta.totalCount == |lst|
            && (meta.hasNext <==> meta.currentPage < meta.totalPages)
            && (meta.hasPrev <==> meta.currentPage > 1)
  {
  }

  /**
   * For a positive size the items are the slice of the clamped page, at most
   * a page's worth, and a non-empty list never yields an empty page.
   */
  lemma ClampedPageItems<T>(lst: seq<T>, page: int, pageSize: int)
    ensures var (items, meta) := ClampedPage(lst, page, pageSize);
            var start := (meta.currentPage - 1) * pageSize;
            && (pageSize > 0 ==> |items| <= pageSize)
            && (pageSize > 0 && |lst| > 0 ==> 0 <= start < |lst|)
            && (pageSize > 0 && 0 <= start < |lst| ==>
                  items == lst[start .. if start + pageSize < |lst| then start + pageSize else |lst|])
            && (pageSize > 0 && |lst| > 0 ==> |items| > 0)
  {
    if pageSize <= 0 { return; }
    var (items, meta) := ClampedPage(lst, page, pageSize);
    var p := meta.currentPage;
    ClampedPageNumber(lst, page, pageSize);
    MulMono(0, p - 1, pageSize);
    if |lst| > 0 {
      CeilingDiv(|lst|, pageSize);
      MulMono(p - 1, meta.totalPages - 1, pageSize);
    }
  }
}

=== FILE: pyops.dfy ===
/**
 * The handful of Python built-in semantics the assessment engine leans on:
 * floor division `//`, `int()` of a float quotient, slicing with out-of-range
 * and negative bounds, filtering list comprehensions, `str(int)`,
 * `str.isdigit` / `int(str)` and `str.split`.
 */
module PyOps {

  /** Python's `a // b`: the quotient rounded towards minus infinity, for either sign of `b`. */
  function FloorDiv(a: int, b: int): (q: int)
    requires b != 0
    ensures b > 0 ==> q * b <= a < q * b + b
    ensures b < 0 ==> q * b + b < a <= q * b
  {
    if b > 0 then
      assert a == (a / b) * b + a % b;
      a / b
    else
      var q := (-a) / (-b);
      assert -a == q * (-b) + (-a) % (-b);
      assert q * (-b) == -(q * b);
      q
  }

  /** Python's `int(a / b)` for a positive divisor: the quotient rounded towards zero. */
  function TruncDiv(a: int, b: int): (q: int)
    requires b > 0
    ensures a >= 0 ==> q == a / b
    ensures a < 0 ==> q <= 0
    ensures q >= 1 <==> a >= b
  {
    if a >= 0 then
      DivAtLeastOne(a, b);
      a / b
    else
      -((-a) / b)
  }

  lemma DivAtLeastOne(a: nat, b: nat)
    requires b > 0
    ensures a / b >= 1 <==> a >= b
  {
    var q, r := a / b, a % b;
    assert a == q * b + r && 0 <= r < b;
    if q == 0 {
      assert a == r;
    } else {
      assert q * b >= b;
    }
  }

  /** How Python clamps one bound of `s[i:j]` against a sequence of length `n`. */
  function SliceBound(i: int, n: nat): (k: nat)
    ensures k <= n
    ensures 0 <= i <= n ==> k == i
    ensures i > n ==> k == n
    ensures -(n as int) <= i < 0 ==> k == n + i
    ensures i < -(n as int) ==> k == 0
  {
    if i < 0 then (if i + n < 0 then 0 else i + n)
    else if i > n then n
    else i
  }

  /** Python's `s[i:j]` with step 1, including negative and out-of-range bounds. */
  function Slice<T>(s: seq<T>, i: int, j: int): (r: seq<T>)
    ensures |r| <= |s|
    ensures 0 <= i <= j <= |s| ==> r == s[i..j]
    ensures 0 <= j <= i ==> r == []
    ensures 0 <= i <= |s| <= j ==> r == s[i..]
    ensures |s| <= i ==> r == []
    ensures i <= j ==> |r| <= j - i
    ensures forall k :: 0 <= k < |r| ==> r[k] in s
  {
    var a := SliceBound(i, |s|);
    var b := SliceBound(j, |s|);
    if a < b then s[a..b] else []
  }

  /** `[x for x in s if f(x)]`: the elements satisfying `f`, in their order in `s`. */
  function Filter<T>(s: seq<T>, f: T -> bool): (r: seq<T>)
    ensures |r| <= |s|
    ensures forall k :: 0 <= k < |r| ==> r[k] in s && f(r[k])
    ensures forall k :: 0 <= k < |s| && f(s[k]) ==> s[k] in r
    decreases |s|
  {
    if |s| == 0 then []
    else
      var rest := Filter(s[1..], f);
      assert forall k :: 1 <= k < |s| ==> s[k] == s[1..][k - 1];
      (if f(s[0]) then [s[0]] else []) + rest
  }

  /** A single element is kept exactly when it satisfies `f`. */
  lemma FilterSingleton<T>(x: T, f: T -> bool)
    ensures Filter([x], f) == if f(x) then [x] else []
  {
    assert [x][1..] == [];
  }

  /** Filtering a concatenation filters each part and keeps them in order. */
  lemma {:induction false} FilterAppend<T>(a: seq<T>, b: seq<T>, f: T -> bool)
    ensures Filter(a + b, f) == Filter(a, f) + Filter(b, f)
    decreases |a|
  {
    if |a| == 0 {
      assert a + b == b;
    } else {
      assert (a + b)[1..] == a[1..] + b;
      FilterAppend(a[1..], b, f);
    }
  }

  /**
   * Two filters agree when they accept the same positions and every accepted
   * element is the same in both sequences.
   */
  lemma {:induction false} FilterCongruent<T>(s1: seq<T>, f: T -> bool, s2: seq<T>, g: T -> bool)
    requires |s1| == |s2|
    requires forall k :: 0 <= k < |s1| ==> f(s1[k]) == g(s2[k])
    requires forall k :: 0 <= k < |s1| && f(s1[k]) ==> s1[k] == s2[k]
    ensures Filter(s1, f) == Filter(s2, g)
    decreases |s1|
  {
    if |s1| > 0 {
      FilterCongruent(s1[1..], f, s2[1..], g);
    }
  }

  function DigitChar(d: nat): (c: char)
    requires d < 10
    ensures '0' <= c <= '9'
  {
    ['0', '1', '2', '3', '4', '5', '6', '7', '8', '9'][d]
  }

  function DigitValue(c: char): (d: nat)
    requires '0' <= c <= '9'
    ensures d < 10
  {
    (c as int - '0' as int) as nat
  }

  /** `str(n)` for a non-negative integer: its decimal digits, most significant first, no leading zeros. */
  function NatToDecimal(n: nat): (s: string)
    ensures 1 <= |s|
    decreases n
  {
    if n < 10 then [DigitChar(n)] else NatToDecimal(n / 10) + [DigitChar(n % 10)]
  }

  /** `str(i)` for any integer. */
  function IntToDecimal(i: int): (s: string)
    ensures 1 <= |s|
  {
    if i < 0 then "-" + NatToDecimal(-i) else NatToDecimal(i)
  }

  /** `s.isdigit()`, restricted to the ASCII digits: non-empty and every character a digit. */
  predicate IsDigits(s: string) {
    |s| > 0 && forall k :: 0 <= k < |s| ==> '0' <= s[k] <= '9'
  }

  /** `int(s)` for a string of ASCII digits (leading zeros allowed). */
  function ParseDigits(s: string): (n: nat)
    requires forall k :: 0 <= k < |s| ==> '0' <= s[k] <= '9'
    decreases |s|
  {
    if |s| == 0 then 0 else ParseDigits(s[..|s| - 1]) * 10 + DigitValue(s[|s| - 1])
  }

  lemma DigitRoundTrip(d: nat)
    requires d < 10
    ensures DigitValue(DigitChar(d)) == d
  {
  }

  /** `int(str(n)) == n`: rendering a natural number and parsing it back is the identity. */
  lemma {:induction false} ParseOfDecimal(n: nat)
    ensures IsDigits(NatToDecimal(n))
    ensures ParseDigits(NatToDecimal(n)) == n
    decreases n
  {
    if n < 10 {
      DigitRoundTrip(n);
    } else {
      ParseOfDecimal(n / 10);
      var s := NatToDecimal(n);
      assert s[..|s| - 1] == NatToDecimal(n / 10);
      DigitRoundTrip(n % 10);
    }
  }

  /** A negative number renders with a leading minus sign, so it never looks like a digit string. */
  lemma NegativeIsNotDigits(i: int)
    requires i < 0
    ensures !IsDigits(IntToDecimal(i))
  {
    assert IntToDecimal(i)[0] == '-';
  }

  /** `str(i) == str(j)` only when `i == j`. */
  lemma DecimalInjective(i: int, j: int)
    requires IntToDecimal(i) == IntToDecimal(j)
    ensures i == j
  {
    if i < 0 && j < 0 {
      assert IntToDecimal(i)[1..] == NatToDecimal(-i);
      assert IntToDecimal(j)[1..] == NatToDecimal(-j);
      NatDecimalInjective(-i, -j);
    } else if i < 0 {
      NegativeIsNotDigits(i);
      ParseOfDecimal(j);
    } else if j < 0 {
      NegativeIsNotDigits(j);
      ParseOfDecimal(i);
    } else {
      NatDecimalInjective(i, j);
    }
  }

  lemma NatDecimalInjective(m: nat, n: nat)
    requires NatToDecimal(m) == NatToDecimal(n)
    ensures m == n
  {
    ParseOfDecimal(m);
    ParseOfDecimal(n);
  }

  /** Python's `s.split(sep)`: the pieces between separators, keeping empty pieces. */
  function Split(s: string, sep: char): (parts: seq<string>)
    ensures |parts| >= 1
    ensures forall k :: 0 <= k < |parts| ==> sep !in parts[k]
    decreases |s|
  {
    if |s| == 0 then [""]
    else
      var rest := Split(s[1..], sep);
      if s[0] == sep then [""] + rest
      else [[s[0]] + rest[0]] + rest[1..]
  }

  /** `sep.join(parts)`. */
  function Join(parts: seq<string>, sep: char): string
    requires |parts| >= 1
    decreases |parts|
  {
    if |parts| == 1 then parts[0] else parts[0] + [sep] + Join(parts[1..], sep)
  }

  /** Splitting loses nothing: joining the pieces with the separator rebuilds the string. */
  lemma {:induction false} JoinSplit(s: string, sep: char)
    ensures Join(Split(s, sep), sep) == s
    decreases |s|
  {
    if |s| > 0 {
      JoinSplit(s[1..], sep);
      var rest := Split(s[1..], sep);
      if s[0] != sep {
        var parts := Split(s, sep);
        assert parts[1..] == rest[1..];
        if |rest| == 1 {
          assert Join(parts, sep) == [s[0]] + rest[0];
        } else {
          assert Join(rest, sep) == rest[0] + [sep] + Join(rest[1..], sep);
          assert Join(parts, sep) == [s[0]] + rest[0] + [sep] + Join(rest[1..], sep);
        }
        assert s == [s[0]] + s[1..];
      } else {
        assert s == [sep] + s[1..];
      }
    }
  }
}

=== FILE: scoring.dfy ===
/**
 * Answer scoring, the practice-mode `submit_answer` operation, and the
 * per-question tally that finalising an exam runs over its question snapshot.
 */
module Scoring {
  import opened Wrappers
  import opened PyOps
  import opened Model

  /** The multiple-choice normalisation of a submission: a non-empty bare
      string becomes a one-element list, an empty string or null the empty list. */
  function AsList(raw: Raw): seq<string> {
    match raw
    case Items(xs) => xs
    case Text(s) => if s == "" then [] else [s]
    case Absent => []
  }

  /** The answer as the engine records it: the normalised list for multiple choice, the raw value otherwise. */
  function Recorded(q: Question, raw: Raw): Raw {
    if q.qtype == MultiChoice then Items(AsList(raw)) else raw
  }

  /** The set of option keys of a multiple-choice answer key. */
  function CorrectKeys(q: Question): set<string> {
    set k | k in Split(q.correctAnswer, ',')
  }

  function Elements(xs: seq<string>): set<string> {
    set x | x in xs
  }

  /** The scoring rule: multiple choice compares key sets, the other types compare exactly. */
  predicate IsCorrect(q: Question, raw: Raw) {
    if q.qtype == MultiChoice then Elements(AsList(raw)) == CorrectKeys(q)
    else raw == Text(q.correctAnswer)
  }

  /** An empty submission: an empty list for multiple choice, null or the empty string otherwise. */
  predicate IsUnanswered(q: Question, raw: Raw) {
    if q.qtype == MultiChoice then AsList(raw) == [] else raw == Absent || raw == Text("")
  }

  /** A multiple-choice verdict depends only on which keys were submitted: order and repetition are irrelevant. */
  lemma MultiChoiceIgnoresOrder(q: Question, a: seq<string>, b: seq<string>)
    requires q.qtype == MultiChoice
    requires forall x :: x in a <==> x in b
    ensures IsCorrect(q, Items(a)) <==> IsCorrect(q, Items(b))
  {
    assert Elements(a) == Elements(b);
  }

  /** A multiple-choice submission is correct exactly when it names every correct key and nothing else. */
  lemma MultiChoiceCorrectIff(q: Question, xs: seq<string>)
    requires q.qtype == MultiChoice
    ensures IsCorrect(q, Items(xs)) <==>
              (forall x :: x in xs ==> x in Split(q.correctAnswer, ',')) &&
              (forall k :: k in Split(q.correctAnswer, ',') ==> k in xs)
  {
    if (forall x :: x in xs ==> x in Split(q.correctAnswer, ',')) &&
       (forall k :: k in Split(q.correctAnswer, ',') ==> k in xs) {
      assert Elements(xs) == CorrectKeys(q);
    }
    if IsCorrect(q, Items(xs)) {
      forall x | x in xs ensures x in Split(q.correctAnswer, ',') {
        assert x in Elements(xs);
      }
      forall k | k in Split(q.correctAnswer, ',') ensures k in xs {
        assert k in CorrectKeys(q);
      }
    }
  }

  /** An empty submission never scores, provided the answer key itself is not the empty string. */
  lemma UnansweredIsIncorrect(q: Question, raw: Raw)
    requires IsUnanswered(q, raw)
    requires q.correctAnswer != ""
    ensures !IsCorrect(q, raw)
  {
    if q.qtype == MultiChoice {
      var parts := Split(q.correctAnswer, ',');
      assert parts[0] in CorrectKeys(q);
      assert Elements(AsList(raw)) == {};
    }
  }

  /** The multiple-choice key "A,C": the keys in either order score, a strict subset does not and is not empty. */
  lemma MultiChoiceExample(q: Question)
    requires q.qtype == MultiChoice && q.correctAnswer == "A,C"
    ensures IsCorrect(q, Items(["C", "A"]))
    ensures IsCorrect(q, Items(["A", "C", "A"]))
    ensures !IsCorrect(q, Items(["A"]))
    ensures !IsUnanswered(q, Items(["A"]))
  {
    var c, a := "C", "A,C";
    assert c[0] == 'C' && c[1..] == "" && ['C'] + "" == "C";
    assert Split(c, ',') == ["C"];
    assert Split(",C", ',') == [""] + Split("C", ',');
    assert a[0] == 'A' && a[1..] == ",C" && ['A'] + "" == "A";
    assert Split(a, ',') == [['A'] + ""] + ["C"];
    assert CorrectKeys(q) == {"A", "C"};
    assert Elements(["C", "A"]) == {"A", "C"};
    assert Elements(["A", "C", "A"]) == {"A", "C"};
    assert "C" !in Elements(["A"]);
  }

  /** The first question of the bank with the given id, as `next(...)` finds it. */
  function FindQuestion(bank: seq<Question>, id: int): (r: Option<Question>)
    ensures r.None? <==> forall k :: 0 <= k < |bank| ==> bank[k].id != id
    ensures r.Some? ==> r.value in bank && r.value.id == id
    ensures r.Some? ==> exists k :: 0 <= k < |bank| && bank[k] == r.value &&
                                    forall j :: 0 <= j < k ==> bank[j].id != id
    decreases |bank|
  {
    if |bank| == 0 then None
    else if bank[0].id == id then Some(bank[0])
    else
      var r := FindQuestion(bank[1..], id);
      if r.Some? then
        var k :| 0 <= k < |bank[1..]| && bank[1..][k] == r.value &&
                 forall j :: 0 <= j < k ==> bank[1..][j].id != id;
        assert bank[k + 1] == r.value;
        r
      else r
  }

  /** The log record written for a wrong attempt at `q`. */
  function WrongEntry(q: Question, recorded: Raw, now: int): WrongRecord {
    WrongRecord(q.id, recorded, q.correctAnswer, now, q.content, q.analysis, q.qtype)
  }

  /**
   * A wrong attempt: the question joins the wrong and answered sets, one log
   * record is appended and its counter goes up by one, together.
   */
  function RecordWrong(st: UserState, q: Question, recorded: Raw, now: int): (st': UserState)
    ensures st'.log == st.log + [WrongEntry(q, recorded, now)]
    ensures st'.progress.answered == st.progress.answered + {q.id}
    ensures st'.progress.wrong == st.progress.wrong + {q.id}
    ensures st'.progress.important == st.progress.important
    ensures st'.exams == st.exams
    ensures ConsistentUser(st) ==> ConsistentUser(st')
    ensures ConsistentUser(st) ==> CountWrong(st'.log, q.id) == CountWrong(st.log, q.id) + 1
    ensures ConsistentUser(st) ==> st'.progress.wrongCount[q.id] == CountWrong(st.log, q.id) + 1
    ensures st'.progress.wrongCount == st.progress.wrongCount[q.id := CounterOf(st.progress.wrongCount, q.id) + 1]
    ensures st'.progress.wrongCount.Keys == st.progress.wrongCount.Keys + {q.id}
    ensures st'.progress.wrongCount[q.id] == (if q.id in st.progress.wrongCount then st.progress.wrongCount[q.id] else 0) + 1
    ensures forall x :: x in st.progress.wrongCount && x != q.id ==> st'.progress.wrongCount[x] == st.progress.wrongCount[x]
    ensures st'.progress.loadedCounts == st.progress.loadedCounts
  {
    var p := st.progress;
    var p' := p.(answered := p.answered + {q.id},
                 wrong := p.wrong + {q.id},
                 wrongCount := p.wrongCount[q.id := CounterOf(p.wrongCount, q.id) + 1]);
    var r := WrongEntry(q, recorded, now);
    WrongEventKeepsCounts(p, st.log, q.id, r);
    st.(progress := p', log := st.log + [r])
  }

  /** Adding an id to the wrong set, bumping its counter and appending its record keep the invariant. */
  lemma WrongEventKeepsCounts(p: Progress, log: seq<WrongRecord>, id: int, r: WrongRecord)
    requires r.questionId == id
    ensures var c := CounterOf(p.wrongCount, id);
            var p' := p.(answered := p.answered + {id}, wrong := p.wrong + {id}, wrongCount := p.wrongCount[id := c + 1]);
            Consistent(p, log) ==>
              && Consistent(p', log + [r])
              && CountWrong(log + [r], id) == CountWrong(log, id) + 1
              && p'.wrongCount[id] == CountWrong(log, id) + 1
  {
    if !Consistent(p, log) { return; }
    var c := CounterOf(p.wrongCount, id);
    var p' := p.(answered := p.answered + {id}, wrong := p.wrong + {id}, wrongCount := p.wrongCount[id := c + 1]);
    var log' := log + [r];
    LogIdsAppend(log, r);
    if id !in p.wrongCount {
      assert id !in LogIds(log);
      assert forall k :: 0 <= k < |log| ==> log[k].questionId != id;
      assert CountWrong(log, id) == 0;
    }
    forall x | x in p'.wrongCount ensures p'.wrongCount[x] == CountWrong(log', x) {
      CountAppend(log, r, x);
    }
    CountAppend(log, r, id);
  }

  datatype SubmitReply = SubmitReply(isCorrect: bool, correctAnswer: string, analysis: string)

  datatype SubmitError = QuestionNotFound

  /**
   * `submit_answer` in practice mode. The question is marked answered first;
   * any incorrect submission, the empty one included, is a wrong attempt.
   */
  function SubmitAnswer(bank: seq<Question>, st: UserState, id: int, raw: Raw, now: int)
    : (r: Result<(SubmitReply, UserState), SubmitError>)
    ensures r.Err? <==> forall k :: 0 <= k < |bank| ==> bank[k].id != id
    ensures r.Ok? ==>
      var q := FindQuestion(bank, id).value;
      var (reply, st') := r.value;
      && reply == SubmitReply(IsCorrect(q, raw), q.correctAnswer, q.analysis)
      && st'.progress.answered == st.progress.answered + {id}
      && st'.progress.important == st.progress.important
      && st'.progress.loadedCounts == st.progress.loadedCounts
      && st'.exams == st.exams
      && (reply.isCorrect ==> st'.log == st.log && st'.progress.wrong == st.progress.wrong
                              && st'.progress.wrongCount == st.progress.wrongCount)
      && (!reply.isCorrect ==> st'.log == st.log + [WrongEntry(q, Recorded(q, raw), now)]
                               && st'.progress.wrong == st.progress.wrong + {id}
                               && st'.progress.wrongCount ==
                                    st.progress.wrongCount[id := CounterOf(st.progress.wrongCount, id) + 1])
    ensures r.Ok? && WrongLoggedUser(st) ==> WrongLoggedUser(r.value.1)
    ensures r.Ok? && ConsistentUser(st) ==> ConsistentUser(r.value.1)
  {
    match FindQuestion(bank, id)
    case None => Err(QuestionNotFound)
    case Some(q) =>
      var st1 := st.(progress := st.progress.(answered := st.progress.answered + {id}));
      var ok := IsCorrect(q, raw);
      LogIdsAppend(st.log, WrongEntry(q, Recorded(q, raw), now));
      var st2 := if ok then st1 else RecordWrong(st1, q, Recorded(q, raw), now);
      Ok((SubmitReply(ok, q.correctAnswer, q.analysis), st2))
  }

  /**
   * In practice mode an empty answer is a wrong attempt: it is logged, its
   * counter goes up by one and, under the invariant, equals its log count.
   */
  lemma EmptyPracticeAnswerIsLogged(bank: seq<Question>, st: UserState, q: Question, now: int)
    requires q in bank && FindQuestion(bank, q.id) == Some(q)
    requires q.correctAnswer != ""
    ensures SubmitAnswer(bank, st, q.id, Absent, now).Ok?
    ensures var (reply, st') := SubmitAnswer(bank, st, q.id, Absent, now).value;
            && !reply.isCorrect
            && st'.log == st.log + [WrongEntry(q, Recorded(q, Absent), now)]
            && q.id in st'.progress.wrong
            && st'.progress.wrongCount[q.id] ==
                 (if q.id in st.progress.wrongCount then st.progress.wrongCount[q.id] else 0) + 1
            && (ConsistentUser(st) ==> st'.progress.wrongCount[q.id] == CountWrong(st.log, q.id) + 1)
  {
    var k :| 0 <= k < |bank| && bank[k] == q;
    UnansweredIsIncorrect(q, Absent);
    var (reply, st') := SubmitAnswer(bank, st, q.id, Absent, now).value;
    assert q.id in st'.progress.wrong;
  }

  // ----- Exam tally -------------------------------------------------------

  /** The submitted answer to `q` in an exam sheet; a missing entry reads as the empty string. */
  function AnswerFor(answers: map<string, Raw>, q: Question): Raw {
    var key := IntToDecimal(q.id);
    if key in answers then answers[key] else Text("")
  }

  /** The `wrong_answers` entry of an incorrect exam question. */
  function MissedEntry(q: Question, raw: Raw): WrongAnswer {
    WrongAnswer(q.id, Recorded(q, raw), q.correctAnswer, q.content, q.analysis, q.qtype, q.score)
  }

  /** Whether an exam question counts as a wrong attempt: incorrect and not left empty. */
  predicate WrongAttempt(q: Question, raw: Raw) {
    !IsCorrect(q, raw) && !IsUnanswered(q, raw)
  }

  /** Reference definition: the points earned on a sheet, the sum of the scores of its correct questions. */
  function SheetScore(qs: seq<Question>, answers: map<string, Raw>): int
    decreases |qs|
  {
    if |qs| == 0 then 0
    else (if IsCorrect(qs[0], AnswerFor(answers, qs[0])) then qs[0].score else 0) + SheetScore(qs[1..], answers)
  }

  /** Reference definition: how many questions of a sheet are correct. */
  function CorrectCount(qs: seq<Question>, answers: map<string, Raw>): nat
    decreases |qs|
  {
    if |qs| == 0 then 0
    else (if IsCorrect(qs[0], AnswerFor(answers, qs[0])) then 1 else 0) + CorrectCount(qs[1..], answers)
  }

  /** Reference definition: one summary entry per incorrect question, in sheet order. */
  function MissedOf(qs: seq<Question>, answers: map<string, Raw>): seq<WrongAnswer>
    decreases |qs|
  {
    if |qs| == 0 then []
    else
      var raw := AnswerFor(answers, qs[0]);
      (if IsCorrect(qs[0], raw) then [] else [MissedEntry(qs[0], raw)]) + MissedOf(qs[1..], answers)
  }

  /** Reference definition: one log record per wrong attempt, in sheet order. */
  function WrongLogOf(qs: seq<Question>, answers: map<string, Raw>, now: int): seq<WrongRecord>
    decreases |qs|
  {
    if |qs| == 0 then []
    else
      var raw := AnswerFor(answers, qs[0]);
      (if WrongAttempt(qs[0], raw) then [WrongEntry(qs[0], Recorded(qs[0], raw), now)] else [])
        + WrongLogOf(qs[1..], answers, now)
  }

  /** The ids of the sheet's questions that were correct or wrongly attempted (not left empty). */
  function AttemptedIds(qs: seq<Question>, answers: map<string, Raw>): set<int> {
    set k | 0 <= k < |qs| && (IsCorrect(qs[k], AnswerFor(answers, qs[k])) || WrongAttempt(qs[k], AnswerFor(answers, qs[k])))
          :: qs[k].id
  }

  /** The ids of the sheet's wrongly attempted questions. */
  function WrongAttemptIds(qs: seq<Question>, answers: map<string, Raw>): set<int> {
    set k | 0 <= k < |qs| && WrongAttempt(qs[k], AnswerFor(answers, qs[k])) :: qs[k].id
  }

  lemma AttemptedIdsCons(qs: seq<Question>, answers: map<string, Raw>)
    requires |qs| > 0
    ensures var raw := AnswerFor(answers, qs[0]);
            AttemptedIds(qs, answers) ==
              (if IsCorrect(qs[0], raw) || WrongAttempt(qs[0], raw) then {qs[0].id} else {})
              + AttemptedIds(qs[1..], answers)
    ensures WrongAttemptIds(qs, answers) ==
              (if WrongAttempt(qs[0], AnswerFor(answers, qs[0])) then {qs[0].id} else {})
              + WrongAttemptIds(qs[1..], answers)
  {
    var rest := qs[1..];
    forall x | x in AttemptedIds(rest, answers) ensures x in AttemptedIds(qs, answers) {
      var k :| 0 <= k < |rest| && (IsCorrect(rest[k], AnswerFor(answers, rest[k])) || WrongAttempt(rest[k], AnswerFor(answers, rest[k]))) && rest[k].id == x;
      assert qs[k + 1] == rest[k];
    }
    forall x | x in AttemptedIds(qs, answers) ensures x in (if IsCorrect(qs[0], AnswerFor(answers, qs[0])) || WrongAttempt(qs[0], AnswerFor(answers, qs[0])) then {qs[0].id} else {}) + AttemptedIds(rest, answers) {
      var k :| 0 <= k < |qs| && (IsCorrect(qs[k], AnswerFor(answers, qs[k])) || WrongAttempt(qs[k], AnswerFor(answers, qs[k]))) && qs[k].id == x;
      if k > 0 { assert rest[k - 1] == qs[k]; }
    }
    forall x | x in WrongAttemptIds(rest, answers) ensures x in WrongAttemptIds(qs, answers) {
      var k :| 0 <= k < |rest| && WrongAttempt(rest[k], AnswerFor(answers, rest[k])) && rest[k].id == x;
      assert qs[k + 1] == rest[k];
    }
    forall x | x in WrongAttemptIds(qs, answers) ensures x in (if WrongAttempt(qs[0], AnswerFor(answers, qs[0])) then {qs[0].id} else {}) + WrongAttemptIds(rest, answers) {
      var k :| 0 <= k < |qs| && WrongAttempt(qs[k], AnswerFor(answers, qs[k])) && qs[k].id == x;
      if k > 0 { assert rest[k - 1] == qs[k]; }
    }
  }

  /** The log records a sheet adds name exactly its wrongly attempted questions. */
  lemma {:induction false} WrongLogIds(qs: seq<Question>, answers: map<string, Raw>, now: int)
    ensures LogIds(WrongLogOf(qs, answers, now)) == WrongAttemptIds(qs, answers)
    decreases |qs|
  {
    if |qs| == 0 {
      assert WrongAttemptIds(qs, answers) == {};
    } else {
      var raw := AnswerFor(answers, qs[0]);
      var head := if WrongAttempt(qs[0], raw) then [WrongEntry(qs[0], Recorded(qs[0], raw), now)] else [];
      AttemptedIdsCons(qs, answers);
      WrongLogIds(qs[1..], answers, now);
      LogIdsConcat(head, WrongLogOf(qs[1..], answers, now));
      assert LogIds(head) == (if WrongAttempt(qs[0], raw) then {qs[0].id} else {}) by {
        if WrongAttempt(qs[0], raw) { assert head[0].questionId == qs[0].id; }
      }
    }
  }

  /** A wrongly attempted question is an attempted one. */
  lemma WrongAttemptsAttempted(qs: seq<Question>, answers: map<string, Raw>)
    ensures WrongAttemptIds(qs, answers) <= AttemptedIds(qs, answers)
  {
    forall x | x in WrongAttemptIds(qs, answers) ensures x in AttemptedIds(qs, answers) {
      var k :| 0 <= k < |qs| && WrongAttempt(qs[k], AnswerFor(answers, qs[k])) && qs[k].id == x;
    }
  }

  /**
   * Adding a sheet's effects to a state keeps the set part of the invariant:
   * the answered set grows by the attempted ids, and the wrong set and the
   * log's ids grow by the same wrongly attempted ids.
   */
  lemma SheetKeepsWrongLogged(p: Progress, log: seq<WrongRecord>, qs: seq<Question>, answers: map<string, Raw>, now: int)
    ensures WrongLogged(p, log) ==>
              WrongLogged(p.(answered := p.answered + AttemptedIds(qs, answers),
                             wrong := p.wrong + WrongAttemptIds(qs, answers)),
                          log + WrongLogOf(qs, answers, now))
  {
    WrongLogIds(qs, answers, now);
    WrongAttemptsAttempted(qs, answers);
    LogIdsConcat(log, WrongLogOf(qs, answers, now));
  }

  /** The running state of a finalisation: the user's state, the points so far and the missed entries so far. */
  datatype Tally = Tally(state: UserState, total: int, missed: seq<WrongAnswer>)

  /** Scores one exam question against the sheet and applies its effect. */
  function ScoreQuestion(t: Tally, q: Question, answers: map<string, Raw>, now: int): Tally {
    var raw := AnswerFor(answers, q);
    if IsCorrect(q, raw) then
      var p := t.state.progress;
      Tally(t.state.(progress := p.(answered := p.answered + {q.id})), t.total + q.score, t.missed)
    else
      var missed := t.missed + [MissedEntry(q, raw)];
      if IsUnanswered(q, raw) then Tally(t.state, t.total, missed)
      else Tally(RecordWrong(t.state, q, Recorded(q, raw), now), t.total, missed)
  }

  /** The effect of one question, stated against the reference definitions' first step. */
  lemma ScoreQuestionEffect(t: Tally, q: Question, answers: map<string, Raw>, now: int)
    ensures var raw := AnswerFor(answers, q);
            var t1 := ScoreQuestion(t, q, answers, now);
            && t1.total == t.total + (if IsCorrect(q, raw) then q.score else 0)
            && t1.missed == t.missed + (if IsCorrect(q, raw) then [] else [MissedEntry(q, raw)])
            && t1.state.log == t.state.log + (if WrongAttempt(q, raw) then [WrongEntry(q, Recorded(q, raw), now)] else [])
            && t1.state.progress.answered == t.state.progress.answered + (if IsCorrect(q, raw) || WrongAttempt(q, raw) then {q.id} else {})
            && t1.state.progress.wrong == t.state.progress.wrong + (if WrongAttempt(q, raw) then {q.id} else {})
            && t1.state.progress.important == t.state.progress.important
            && t1.state.exams == t.state.exams
            && (ConsistentUser(t.state) ==> ConsistentUser(t1.state))
  {
    var raw := AnswerFor(answers, q);
    if IsCorrect(q, raw) {
      var p := t.state.progress;
      if ConsistentUser(t.state) {
        assert Consistent(p.(answered := p.answered + {q.id}), t.state.log);
      }
    }
  }

  /** The log part of one question's effect. */
  lemma ScoreQuestionLog(t: Tally, q: Question, answers: map<string, Raw>, now: int)
    ensures var raw := AnswerFor(answers, q);
            var t1 := ScoreQuestion(t, q, answers, now);
            && t1.state.log == t.state.log + (if WrongAttempt(q, raw) then [WrongEntry(q, Recorded(q, raw), now)] else [])
            && t1.state.exams == t.state.exams
  {
  }

  /** The log records one exam question adds: one for a wrong attempt, none otherwise. */
  function QuestionLog(q: Question, answers: map<string, Raw>, now: int): seq<WrongRecord> {
    var raw := AnswerFor(answers, q);
    if WrongAttempt(q, raw) then [WrongEntry(q, Recorded(q, raw), now)] else []
  }

  lemma WrongLogOfCons(qs: seq<Question>, answers: map<string, Raw>, now: int)
    requires |qs| > 0
    ensures WrongLogOf(qs, answers, now) == QuestionLog(qs[0], answers, now) + WrongLogOf(qs[1..], answers, now)
  {
  }

  /**
   * The counter part of one question's effect: each integer-keyed counter
   * grows by the number of records the question logs for it, a new counter
   * starting from 0; the counters read back from storage are left alone.
   */
  lemma ScoreQuestionCounts(t: Tally, q: Question, answers: map<string, Raw>, now: int)
    ensures var c := t.state.progress.wrongCount;
            var h := QuestionLog(q, answers, now);
            var p1 := ScoreQuestion(t, q, answers, now).state.progress;
            && p1.wrongCount.Keys == c.Keys + LogIds(h)
            && (forall x :: x in p1.wrongCount ==> p1.wrongCount[x] == CounterOf(c, x) + CountWrong(h, x))
            && p1.loadedCounts == t.state.progress.loadedCounts
  {
    var raw := AnswerFor(answers, q);
    var c := t.state.progress.wrongCount;
    var h := QuestionLog(q, answers, now);
    var p1 := ScoreQuestion(t, q, answers, now).state.progress;
    if WrongAttempt(q, raw) {
      var e := WrongEntry(q, Recorded(q, raw), now);
      assert h == [e];
      assert p1.wrongCount == c[q.id := CounterOf(c, q.id) + 1];
      assert LogIds(h) == {q.id} by { assert h[0] == e; }
      forall x | x in p1.wrongCount ensures p1.wrongCount[x] == CounterOf(c, x) + CountWrong(h, x) {
        CountSingle(e, x);
      }
    } else {
      assert h == [];
      assert LogIds(h) == {};
      assert p1.wrongCount == c;
    }
  }

  lemma CountSingle(e: WrongRecord, id: int)
    ensures CountWrong([e], id) == if e.questionId == id then 1 else 0
  {
    assert [e][..0] == [];
  }

  /** Two runs of counter increments compose into one over the concatenated records. */
  lemma ComposeCounts(c: map<int, int>, c1: map<int, int>, c2: map<int, int>, a: seq<WrongRecord>, b: seq<WrongRecord>)
    requires c1.Keys == c.Keys + LogIds(a)
    requires forall x :: x in c1 ==> c1[x] == CounterOf(c, x) + CountWrong(a, x)
    requires c2.Keys == c1.Keys + LogIds(b)
    requires forall x :: x in c2 ==> c2[x] == CounterOf(c1, x) + CountWrong(b, x)
    ensures c2.Keys == c.Keys + LogIds(a + b)
    ensures forall x :: x in c2 ==> c2[x] == CounterOf(c, x) + CountWrong(a + b, x)
  {
    LogIdsConcat(a, b);
    forall x | x in c2 ensures c2[x] == CounterOf(c, x) + CountWrong(a + b, x) {
      CountConcat(a, b, x);
      if x !in c1 {
        assert x !in LogIds(a);
        assert forall k :: 0 <= k < |a| ==> a[k].questionId != x;
      }
    }
  }

  /** Scores every question of a sheet in order, threading the tally through. */
  function ScoreSheet(qs: seq<Question>, answers: map<string, Raw>, now: int, t: Tally): Tally
    decreases |qs|
  {
    if |qs| == 0 then t else ScoreSheet(qs[1..], answers, now, ScoreQuestion(t, qs[0], answers, now))
  }

  /** The points and the summary of a sheet agree with the reference definitions. */
  lemma {:induction false} ScoreSheetResult(qs: seq<Question>, answers: map<string, Raw>, now: int, t: Tally)
    ensures ScoreSheet(qs, answers, now, t).total == t.total + SheetScore(qs, answers)
    ensures ScoreSheet(qs, answers, now, t).missed == t.missed + MissedOf(qs, answers)
    decreases |qs|
  {
    if |qs| > 0 {
      ScoreQuestionEffect(t, qs[0], answers, now);
      ScoreSheetResult(qs[1..], answers, now, ScoreQuestion(t, qs[0], answers, now));
    }
  }

  /** The log grows by exactly one record per wrong attempt, in sheet order. */
  lemma {:induction false} ScoreSheetLog(qs: seq<Question>, answers: map<string, Raw>, now: int, t: Tally)
    ensures ScoreSheet(qs, answers, now, t).state.log == t.state.log + WrongLogOf(qs, answers, now)
    decreases |qs|
  {
    if |qs| > 0 {
      var t1 := ScoreQuestion(t, qs[0], answers, now);
      ScoreQuestionLog(t, qs[0], answers, now);
      ScoreSheetLog(qs[1..], answers, now, t1);
      var raw := AnswerFor(answers, qs[0]);
      ConcatAssoc(t.state.log, if WrongAttempt(qs[0], raw) then [WrongEntry(qs[0], Recorded(qs[0], raw), now)] else [],
                  WrongLogOf(qs[1..], answers, now));
    }
  }

  lemma ConcatAssoc(a: seq<WrongRecord>, b: seq<WrongRecord>, c: seq<WrongRecord>)
    ensures (a + b) + c == a + (b + c)
  {
  }

  /** Scoring a sheet leaves the exam records alone. */
  lemma {:induction false} ScoreSheetExams(qs: seq<Question>, answers: map<string, Raw>, now: int, t: Tally)
    ensures ScoreSheet(qs, answers, now, t).state.exams == t.state.exams
    decreases |qs|
  {
    if |qs| > 0 {
      ScoreQuestionLog(t, qs[0], answers, now);
      ScoreSheetExams(qs[1..], answers, now, ScoreQuestion(t, qs[0], answers, now));
    }
  }

  /**
   * Scoring a sheet adds to each integer-keyed counter the number of log
   * records the sheet writes for it, creating the counters of newly wrong
   * questions; the counters read back from storage are left alone.
   */
  lemma {:induction false} ScoreSheetCounts(qs: seq<Question>, answers: map<string, Raw>, now: int, t: Tally)
    ensures var c := t.state.progress.wrongCount;
            var p := ScoreSheet(qs, answers, now, t).state.progress;
            && p.wrongCount.Keys == c.Keys + LogIds(WrongLogOf(qs, answers, now))
            && (forall x :: x in p.wrongCount ==>
                  p.wrongCount[x] == CounterOf(c, x) + CountWrong(WrongLogOf(qs, answers, now), x))
            && p.loadedCounts == t.state.progress.loadedCounts
    decreases |qs|
  {
    if |qs| == 0 {
      assert LogIds(WrongLogOf(qs, answers, now)) == {};
    } else {
      var t1 := ScoreQuestion(t, qs[0], answers, now);
      ScoreQuestionCounts(t, qs[0], answers, now);
      ScoreSheetCounts(qs[1..], answers, now, t1);
      WrongLogOfCons(qs, answers, now);
      ComposeCounts(t.state.progress.wrongCount, t1.state.progress.wrongCount,
                    ScoreSheet(qs[1..], answers, now, t1).state.progress.wrongCount,
                    QuestionLog(qs[0], answers, now), WrongLogOf(qs[1..], answers, now));
    }
  }

  /** Correct and wrongly attempted questions join the answered set, wrong attempts the wrong set; blanks join neither. */
  lemma {:induction false} ScoreSheetSets(qs: seq<Question>, answers: map<string, Raw>, now: int, t: Tally)
    ensures var p := ScoreSheet(qs, answers, now, t).state.progress;
      && p.answered == t.state.progress.answered + AttemptedIds(qs, answers)
      && p.wrong == t.state.progress.wrong + WrongAttemptIds(qs, answers)
      && p.important == t.state.progress.important
    decreases |qs|
  {
    if |qs| > 0 {
      ScoreQuestionEffect(t, qs[0], answers, now);
      AttemptedIdsCons(qs, answers);
      ScoreSheetSets(qs[1..], answers, now, ScoreQuestion(t, qs[0], answers, now));
    }
  }

  /** Scoring a sheet keeps the consistency invariant. */
  lemma {:induction false} ScoreSheetConsistent(qs: seq<Question>, answers: map<string, Raw>, now: int, t: Tally)
    ensures ConsistentUser(t.state) ==> ConsistentUser(ScoreSheet(qs, answers, now, t).state)
    decreases |qs|
  {
    if |qs| > 0 && ConsistentUser(t.state) {
      ScoreQuestionEffect(t, qs[0], answers, now);
      ScoreSheetConsistent(qs[1..], answers, now, ScoreQuestion(t, qs[0], answers, now));
    }
  }

  /** Each question of a sheet is either correct or has exactly one summary entry. */
  lemma {:induction false} CorrectPlusMissed(qs: seq<Question>, answers: map<string, Raw>)
    ensures CorrectCount(qs, answers) + |MissedOf(qs, answers)| == |qs|
    decreases |qs|
  {
    if |qs| > 0 {
      CorrectPlusMissed(qs[1..], answers);
    }
  }

  /** A sheet left entirely blank scores nothing and leaves the user's sets and log untouched. */
  lemma {:induction false} BlankSheetChangesNothing(qs: seq<Question>, now: int, t: Tally)
    requires forall k :: 0 <= k < |qs| ==> qs[k].correctAnswer != ""
    ensures var r := ScoreSheet(qs, map[], now, t);
            r.state == t.state && r.total == t.total && |r.missed| == |t.missed| + |qs|
    decreases |qs|
  {
    if |qs| > 0 {
      var q := qs[0];
      assert AnswerFor(map[], q) == Text("");
      UnansweredIsIncorrect(q, Text(""));
      var t1 := ScoreQuestion(t, q, map[], now);
      assert t1.state == t.state;
      BlankSheetChangesNothing(qs[1..], now, t1);
    }
  }
}

=== FILE: selection.dfy ===
/**
 * Practice-question selection: the pool a practice mode draws from, the
 * optional type filter, the random pick, and the "unanswered" mode's
 * immediate marking of the drawn question as answered.
 */
module Selection {
  import opened Wrappers
  import opened PyOps
  import opened Model

  datatype Mode = AllMode | UnansweredMode | WrongMode | ImportantMode

  /** The request's `mode` string; anything unrecognised practises the whole bank. */
  function ParseMode(s: string): Mode {
    if s == "unanswered" then UnansweredMode
    else if s == "wrong" then WrongMode
    else if s == "important" then ImportantMode
    else AllMode
  }

  /** Whether a question belongs to a mode's pool. A bookmark matches only in its numeric form. */
  predicate InMode(q: Question, p: Progress, m: Mode) {
    match m
    case AllMode => true
    case UnansweredMode => q.id !in p.answered
    case WrongMode => q.id in p.wrong
    case ImportantMode => IntKey(q.id) in p.important
  }

  /** A type filter outside 1..3 (including the 0 an unparsable value becomes) admits every type. */
  predicate HasType(q: Question, typeFilter: int) {
    !(1 <= typeFilter <= 3) || q.qtype == typeFilter
  }

  predicate Eligible(q: Question, p: Progress, m: Mode, typeFilter: int) {
    InMode(q, p, m) && HasType(q, typeFilter)
  }

  datatype PickError =
    | AllAnswered           // the unanswered pool is empty
    | NoWrongQuestions      // the wrong pool is empty
    | NoImportantQuestions  // the bookmark pool is empty
    | NoneOfType            // the pool has no question of the requested type
    | EmptyPool             // `random.choice` on an empty bank: the request fails

  function PoolError(m: Mode): PickError {
    match m
    case UnansweredMode => AllAnswered
    case WrongMode => NoWrongQuestions
    case ImportantMode => NoImportantQuestions
    case AllMode => EmptyPool
  }

  datatype Picked = Picked(question: Question, isImportant: bool)

  /** The questions of a mode's pool, in bank order. */
  function ModePool(bank: seq<Question>, p: Progress, m: Mode): (pool: seq<Question>)
    ensures forall q :: q in pool <==> q in bank && InMode(q, p, m)
  {
    Filter(bank, (q: Question) => InMode(q, p, m))
  }

  /** The questions of a pool that pass the type filter, in pool order. */
  function TypePool(pool: seq<Question>, typeFilter: int): (typed: seq<Question>)
    ensures forall q :: q in typed <==> q in pool && HasType(q, typeFilter)
  {
    if 1 <= typeFilter <= 3 then Filter(pool, (q: Question) => q.qtype == typeFilter) else pool
  }

  /**
   * `get_random_question`. `choice` stands for the random generator: the
   * question drawn is the one at `choice` modulo the pool size. An error
   * leaves the state as it was.
   */
  function PickQuestion(bank: seq<Question>, st: UserState, m: Mode, typeFilter: int, choice: nat)
    : (r: Result<(Picked, UserState), PickError>)
    ensures r.Err? <==> forall k :: 0 <= k < |bank| ==> !Eligible(bank[k], st.progress, m, typeFilter)
    ensures r.Err? && m != AllMode ==>
              (r.error == PoolError(m) <==> forall k :: 0 <= k < |bank| ==> !InMode(bank[k], st.progress, m))
    ensures r == Err(EmptyPool) <==> m == AllMode && !(1 <= typeFilter <= 3) && |bank| == 0
    ensures r.Err? && r.error != PoolError(m) ==> r.error == NoneOfType && 1 <= typeFilter <= 3
    ensures r.Ok? ==>
              var (picked, st') := r.value;
              && picked.question in bank
              && Eligible(picked.question, st.progress, m, typeFilter)
              && st'.progress.answered == st.progress.answered + (if m == UnansweredMode then {picked.question.id} else {})
              && st'.progress.wrong == st.progress.wrong
              && st'.progress.wrongCount == st.progress.wrongCount
              && st'.progress.loadedCounts == st.progress.loadedCounts
              && st'.progress.important == st.progress.important
              && st'.log == st.log && st'.exams == st.exams
              && (picked.isImportant <==> IntKey(picked.question.id) in st.progress.important)
    ensures r.Ok? && WrongLoggedUser(st) ==> WrongLoggedUser(r.value.1)
    ensures r.Ok? && ConsistentUser(st) ==> ConsistentUser(r.value.1)
  {
    var pool := ModePool(bank, st.progress, m);
    if m != AllMode && |pool| == 0 then Err(PoolError(m))
    else
      var typed := TypePool(pool, typeFilter);
      if |typed| == 0 then
        if 1 <= typeFilter <= 3 then Err(NoneOfType) else Err(EmptyPool)
      else
        var q := typed[choice % |typed|];
        var p := st.progress;
        var st' := if m == UnansweredMode then st.(progress := p.(answered := p.answered + {q.id})) else st;
        Ok((Picked(q, IntKey(q.id) in st'.progress.important), st'))
  }

  /** The question a choice selects, once the pools are known to be non-empty. */
  lemma PickIsTypedEntry(bank: seq<Question>, st: UserState, m: Mode, typeFilter: int, k: nat)
    requires var typed := TypePool(ModePool(bank, st.progress, m), typeFilter);
             k < |typed|
    ensures var typed := TypePool(ModePool(bank, st.progress, m), typeFilter);
            var r := PickQuestion(bank, st, m, typeFilter, k);
            r.Ok? && r.value.0.question == typed[k]
  {
    var pool := ModePool(bank, st.progress, m);
    var typed := TypePool(pool, typeFilter);
    assert |pool| > 0 by {
      assert typed[k] in pool;
    }
    SmallRemainder(k, |typed|);
  }

  lemma SmallRemainder(k: nat, n: nat)
    requires k < n
    ensures k % n == k
  {
  }

  /** Every eligible question is drawn for some value of the random generator. */
  lemma EveryEligibleQuestionCanBeDrawn(bank: seq<Question>, st: UserState, m: Mode, typeFilter: int, i: nat)
    requires i < |bank| && Eligible(bank[i], st.progress, m, typeFilter)
    ensures exists choice: nat :: PickQuestion(bank, st, m, typeFilter, choice).Ok?
                                 && PickQuestion(bank, st, m, typeFilter, choice).value.0.question == bank[i]
  {
    var typed := TypePool(ModePool(bank, st.progress, m), typeFilter);
    assert bank[i] in typed;
    var k :| 0 <= k < |typed| && typed[k] == bank[i];
    PickIsTypedEntry(bank, st, m, typeFilter, k);
  }

  /**
   * The last unanswered question: with only question `i` unanswered, the
   * unanswered mode draws it whatever the generator says, and the next
   * request reports that the bank is exhausted.
   */
  lemma LastUnansweredThenExhausted(bank: seq<Question>, st: UserState, i: nat, c1: nat, c2: nat)
    requires i < |bank| && bank[i].id !in st.progress.answered
    requires forall k :: 0 <= k < |bank| && bank[k].id != bank[i].id ==> bank[k].id in st.progress.answered
    ensures var r1 := PickQuestion(bank, st, UnansweredMode, 0, c1);
            && r1.Ok?
            && r1.value.0.question.id == bank[i].id
            && PickQuestion(bank, r1.value.1, UnansweredMode, 0, c2) == Err(AllAnswered)
  {
    var r1 := PickQuestion(bank, st, UnansweredMode, 0, c1);
    assert Eligible(bank[i], st.progress, UnansweredMode, 0);
    var st1 := r1.value.1;
    forall k | 0 <= k < |bank| ensures !InMode(bank[k], st1.progress, UnansweredMode) {
    }
  }
}

=== FILE: sorting.dfy ===
/**
 * Python's `list.sort` / `sorted`: a stable sort by a key. Every key the
 * engine sorts by is encoded as a pair of integers compared lexicographically,
 * so that ascending order of the pair is the order the program asks for
 * (a descending sort negates its key).
 */
module StableSort {

  datatype SortKey = SortKey(major: int, minor: int)

  predicate KeyLess(a: SortKey, b: SortKey) {
    a.major < b.major || (a.major == b.major && a.minor < b.minor)
  }

  predicate KeyLe(a: SortKey, b: SortKey) {
    !KeyLess(b, a)
  }

  predicate Sorted<T>(s: seq<T>, key: T -> SortKey) {
    forall i, j :: 0 <= i < j < |s| ==> KeyLe(key(s[i]), key(s[j]))
  }

  /** The elements of `s` whose key is `k`, in their order in `s`. */
  function Class<T>(s: seq<T>, key: T -> SortKey, k: SortKey): seq<T>
    decreases |s|
  {
    if |s| == 0 then [] else (if key(s[0]) == k then [s[0]] else []) + Class(s[1..], key, k)
  }

  /** Places `x` after every element whose key is not greater than its own. */
  function Insert<T>(x: T, s: seq<T>, key: T -> SortKey): (r: seq<T>)
    ensures multiset(r) == multiset(s) + multiset{x}
    ensures |r| == |s| + 1
    decreases |s|
  {
    if |s| == 0 then [x]
    else if KeyLess(key(x), key(s[0])) then [x] + s
    else
      assert s == [s[0]] + s[1..];
      [s[0]] + Insert(x, s[1..], key)
  }

  /** Insertion sort, taking the input's elements left to right. */
  function Sort<T>(s: seq<T>, key: T -> SortKey): (r: seq<T>)
    ensures multiset(r) == multiset(s)
    ensures |r| == |s|
    decreases |s|
  {
    if |s| == 0 then []
    else
      assert s == s[..|s| - 1] + [s[|s| - 1]];
      Insert(s[|s| - 1], Sort(s[..|s| - 1], key), key)
  }

  lemma {:induction false} InsertSorted<T>(x: T, s: seq<T>, key: T -> SortKey)
    requires Sorted(s, key)
    ensures Sorted(Insert(x, s, key), key)
    decreases |s|
  {
    if |s| > 0 && !KeyLess(key(x), key(s[0])) {
      InsertSorted(x, s[1..], key);
      var r := Insert(x, s, key);
      var tail := Insert(x, s[1..], key);
      assert r == [s[0]] + tail;
      forall j | 0 <= j < |tail| ensures KeyLe(key(s[0]), key(tail[j])) {
        assert tail[j] in multiset(tail);
        assert tail[j] in multiset(s[1..]) + multiset{x};
        if tail[j] != x {
          assert tail[j] in s[1..];
          var m :| 0 <= m < |s[1..]| && s[1..][m] == tail[j];
          assert s[m + 1] == tail[j];
        }
      }
    }
  }

  /** The sort's output is ordered by the key. */
  lemma {:induction false} SortSorted<T>(s: seq<T>, key: T -> SortKey)
    ensures Sorted(Sort(s, key), key)
    decreases |s|
  {
    if |s| > 0 {
      SortSorted(s[..|s| - 1], key);
      InsertSorted(s[|s| - 1], Sort(s[..|s| - 1], key), key);
    }
  }

  lemma {:induction false} ClassAppend<T>(s: seq<T>, x: T, key: T -> SortKey, k: SortKey)
    ensures Class(s + [x], key, k) == Class(s, key, k) + (if key(x) == k then [x] else [])
    decreases |s|
  {
    if |s| > 0 {
      assert (s + [x])[1..] == s[1..] + [x];
      ClassAppend(s[1..], x, key, k);
    }
  }

  lemma {:induction false} ClassOfGreater<T>(s: seq<T>, key: T -> SortKey, k: SortKey)
    requires forall j :: 0 <= j < |s| ==> KeyLess(k, key(s[j]))
    ensures Class(s, key, k) == []
    decreases |s|
  {
    if |s| > 0 {
      ClassOfGreater(s[1..], key, k);
    }
  }

  lemma {:induction false} InsertClass<T>(x: T, s: seq<T>, key: T -> SortKey, k: SortKey)
    requires Sorted(s, key)
    ensures Class(Insert(x, s, key), key, k) == Class(s, key, k) + (if key(x) == k then [x] else [])
    decreases |s|
  {
    if |s| > 0 {
      if KeyLess(key(x), key(s[0])) {
        if key(x) == k {
          forall j | 0 <= j < |s| ensures KeyLess(k, key(s[j])) {
            if j > 0 { assert KeyLe(key(s[0]), key(s[j])); }
          }
          ClassOfGreater(s, key, k);
        }
        assert ([x] + s)[1..] == s;
      } else {
        InsertClass(x, s[1..], key, k);
        assert ([s[0]] + Insert(x, s[1..], key))[1..] == Insert(x, s[1..], key);
      }
    }
  }

  /** Stability: for every key, the elements carrying it keep their relative order. */
  lemma {:induction false} SortStable<T>(s: seq<T>, key: T -> SortKey, k: SortKey)
    ensures Class(Sort(s, key), key, k) == Class(s, key, k)
    decreases |s|
  {
    if |s| > 0 {
      var init, x := s[..|s| - 1], s[|s| - 1];
      SortStable(init, key, k);
      SortSorted(init, key);
      InsertClass(x, Sort(init, key), key, k);
      assert s == init + [x];
      ClassAppend(init, x, key, k);
    }
  }

  lemma {:induction false} ClassOfUniform<T>(s: seq<T>, key: T -> SortKey, k: SortKey)
    requires forall j :: 0 <= j < |s| ==> key(s[j]) == k
    ensures Class(s, key, k) == s
    decreases |s|
  {
    if |s| > 0 {
      ClassOfUniform(s[1..], key, k);
      assert s == [s[0]] + s[1..];
    }
  }

  /** When every element has the same key (an unrecognised sort option) the order is left as it was. */
  lemma SortUniformIsIdentity<T>(s: seq<T>, key: T -> SortKey, k: SortKey)
    requires forall j :: 0 <= j < |s| ==> key(s[j]) == k
    ensures Sort(s, key) == s
  {
    var r := Sort(s, key);
    forall j | 0 <= j < |r| ensures key(r[j]) == k {
      assert r[j] in multiset(r);
      assert r[j] in multiset(s);
    }
    SortStable(s, key, k);
    ClassOfUniform(s, key, k);
    ClassOfUniform(r, key, k);
  }
}

=== FILE: store.dfy ===
/**
 * Persistence of a user's progress as a JSON document and the bookmark
 * toggle. Sets are written as lists and read back as sets; JSON object keys
 * are always strings, so the integer keys of the wrong-answer counters come
 * back as decimal strings; bookmark ids read back as digit strings are
 * normalised to integers.
 */
module Store {
  import opened Wrappers
  import opened PyOps
  import opened Model
  import Scoring

  // ----- Sets as lists ------------------------------------------------------------

  /** `list(s)`: the elements of a set, each once, in some order. */
  method ListOf<T(==)>(s: set<T>) returns (xs: seq<T>)
    ensures |xs| == |s|
    ensures forall x :: x in xs <==> x in s
    ensures forall i, j :: 0 <= i < j < |xs| ==> xs[i] != xs[j]
  {
    xs := [];
    var rest := s;
    while rest != {}
      invariant rest <= s
      invariant forall x :: x in xs <==> x in s && x !in rest
      invariant |xs| + |rest| == |s|
      invariant forall i, j :: 0 <= i < j < |xs| ==> xs[i] != xs[j]
      decreases |rest|
    {
      var x :| x in rest;
      xs := xs + [x];
      rest := rest - {x};
    }
  }

  // ----- Integer keys as JSON object keys -----------------------------------------

  /** `int(s)` for the strings `str(i)` produces: an optional minus sign and ASCII digits. */
  function ParseInt(s: string): Option<int> {
    if |s| > 1 && s[0] == '-' && IsDigits(s[1..]) then Some(-(ParseDigits(s[1..]) as int))
    else if IsDigits(s) then Some(ParseDigits(s))
    else None
  }

  lemma ParseIntOfDecimal(i: int)
    ensures ParseInt(IntToDecimal(i)) == Some(i)
  {
    var s := IntToDecimal(i);
    if i < 0 {
      assert s[1..] == NatToDecimal(-i);
      ParseOfDecimal(-i);
    } else {
      ParseOfDecimal(i);
      assert '0' <= s[0] <= '9';
    }
  }

  /** Whether a JSON key is exactly what `str` writes for some integer. */
  predicate Canonical(k: string) {
    ParseInt(k).Some? && IntToDecimal(ParseInt(k).value) == k
  }

  lemma DecimalInjectiveAll()
    ensures forall i, j :: IntToDecimal(i) == IntToDecimal(j) ==> i == j
  {
    forall i, j | IntToDecimal(i) == IntToDecimal(j) ensures i == j {
      DecimalInjective(i, j);
    }
  }

  /** `json.dump` of an integer-keyed dict: every key becomes its decimal string. */
  function SaveCounts(m: map<int, int>): (file: map<string, int>)
    ensures forall i :: IntToDecimal(i) in file <==> i in m
    ensures forall i :: i in m ==> file[IntToDecimal(i)] == m[i]
  {
    DecimalInjectiveAll();
    map i | i in m :: IntToDecimal(i) := m[i]
  }

  /** Every key of the dumped counters is exactly what `str` writes for some integer. */
  lemma SavedKeysCanonical(m: map<int, int>)
    ensures forall k :: k in SaveCounts(m) ==> Canonical(k)
  {
    forall k | k in SaveCounts(m) ensures Canonical(k) {
      var i :| i in m && IntToDecimal(i) == k;
      ParseIntOfDecimal(i);
    }
  }

  // ----- Bookmark ids ---------------------------------------------------------

  /** A digit string read back from the document becomes the integer it spells; anything else is kept. */
  function NormalizeKey(k: Key): Key {
    match k
    case IntKey(_) => k
    case StrKey(s) => if IsDigits(s) then IntKey(ParseDigits(s)) else k
  }

  predicate Normal(s: set<Key>) {
    forall k :: k in s ==> NormalizeKey(k) == k
  }

  /** Normalising twice is normalising once. */
  lemma NormalizeIdempotent(k: Key)
    ensures NormalizeKey(NormalizeKey(k)) == NormalizeKey(k)
  {
  }

  /** The string form of a non-negative id normalises to the id; a negative id's string form is left alone. */
  lemma NormalizeDecimal(i: int)
    ensures i >= 0 ==> NormalizeKey(StrKey(IntToDecimal(i))) == IntKey(i)
    ensures i < 0 ==> NormalizeKey(StrKey(IntToDecimal(i))) == StrKey(IntToDecimal(i))
  {
    if i >= 0 {
      ParseOfDecimal(i);
    } else {
      NegativeIsNotDigits(i);
    }
  }

  /** The bookmark set as read back from a stored list. */
  function LoadImportant(xs: seq<Key>): (s: set<Key>)
    ensures Normal(s)
    ensures forall k :: k in xs ==> NormalizeKey(k) in s
    ensures forall k :: k in s ==> exists x :: x in xs && NormalizeKey(x) == k
  {
    var s := set x | x in xs :: NormalizeKey(x);
    forall k | k in s ensures NormalizeKey(k) == k {
      var x :| x in xs && NormalizeKey(x) == k;
      NormalizeIdempotent(x);
    }
    s
  }

  // ----- The stored document -----------------------------------------------------

  /** A user's progress as it sits in the document: lists and a string-keyed object. */
  datatype StoredProgress = StoredProgress(
    answered: seq<int>,
    wrong: seq<int>,
    wrongCount: map<string, int>,
    important: seq<Key>)

  /**
   * The `wrong_count` object as dumped: the string keys loaded from the
   * document come first, this request's integer keys after them, and when a
   * document is read back the later entry for a key wins.
   */
  function SavedCounts(p: Progress): (file: map<string, int>)
    ensures file.Keys == p.loadedCounts.Keys + SaveCounts(p.wrongCount).Keys
    ensures forall i :: i in p.wrongCount ==> IntToDecimal(i) in file && file[IntToDecimal(i)] == p.wrongCount[i]
    ensures forall k :: k in p.loadedCounts && k !in SaveCounts(p.wrongCount) ==> file[k] == p.loadedCounts[k]
  {
    p.loadedCounts + SaveCounts(p.wrongCount)
  }

  /** Whether a stored document is a faithful projection of the in-memory progress. */
  predicate Projects(sp: StoredProgress, p: Progress) {
    && (set x | x in sp.answered) == p.answered
    && (set x | x in sp.wrong) == p.wrong
    && (set k | k in sp.important) == p.important
    && sp.wrongCount == SavedCounts(p)
  }

  /** `save_user_data`: every set is written as a list of its elements, each once. */
  method Persist(p: Progress) returns (sp: StoredProgress)
    ensures Projects(sp, p)
    ensures |sp.answered| == |p.answered| && |sp.wrong| == |p.wrong| && |sp.important| == |p.important|
  {
    var answered := ListOf(p.answered);
    var wrong := ListOf(p.wrong);
    var important := ListOf(p.important);
    sp := StoredProgress(answered, wrong, SavedCounts(p), important);
  }

  /**
   * `get_user_data`: lists back to sets and bookmark ids normalised; the
   * counters are left as the document has them, keyed by strings, so none
   * is found under an integer id.
   */
  function Restore(sp: StoredProgress): (p: Progress)
    ensures forall x :: x in p.answered <==> x in sp.answered
    ensures forall x :: x in p.wrong <==> x in sp.wrong
    ensures Normal(p.important)
    ensures forall k :: k in sp.important ==> NormalizeKey(k) in p.important
    ensures p.wrongCount == map[]
    ensures p.loadedCounts == sp.wrongCount
  {
    Progress((set x | x in sp.answered), (set x | x in sp.wrong), map[], LoadImportant(sp.important), sp.wrongCount)
  }

  /**
   * Saving and reloading gives back the answered and wrong sets and, when
   * they are in normal form, the bookmarks; every counter comes back only
   * under its id's decimal string, where no lookup by integer id finds it.
   */
  lemma RestoreProjection(sp: StoredProgress, p: Progress)
    requires Projects(sp, p) && Normal(p.important)
    ensures var r := Restore(sp);
            && r.answered == p.answered && r.wrong == p.wrong && r.important == p.important
            && r.wrongCount == map[]
            && forall i :: i in p.wrongCount ==> IntToDecimal(i) in r.loadedCounts && r.loadedCounts[IntToDecimal(i)] == p.wrongCount[i]
  {
    var r := Restore(sp);
    forall k | k in r.important ensures k in p.important {
      var x :| x in sp.important && NormalizeKey(x) == k;
    }
    assert r.important == p.important;
    assert r.answered == p.answered;
    assert r.wrong == p.wrong;
  }

  /**
   * The set half of the invariant survives a save and reload: every wrong
   * question is still answered, and the wrong set is still the log's ids.
   * It needs only the set half beforehand, so it holds across any number
   * of reloads.
   */
  lemma ConsistentAcrossReload(sp: StoredProgress, p: Progress, log: seq<WrongRecord>)
    requires Projects(sp, p)
    requires WrongLogged(p, log)
    ensures WrongLogged(Restore(sp), log)
    ensures Restore(sp).answered == p.answered && Restore(sp).wrong == p.wrong
  {
    var r := Restore(sp);
    assert r.answered == p.answered;
    assert r.wrong == p.wrong;
  }

  /**
   * The counter half does not: after a reload no wrong question has a
   * counter under its integer id, so the invariant fails as soon as the log
   * holds a record.
   */
  lemma ReloadLosesCounters(sp: StoredProgress, p: Progress, log: seq<WrongRecord>)
    requires Projects(sp, p)
    requires Consistent(p, log) && |log| > 0
    ensures !Consistent(Restore(sp), log)
  {
    var r := Restore(sp);
    assert log[0].questionId in LogIds(log);
    assert r.wrong == p.wrong;
  }

  // ----- Bookmark toggle ---------------------------------------------------------

  datatype ToggleError = MissingQuestionId

  /** Python truthiness of the request's `question_id`: missing, `0` and `""` are all rejected. */
  predicate Falsy(id: Option<Key>) {
    id == None || id == Some(IntKey(0)) || id == Some(StrKey(""))
  }

  /**
   * `toggle_important`: adds the id (as sent) to the bookmarks or discards it,
   * and replies with the requested mark whether or not anything changed.
   */
  function ToggleImportant(st: UserState, id: Option<Key>, mark: bool): (r: Result<(bool, UserState), ToggleError>)
    ensures r.Err? <==> Falsy(id)
    ensures r.Ok? ==>
              var (isImportant, st') := r.value;
              && isImportant == mark
              && (mark ==> st'.progress.important == st.progress.important + {id.value})
              && (!mark ==> st'.progress.important == st.progress.important - {id.value})
              && (id.value in st'.progress.important <==> mark)
              && st'.progress.answered == st.progress.answered
              && st'.progress.wrong == st.progress.wrong
              && st'.progress.wrongCount == st.progress.wrongCount
              && st'.progress.loadedCounts == st.progress.loadedCounts
              && st'.log == st.log && st'.exams == st.exams
    ensures r.Ok? && WrongLoggedUser(st) ==> WrongLoggedUser(r.value.1)
    ensures r.Ok? && ConsistentUser(st) ==> ConsistentUser(r.value.1)
  {
    if Falsy(id) then Err(MissingQuestionId)
    else
      var p := st.progress;
      var important := if mark then p.important + {id.value} else p.important - {id.value};
      Ok((mark, st.(progress := p.(important := important))))
  }

  /** Repeating a toggle changes nothing more. */
  lemma ToggleIdempotent(st: UserState, id: Option<Key>, mark: bool)
    requires !Falsy(id)
    ensures var st1 := ToggleImportant(st, id, mark).value.1;
            ToggleImportant(st1, id, mark).value.1 == st1
  {
  }

  /** Marking an id that was not bookmarked and then unmarking it restores the state. */
  lemma MarkThenUnmark(st: UserState, id: Option<Key>)
    requires !Falsy(id) && id.value !in st.progress.important
    ensures var st1 := ToggleImportant(st, id, true).value.1;
            ToggleImportant(st1, id, false).value.1 == st
  {
    var st1 := ToggleImportant(st, id, true).value.1;
    assert st1.progress.important - {id.value} == st.progress.important;
  }

  /** Every bookmark is still there after a save and reload, in normal form. */
  lemma BookmarkSurvivesReload(sp: StoredProgress, p: Progress, k: Key)
    requires Projects(sp, p) && k in p.important
    ensures NormalizeKey(k) in Restore(sp).important
  {
    assert k in (set x | x in sp.important);
  }

  /**
   * A bookmark sent as the string `"12"` is stored as a string but reads
   * back as the number 12; unmarking with the string afterwards does not
   * remove the number.
   */
  lemma StringBookmarkAfterReload(st: UserState, n: nat, sp: StoredProgress)
    requires n != 0
    requires ToggleImportant(st, Some(StrKey(IntToDecimal(n))), true).Ok?
    requires Projects(sp, ToggleImportant(st, Some(StrKey(IntToDecimal(n))), true).value.1.progress)
    ensures IntKey(n) in Restore(sp).important
    ensures var st2 := st.(progress := Restore(sp));
            ToggleImportant(st2, Some(StrKey(IntToDecimal(n))), false).Ok?
            && IntKey(n) in ToggleImportant(st2, Some(StrKey(IntToDecimal(n))), false).value.1.progress.important
  {
    var key := StrKey(IntToDecimal(n));
    BookmarkSurvivesReload(sp, ToggleImportant(st, Some(key), true).value.1.progress, key);
    NormalizeDecimal(n);
    UnmarkOtherKey(st.(progress := Restore(sp)), key, IntKey(n));
  }

  /** Unmarking one key leaves a different key bookmarked. */
  lemma UnmarkOtherKey(st: UserState, key: Key, other: Key)
    requires !Falsy(Some(key)) && key != other && other in st.progress.important
    ensures ToggleImportant(st, Some(key), false).Ok?
    ensures other in ToggleImportant(st, Some(key), false).value.1.progress.important
  {
  }

  // ----- The persisted counters across requests ------------------------------------

  /**
   * The stored counter of a question restarts at one on every request that
   * records it wrong, whatever the document held: `{"7": 2}` becomes `{"7": 1}`.
   */
  lemma CountRestartsAfterReload(sp: StoredProgress, st: UserState, q: Question, recorded: Raw, now: int)
    requires st.progress == Restore(sp)
    ensures var saved := SavedCounts(Scoring.RecordWrong(st, q, recorded, now).progress);
            && saved[IntToDecimal(q.id)] == 1
            && (sp.wrongCount == map["7" := 2] && q.id == 7 ==> saved == map["7" := 1])
  {
    FreshCounterSaved(Scoring.RecordWrong(st, q, recorded, now).progress, q.id);
  }

  /** Dumping a lone integer counter of one over the loaded string-keyed counters. */
  lemma FreshCounterSaved(p: Progress, q: int)
    requires p.wrongCount.Keys == {q} && p.wrongCount[q] == 1
    ensures SavedCounts(p)[IntToDecimal(q)] == 1
    ensures p.loadedCounts == map["7" := 2] && q == 7 ==> SavedCounts(p) == map["7" := 1]
  {
    if p.loadedCounts == map["7" := 2] && q == 7 {
      assert IntToDecimal(7) == "7";
      var saved := SavedCounts(p);
      assert forall k :: k in saved <==> k == "7";
    }
  }

  /** The counters of the document read back with their keys turned into integers again. */
  function LoadCounts(file: map<string, int>): (m: map<int, int>)
    ensures forall i :: i in m <==> IntToDecimal(i) in file
    ensures forall i :: i in m ==> m[i] == file[IntToDecimal(i)]
  {
    var m := map k | k in file && Canonical(k) :: ParseInt(k).value := file[k];
    forall i | IntToDecimal(i) in file ensures i in m {
      ParseIntOfDecimal(i);
    }
    m
  }

  /** Saving the counters and loading them back gives the same counters. */
  lemma CountsRoundTrip(m: map<int, int>)
    ensures LoadCounts(SaveCounts(m)) == m
  {
    var m' := LoadCounts(SaveCounts(m));
    assert forall i :: i in m' <==> i in m;
  }

  /** With nothing loaded as strings, re-keying the dumped counters gives them back. */
  lemma LoadSavedCounts(p: Progress)
    requires p.loadedCounts == map[]
    ensures LoadCounts(SavedCounts(p)) == p.wrongCount
  {
    assert SavedCounts(p) == SaveCounts(p.wrongCount);
    CountsRoundTrip(p.wrongCount);
  }

  /** `get_user_data` with the counters re-keyed by integer on load. */
  function RestoreCorrected(sp: StoredProgress): Progress {
    Restore(sp).(wrongCount := LoadCounts(sp.wrongCount), loadedCounts := map[])
  }

  /**
   * With the keys turned back into integers on load, the whole invariant
   * survives a save and reload.
   */
  lemma ConsistentAcrossCorrectedReload(sp: StoredProgress, p: Progress, log: seq<WrongRecord>)
    requires Projects(sp, p) && p.loadedCounts == map[]
    requires Consistent(p, log)
    ensures Consistent(RestoreCorrected(sp), log)
  {
    var r := RestoreCorrected(sp);
    LoadSavedCounts(p);
    assert r.wrongCount == p.wrongCount;
    assert r.answered == p.answered;
    assert r.wrong == p.wrong;
  }

  /**
   * With the keys turned back into integers on load, a request that records
   * a question wrong adds one to the stored counter and leaves the others.
   */
  lemma CountSurvivesReload(sp: StoredProgress, st: UserState, q: Question, recorded: Raw, now: int)
    requires st.progress == RestoreCorrected(sp)
    ensures var saved := SavedCounts(Scoring.RecordWrong(st, q, recorded, now).progress);
            var file := sp.wrongCount;
            && saved[IntToDecimal(q.id)] == (if IntToDecimal(q.id) in file then file[IntToDecimal(q.id)] else 0) + 1
            && forall i :: i != q.id && IntToDecimal(i) in file ==> saved[IntToDecimal(i)] == file[IntToDecimal(i)]
  {
    BumpedCountsSaved(sp.wrongCount, Scoring.RecordWrong(st, q, recorded, now).progress, q.id);
  }

  /** Saving counters that are the loaded ones with one of them bumped. */
  lemma BumpedCountsSaved(file: map<string, int>, p: Progress, q: int)
    requires p.loadedCounts == map[]
    requires var m := LoadCounts(file);
             && p.wrongCount.Keys == m.Keys + {q}
             && p.wrongCount[q] == (if q in m then m[q] else 0) + 1
             && forall x :: x in m && x != q ==> p.wrongCount[x] == m[x]
    ensures var saved := SavedCounts(p);
            && saved[IntToDecimal(q)] == (if IntToDecimal(q) in file then file[IntToDecimal(q)] else 0) + 1
            && forall i :: i != q && IntToDecimal(i) in file ==> saved[IntToDecimal(i)] == file[IntToDecimal(i)]
  {
    var m := LoadCounts(file);
    var saved := SavedCounts(p);
    forall i | i != q && IntToDecimal(i) in file
      ensures saved[IntToDecimal(i)] == file[IntToDecimal(i)]
    {
      assert i in m && p.wrongCount[i] == m[i];
    }
  }
}

=== FILE: wrappers.dfy ===
/** Failure-compatible wrappers shared by every module of the assessment engine. */
module Wrappers {

  /** A value that may be absent (Python's `None`). */
  datatype Option<+T> = None | Some(value: T)

  /** The outcome of an operation that either answers or reports a user-facing error. */
  datatype Result<+T, +E> = Ok(value: T) | Err(error: E)
}

=== FILE: wrongbook.dfy ===
/**
 * The wrong-answer book: every record of the wrong-answer log, annotated with
 * how often its question was answered wrong, the question's current bank
 * entry and its bookmark flag, grouped by type and sorted.
 */
module WrongBook {
  import opened Wrappers
  import opened PyOps
  import opened Model
  import opened StableSort

  /** `{q['id']: q for q in questions}[id]`: when ids repeat, the later question wins. */
  function LastMatch(bank: seq<Question>, id: int): (r: Option<Question>)
    ensures r.None? <==> forall k :: 0 <= k < |bank| ==> bank[k].id != id
    ensures r.Some? ==> exists k :: 0 <= k < |bank| && bank[k] == r.value && r.value.id == id
                                    && forall j :: k < j < |bank| ==> bank[j].id != id
    decreases |bank|
  {
    if |bank| == 0 then None
    else if bank[|bank| - 1].id == id then Some(bank[|bank| - 1])
    else LastMatch(bank[..|bank| - 1], id)
  }

  datatype WrongRow = WrongRow(record: WrongRecord, wrongCount: nat, question: Option<Question>, isImportant: bool)

  function Annotate(bank: seq<Question>, st: UserState, rec: WrongRecord): WrongRow {
    WrongRow(rec, CountWrong(st.log, rec.questionId), LastMatch(bank, rec.questionId), IntKey(rec.questionId) in st.progress.important)
  }

  function AnnotatedLog(bank: seq<Question>, st: UserState): (rows: seq<WrongRow>)
    ensures |rows| == |st.log|
    ensures forall k :: 0 <= k < |st.log| ==> rows[k] == Annotate(bank, st, st.log[k])
  {
    seq(|st.log|, k requires 0 <= k < |st.log| => Annotate(bank, st, st.log[k]))
  }

  function OfRecordType(t: QType): WrongRow -> bool {
    (r: WrongRow) => r.record.qtype == t
  }

  function ByTimeDescending(r: WrongRow): SortKey { SortKey(-r.record.timestamp, 0) }

  function ByCountDescending(r: WrongRow): SortKey { SortKey(-(r.wrongCount as int), 0) }

  function ByQuestionId(r: WrongRow): SortKey { SortKey(r.record.questionId, 0) }

  /** The three sort options, newest first by default; any other option keeps log order. */
  function SortWrong(rows: seq<WrongRow>, sortBy: string): (r: seq<WrongRow>)
    ensures multiset(r) == multiset(rows)
    ensures sortBy == "timestamp" ==> forall i, j :: 0 <= i < j < |r| ==> r[i].record.timestamp >= r[j].record.timestamp
    ensures sortBy == "count" ==> forall i, j :: 0 <= i < j < |r| ==> r[i].wrongCount >= r[j].wrongCount
    ensures sortBy == "id" ==> forall i, j :: 0 <= i < j < |r| ==> r[i].record.questionId <= r[j].record.questionId
    ensures sortBy != "timestamp" && sortBy != "count" && sortBy != "id" ==> r == rows
  {
    if sortBy == "timestamp" then
      SortSorted(rows, ByTimeDescending);
      var r := Sort(rows, ByTimeDescending);
      assert forall i, j :: 0 <= i < j < |r| ==> KeyLe(ByTimeDescending(r[i]), ByTimeDescending(r[j]));
      r
    else if sortBy == "count" then
      SortSorted(rows, ByCountDescending);
      var r := Sort(rows, ByCountDescending);
      assert forall i, j :: 0 <= i < j < |r| ==> KeyLe(ByCountDescending(r[i]), ByCountDescending(r[j]));
      r
    else if sortBy == "id" then
      SortSorted(rows, ByQuestionId);
      var r := Sort(rows, ByQuestionId);
      assert forall i, j :: 0 <= i < j < |r| ==> KeyLe(ByQuestionId(r[i]), ByQuestionId(r[j]));
      r
    else rows
  }

  /** The annotated records of one question type, sorted. */
  function Group(bank: seq<Question>, st: UserState, sortBy: string, t: QType): seq<WrongRow> {
    SortWrong(Filter(AnnotatedLog(bank, st), OfRecordType(t)), sortBy)
  }

  lemma GroupMembers(bank: seq<Question>, st: UserState, sortBy: string, t: QType, row: WrongRow)
    ensures row in Group(bank, st, sortBy, t) <==>
              exists k :: 0 <= k < |st.log| && st.log[k].qtype == t && row == Annotate(bank, st, st.log[k])
  {
    var typed := Filter(AnnotatedLog(bank, st), OfRecordType(t));
    SortedMembers(typed, sortBy, row);
    TypedMembers(bank, st, t, row);
  }

  /** Sorting neither adds nor drops a row. */
  lemma SortedMembers(rows: seq<WrongRow>, sortBy: string, row: WrongRow)
    ensures row in SortWrong(rows, sortBy) <==> row in rows
  {
    assert row in SortWrong(rows, sortBy) <==> row in multiset(SortWrong(rows, sortBy));
    assert row in rows <==> row in multiset(rows);
  }

  /** The annotated records of one type are exactly the annotations of that type's log records. */
  lemma TypedMembers(bank: seq<Question>, st: UserState, t: QType, row: WrongRow)
    ensures row in Filter(AnnotatedLog(bank, st), OfRecordType(t)) <==>
              exists k :: 0 <= k < |st.log| && st.log[k].qtype == t && row == Annotate(bank, st, st.log[k])
  {
    var rows := AnnotatedLog(bank, st);
    var typed := Filter(rows, OfRecordType(t));
    if row in typed {
      var k :| 0 <= k < |rows| && rows[k] == row;
      assert st.log[k].qtype == t && row == Annotate(bank, st, st.log[k]);
    }
    if exists k :: 0 <= k < |st.log| && st.log[k].qtype == t && row == Annotate(bank, st, st.log[k]) {
      var k :| 0 <= k < |st.log| && st.log[k].qtype == t && row == Annotate(bank, st, st.log[k]);
      assert rows[k] == row;
    }
  }

  /**
   * Each listed row is a log record of the group's type, carrying its
   * question's wrong count (at least one, since the record itself counts) and
   * its bookmark flag.
   */
  lemma GroupRows(bank: seq<Question>, st: UserState, sortBy: string, t: QType)
    ensures var g := Group(bank, st, sortBy, t);
            forall j :: 0 <= j < |g| ==>
              && g[j].record in st.log
              && g[j].record.qtype == t
              && g[j].wrongCount == CountWrong(st.log, g[j].record.questionId) >= 1
              && (g[j].isImportant <==> IntKey(g[j].record.questionId) in st.progress.important)
              && g[j].question == LastMatch(bank, g[j].record.questionId)
  {
    var g := Group(bank, st, sortBy, t);
    forall j | 0 <= j < |g|
      ensures g[j].record in st.log && g[j].record.qtype == t && g[j] == Annotate(bank, st, g[j].record)
    {
      GroupMembers(bank, st, sortBy, t, g[j]);
    }
  }

  datatype WrongBookView = WrongBookView(single: seq<WrongRow>, multi: seq<WrongRow>, trueFalse: seq<WrongRow>)

  /** `get_wrong_questions`. */
  function WrongQuestions(bank: seq<Question>, st: UserState, sortBy: string): WrongBookView {
    WrongBookView(Group(bank, st, sortBy, SingleChoice), Group(bank, st, sortBy, MultiChoice), Group(bank, st, sortBy, TrueFalse))
  }

  lemma {:induction false} FilterPartition(rows: seq<WrongRow>)
    ensures |Filter(rows, OfRecordType(SingleChoice))| + |Filter(rows, OfRecordType(MultiChoice))|
            + |Filter(rows, OfRecordType(TrueFalse))| == |rows|
    decreases |rows|
  {
    if |rows| > 0 {
      FilterPartition(rows[1..]);
    }
  }

  /** Every log record is listed exactly once across the three groups: no record is lost or repeated. */
  lemma WrongBookCoversLog(bank: seq<Question>, st: UserState, sortBy: string)
    ensures var v := WrongQuestions(bank, st, sortBy);
            |v.single| + |v.multi| + |v.trueFalse| == |st.log|
  {
    var rows := AnnotatedLog(bank, st);
    FilterPartition(rows);
    assert |Group(bank, st, sortBy, SingleChoice)| == |Filter(rows, OfRecordType(SingleChoice))| by {
      assert |multiset(Group(bank, st, sortBy, SingleChoice))| == |multiset(Filter(rows, OfRecordType(SingleChoice)))|;
    }
    assert |Group(bank, st, sortBy, MultiChoice)| == |Filter(rows, OfRecordType(MultiChoice))| by {
      assert |multiset(Group(bank, st, sortBy, MultiChoice))| == |multiset(Filter(rows, OfRecordType(MultiChoice)))|;
    }
    assert |Group(bank, st, sortBy, TrueFalse)| == |Filter(rows, OfRecordType(TrueFalse))| by {
      assert |multiset(Group(bank, st, sortBy, TrueFalse))| == |multiset(Filter(rows, OfRecordType(TrueFalse)))|;
    }
  }
}
